=== FILE: README.md ===
# UdonariumWithFly core rules, modelled in Dafny

This project models the sequential rules at the core of UdonariumWithFly, a
browser tabletop for role-playing games that several players share over
peer-to-peer connections. It proves properties about those rules. The model
covers:

- **Peer cursors** (`PeerCursors`). There is one presence cursor per player.
  Two advisory indexes sit beside the object store: user id → identifier and
  peer id → identifier. A lookup trusts a cache entry only if it still
  resolves in the store. Otherwise it scans the store in order and fills the
  cache. `apply` re-keys both indexes, and removal purges both. When a peer
  disconnects, a 30-second grace timer starts, after which the cursor is
  removed unless the peer has reconnected. The local cursor is created once,
  and a colour read back from localForage is adopted only if it is a
  well-formed colour code.
- **Chat palettes** (`ChatPalettes`). A palette is a multi-line text. Each
  line is either a `//name=value` variable or an ordinary line. The parse is
  computed lazily and invalidated by `setPalette` and `apply`. `evaluate`
  substitutes `{name}` placeholders in passes, for at most 129 passes. The
  palette colour has a fallback chain.
- **Chat messages** (`ChatMessages`). The addressee list and the tag list are
  the whitespace tokens of `to` and `tag`, and both are memoised. The
  classification predicates (direct, displayable, system, dice-bot,
  calculation, editable, judgement flags) are built from tag membership. The
  model also covers the `timestamp` attribute and the dice-result
  decoration.
- **Message construction** (`ChatMessageService`). It covers:
  - how an identifier resolves to an addressee id, a name, a colour and an
    image;
  - the face-icon "effective" flag;
  - timestamps that rise strictly within a tab;
  - per-tab filtering of operation-log entries by level.
- **The chat input box** (`ChatInputs`). It covers:
  - the input history that all boxes share (deduplicated, newest first,
    bounded);
  - history navigation;
  - the writing indicator;
  - the "who may chat" location rule;
  - the colour choice and the sorted stand-name list;
  - the cut-in log line;
  - the state changes of sending a message: the escape rule, the GM-mode
    phrase and the history update.
- **The character sheet** (`CharacterSheets`). It covers:
  - deleting an image or face icon while keeping the current index inside
    the list;
  - selection;
  - adding with a cap of eight;
  - replacing;
  - the edit toggle;
  - the visibility rule.
- **The character** (`GameCharacters`). It covers:
  - owner-based hiding, visibility and the table-wide stealth flag;
  - the chat-palette child, and the stand-list child that is created when it
    is missing;
  - the completion of missing `altitude`/`height` elements;
  - the derived height;
  - the owner's name and colour.

Objects whose fields the source updates in place are classes:

- `PeerCursorStore`
- `ChatPalette`
- `ChatMessage`
- `ChatTabList`
- `InputHistory`
- `ChatInput`
- `TabletopImages`
- `CharacterSheet`
- `GameCharacter`

Their methods state the complete new state. The pure rules are functions, and
lemmas relate them. `Strings` models the JavaScript string operations the
core relies on (`trim`, `\s`, `split`/`join`, `toLowerCase` on ASCII,
`Number` on decimal integers). It also models `StringUtil.toHalfWidth`, as
the shift of U+FF01..U+FF5E down to ASCII. The object store is modelled as a
sequence or map of the objects the rules tell apart. Clocks, timers and
network events are explicit parameters or explicit "timer fired" methods.

## Model

All source paths are in `src/app/`.

| member | source | states |
|---|---|---|
| PeerCursors.WithContext | src/app/class/peer-cursor.ts:193 | The base `apply` keeps the cursor's identifier and takes the incoming user id and peer id. |
| PeerCursors.IndexOfId | src/app/class/peer-cursor.ts:74-75 | A store lookup by identifier finds a position holding that identifier, and finds nothing exactly when the identifier is not in the store. |
| PeerCursors.FirstWithKey | src/app/class/peer-cursor.ts:76-84 | The scan's hit carries the key and no earlier cursor does; a miss means no cursor carries the key. |
| PeerCursors.LookupFindsStoredCursorWithKey | src/app/class/peer-cursor.ts:73-85 | With a sound cache, a cursor that `find` returns is in the store and its user id (or peer id) equals the key. |
| PeerCursors.LookupNoneIffNoCursorHasKey | src/app/class/peer-cursor.ts:73-85 | `find` returns null exactly when no cursor in the store has the key. |
| PeerCursors.LookupNeverReturnsRemoved | src/app/class/peer-cursor.ts:74-76 | A cursor that is no longer in the store is never returned, whatever the cache still maps to it. |
| PeerCursors.CacheAfterSound | src/app/class/peer-cursor.ts:77-81 | The cache entry written on a scan hit keeps every cache entry pointing at a stored cursor with that key. |
| PeerCursors.LookupStableAfterRefill | src/app/class/peer-cursor.ts:73-85 | Asking `find` again after it filled the cache returns the same result: the cache never changes an answer. |
| PeerCursors.Replace | src/app/class/peer-cursor.ts:193 | The store after `apply`: the same length, with only the cursor having that identifier replaced. |
| PeerCursors.Without | src/app/class/peer-cursor.ts:51 | `ObjectStore.remove`: exactly the other cursors stay, and the identifier set loses just that identifier. |
| PeerCursors.WithoutAbsent | src/app/class/peer-cursor.ts:47-52 | Removing a cursor that has already left the store changes nothing. |
| PeerCursors.Rekey | src/app/class/peer-cursor.ts:185-192 | A changed key is set to this cursor and the old key is deleted; an unchanged key leaves the index as it was; no other entry changes. |
| PeerCursors.ReplaceKeepsIds | src/app/class/peer-cursor.ts:182-194 | `apply` keeps the store's identifiers and keeps them distinct. |
| PeerCursors.RekeyKeepsCacheSound | src/app/class/peer-cursor.ts:182-194 | Re-keying followed by the base `apply` keeps an index sound: every entry resolves to a stored cursor with that key. |
| PeerCursors.DisconnectTimers | src/app/class/peer-cursor.ts:43-47 | A disconnect starts timers only for registered cursors whose peer id is the disconnected one, and for every such cursor. |
| PeerCursors.ColorCodeIsNormal | src/app/class/peer-cursor.ts:126-127 | A stored colour that already is `#` plus six lower-case hex digits is adopted unchanged. |
| PeerCursors.AdoptedColorIsColorCode | src/app/class/peer-cursor.ts:125-131 | Whatever localForage holds, the colour adopted from it is a colour code, and a well-formed stored one is kept. |
| PeerCursors.NormalizedColorIdempotent | src/app/class/peer-cursor.ts:126-127 | Normalising an adopted colour again gives the same colour. |
| PeerCursors.DefaultColorsAreColorCodes | src/app/class/peer-cursor.ts:29-31 | The default and transparent colours are colour codes themselves. |
| PeerCursors.WithoutKeepsDistinctIds | src/app/class/peer-cursor.ts:51 | Removing a cursor keeps the remaining identifiers distinct. |
| PeerCursors.PeerCursorStore.constructor | src/app/class/peer-cursor.ts:33-35 | The store, both indexes, the timers and the local cursor all start empty. |
| PeerCursors.PeerCursorStore.Add | src/app/class/peer-cursor.ts:41-55 | A cursor entering the store is appended, and its disconnect handler is registered. |
| PeerCursors.PeerCursorStore.Remove | src/app/class/peer-cursor.ts:58-63 | Removal takes the cursor out of the store, unregisters its handler and deletes both of its index entries. |
| PeerCursors.PeerCursorStore.ForgetKeys | src/app/class/peer-cursor.ts:61-62 | Exactly the cursor's user-id and peer-id entries are deleted. |
| PeerCursors.PeerCursorStore.Find | src/app/class/peer-cursor.ts:73-85 | `find` returns the specified lookup and leaves the index in the specified refilled state; the other index is untouched. |
| PeerCursors.PeerCursorStore.Scan | src/app/class/peer-cursor.ts:76-83 | The loop finds the first cursor in store order with the key. |
| PeerCursors.PeerCursorStore.FindByUserId | src/app/class/peer-cursor.ts:65-67 | `find` on the user-id index; the peer-id index is unchanged. |
| PeerCursors.PeerCursorStore.FindByPeerId | src/app/class/peer-cursor.ts:69-71 | `find` on the peer-id index; the user-id index is unchanged. |
| PeerCursors.PeerCursorStore.Apply | src/app/class/peer-cursor.ts:182-194 | Both indexes are re-keyed from the cursor's old ids to the incoming ones, then the fields are overwritten; the store stays valid. |
| PeerCursors.PeerCursorStore.OnDisconnectPeer | src/app/class/peer-cursor.ts:43-47 | The disconnect timers are queued after the pending ones. |
| PeerCursors.PeerCursorStore.FireGraceTimer | src/app/class/peer-cursor.ts:47-52 | When the oldest timer fires, nothing changes if its cursor's peer id is connected; otherwise the cursor leaves the store and both of its index entries go. |
| PeerCursors.PeerCursorStore.Expire | src/app/class/peer-cursor.ts:48-51 | The timer body deletes both index entries and removes the cursor; a cursor that is already gone stays gone. |
| PeerCursors.PeerCursorStore.CreateMyCursor | src/app/class/peer-cursor.ts:87-131 | An existing local cursor is returned and nothing changes; otherwise one fresh cursor with the network's peer id, the stored name and the adopted colour enters the store. |
| PeerCursors.PeerCursorStore.AddMine | src/app/class/peer-cursor.ts:92-94 | The local cursor is appended and becomes `myCursor`. |
| Strings.TrimEmptyIffAllSpace | src/app/class/chat-message.ts:76 | `trim()` is empty exactly when every character is white space. |
| Strings.ToNumberOfNatToString | src/app/class/chat-message.ts:68 | `Number` of the decimal text of a non-negative integer is that integer. |
| Strings.JoinSplit | src/app/class/chat-palette.ts:132 | Splitting the palette on line feeds loses nothing: joining the pieces back gives the source. |
| Strings.SplitJoin | src/app/class/chat-palette.ts:132 | Lines without line feeds, joined and split again, come back as the same lines. |
| ChatPalettes.VariableValue | src/app/class/chat-palette.ts:150 | A value the `(.+)` group captures is non-empty and has no line terminator. |
| ChatPalettes.HalfWidthKeepsNameChar | src/app/class/chat-palette.ts:150-153 | Converting a name character to half width gives a name character again. |
| ChatPalettes.ParsedVariableIsWellFormed | src/app/class/chat-palette.ts:149-157 | A parsed variable has a non-empty name without equals signs, braces or blanks, and a non-empty single-line value. |
| ChatPalettes.ParseVariableOfDefinition | src/app/class/chat-palette.ts:149-157 | Round trip: `//name=value` parses back to the variable, with the name in half width. |
| ChatPalettes.ParseVariableNeedsTwoSlashes | src/app/class/chat-palette.ts:150-151 | A line without a slash is not a variable definition. |
| ChatPalettes.LinesOf | src/app/class/chat-palette.ts:137-145 | Every ordinary line kept is one that does not parse as a variable. |
| ChatPalettes.ParseSplitsEveryLine | src/app/class/chat-palette.ts:137-145 | Every line goes to exactly one side: the variables plus the ordinary lines number as many as the lines. |
| ChatPalettes.PlainPaletteKeepsAllLines | src/app/class/chat-palette.ts:137-145 | A palette without definitions keeps all of its lines, in order, and defines no variable. |
| ChatPalettes.PlaceholderAt | src/app/class/chat-palette.ts:78 | A placeholder found at the start spans at least one character between its braces and fits inside the text. |
| ChatPalettes.PlaceholderName | src/app/class/chat-palette.ts:78 | The captured name is a non-empty suffix of the text between the braces. |
| ChatPalettes.NormalizeName | src/app/class/chat-palette.ts:86 | Normalising a name (dashes to `-`, half width, lower case) keeps its length. |
| ChatPalettes.DashesToHyphen | src/app/class/chat-palette.ts:86 | Each of the four dash characters becomes `-`, and every other character is kept. |
| ChatPalettes.LastMatch | src/app/class/chat-palette.ts:84-87 | A value is found exactly when some variable's normalised name equals the normalised placeholder name. |
| ChatPalettes.LastMatchWins | src/app/class/chat-palette.ts:84-87 | When several variables match, the last one in palette order gives the value. |
| ChatPalettes.PassReplacesIffPlaceholder | src/app/class/chat-palette.ts:75-81 | A pass sets `isContinue` exactly when the text holds a placeholder; a text without one comes back unchanged. |
| ChatPalettes.PassWithoutExtendShrinks | src/app/class/chat-palette.ts:78-124 | Without extra variables a pass never lengthens the text, and a pass that replaces something shortens it by at least three. |
| ChatPalettes.EvaluatedWithoutPlaceholder | src/app/class/chat-palette.ts:72-128 | A text without a placeholder evaluates to itself, whatever the variables. |
| ChatPalettes.EvaluatedWithoutExtendHasNoPlaceholder | src/app/class/chat-palette.ts:72-127 | Without extra variables, a text short enough for the pass limit ends with every placeholder gone. |
| ChatPalettes.PlaceholderNeedsThree | src/app/class/chat-palette.ts:78 | A text holding a placeholder has at least three characters. |
| ChatPalettes.ColorOf | src/app/class/chat-palette.ts:24-31 | The colour is never transparent. It is the palette colour when that is set and not transparent; otherwise the local cursor's colour when there is a cursor whose colour is not transparent; otherwise the default. |
| ChatPalettes.ChatPalette.constructor | src/app/class/chat-palette.ts:18-49 | A new palette holds its source, is not yet analysed, and has empty dice-bot and colour fields. |
| ChatPalettes.ChatPalette.Parse | src/app/class/chat-palette.ts:131-147 | After `parse` the cached lists are the parse of the current source, and the palette is marked analysed. |
| ChatPalettes.ChatPalette.PaletteLines | src/app/class/chat-palette.ts:36-39 | The ordinary lines of the current source, parsing first when the cache is stale. |
| ChatPalettes.ChatPalette.PaletteVariables | src/app/class/chat-palette.ts:41-44 | The variables of the current source, parsing first when the cache is stale. |
| ChatPalettes.ChatPalette.GetPalette | src/app/class/chat-palette.ts:51-54 | The lines of the current source, parsing first when the cache is stale. |
| ChatPalettes.ChatPalette.SetPalette | src/app/class/chat-palette.ts:56-59 | A new source marks the cache stale, so the next read reflects it. |
| ChatPalettes.ChatPalette.Apply | src/app/class/chat-palette.ts:160-163 | The synchronised fields are overwritten and the cache is marked stale. |
| ChatPalettes.ChatPalette.Color | src/app/class/chat-palette.ts:24-31 | The `color` getter is never transparent. It returns a real palette colour as it is, else the local cursor's colour when that is not transparent, else the default. |
| ChatPalettes.ChatPalette.SetColor | src/app/class/chat-palette.ts:32-34 | The setter writes `paletteColor`; a non-empty, non-transparent colour is what the getter returns afterwards. |
| ChatPalettes.ChatPalette.Evaluate | src/app/class/chat-palette.ts:61-129 | `evaluate` returns the bounded substitution over the current variables; it parses only when a placeholder needs the variables. |
| ChatPalettes.SortLines | src/app/class/chat-palette.ts:137-145 | The parse loop yields exactly the ordinary lines and the variables, in order. |
| ChatPalettes.MatchingVariable | src/app/class/chat-palette.ts:84-87 | The loop over the variables yields the last match. |
| ChatPalettes.Substitute | src/app/class/chat-palette.ts:72-127 | The `while` loop with its pass counter and `isContinue` flag computes the bounded substitution. |
| ChatMessages.WordsAreNonBlank | src/app/class/chat-message.ts:76 | Every token is non-empty and free of blanks. |
| ChatMessages.TokenisedIsTokens | src/app/class/chat-message.ts:73-79 | The getters' guarded split is the plain token list: the guard skips only strings that have no tokens. |
| ChatMessages.WordsEmptyIffBlank | src/app/class/chat-message.ts:76 | There are no tokens exactly when the trimmed string is empty. |
| ChatMessages.WordsEmptyIffAllSpace | src/app/class/chat-message.ts:90 | There are no tokens exactly when every character is white space. |
| ChatMessages.WordsOfJoin | src/app/class/chat-message.ts:90 | Round trip: tags joined with single spaces tokenise back to the same tags. |
| ChatMessages.DisplayableIff | src/app/class/chat-message.ts:99-102 | A non-direct message is always displayable; a direct one exactly when it is addressed to me, sent by me, or I am in GM mode. |
| ChatMessages.AddressedMessageHiddenFromOthers | src/app/class/chat-message.ts:99-102 | A message with addressees is direct, and is hidden from a viewer who is not an addressee, not the sender and not in GM mode. |
| ChatMessages.DicebotAndCalculateExclusive | src/app/class/chat-message.ts:104-105 | Dice-bot and calculation results exclude each other, each is a system message, and every system message from a dice source is one of the two. |
| ChatMessages.JudgementsImplyDicebot | src/app/class/chat-message.ts:107-116 | Success, failure, critical and fumble each imply a dice-bot result, and a non-dice-bot message counts as an empty roll. |
| ChatMessages.EditableOnlyOwnOrdinary | src/app/class/chat-message.ts:109 | Only the local user's own messages that are neither system nor operation log can be edited. |
| ChatMessages.TimestampOf | src/app/class/chat-message.ts:66-70 | The timestamp is 0 for a missing or empty attribute and 1 for a non-numeric one. |
| ChatMessages.TimestampRoundTrip | src/app/class/chat-message.ts:66-70 | A timestamp stored as decimal text reads back as itself. |
| ChatMessages.FindClose | src/app/class/chat-message.ts:329-330 | The lazy `(.+?)` closes at a delimiter occurrence at or after the content start, with no line break before it. |
| ChatMessages.FindCloseFirst | src/app/class/chat-message.ts:329-330 | Laziness: the close is the first delimiter occurrence, and when none is found, no occurrence is reachable before a line break. |
| ChatMessages.ReplaceDelimitedWithoutDelimiter | src/app/class/chat-message.ts:327-331 | A text without the delimiter character is not changed by decoration. |
| ChatMessages.DecorateSpecialDie | src/app/class/chat-message.ts:329 | `###c###` becomes `c` wrapped in the special-dice markup. |
| ChatMessages.DecorateDroppedDie | src/app/class/chat-message.ts:330 | `~~~c~~~` becomes `c` wrapped in the dropped-dice markup. |
| ChatMessages.ChatMessage.constructor | src/app/class/chat-message.ts:37-58 | A new message holds its fields, with `lastUpdate` 0 and nothing memoised. |
| ChatMessages.ChatMessage.SetText | src/app/class/chat-message.ts:62 | Setting the text to null stores the empty string. |
| ChatMessages.ChatMessage.SendTo | src/app/class/chat-message.ts:73-79 | `sendTo` is the token list of `to`; the memo is kept when `to` has not changed. |
| ChatMessages.ChatMessage.Tags | src/app/class/chat-message.ts:85-93 | `tags` is the token list of `tag`; the memo is kept when `tag` has not changed. |
| ChatMessages.ChatMessage.Timestamp | src/app/class/chat-message.ts:66-70 | The `timestamp` getter is 0 when the attribute is missing. |
| ChatMessages.ChatMessage.IsEdited | src/app/class/chat-message.ts:81-83 | A message is edited exactly when `lastUpdate` is positive. |
| ChatMessageService.FindId | src/app/service/chat-message.service.ts:127-135 | A character yields its identifier, a peer cursor its user id, anything else null. |
| ChatMessageService.FindObjectColor | src/app/service/chat-message.service.ts:147-155 | A peer cursor gives its own colour, and a character its chat palette's colour, which is never transparent. Anything else gives no colour (`null`). A character without a chat palette is the error case: the source throws. |
| ChatMessageService.CharacterColorFallsBack | src/app/service/chat-message.service.ts:150 | A character's colour follows the palette's fallback chain: palette colour, else the local cursor's colour, else the default. |
| ChatMessageService.AddresseeColor | src/app/service/chat-message.service.ts:97 | A built message's addressee colour is the peer's colour for a cursor, a non-transparent palette colour for a character, and `null` for anything else. |
| ChatMessageService.CalcTimeStamp | src/app/service/chat-message.service.ts:184-188 | The stamp is above the tab's latest and at least the current time: the time itself, or one past the latest. |
| ChatMessageService.BuildMessage | src/app/service/chat-message.service.ts:78-106 | Building fails exactly when the addressee is a character without a chat palette. Otherwise the message is from the local user, carries the text and colour given, and is stamped after the tab's latest message. |
| ChatMessageService.ObjectNameFallbacks | src/app/service/chat-message.service.ts:137-145 | A known character or peer always gets a non-empty name, a nameless one gets the placeholder name of its kind, and anything else is named by its identifier. |
| ChatMessageService.MessageNameStartsWithSender | src/app/service/chat-message.service.ts:157-163 | Without an addressee the name is the sender's; with one it is sender, ` ➡ `, addressee. |
| ChatMessageService.FindImageIdentifier | src/app/service/chat-message.service.ts:165-174 | A peer gives its cursor's image, and a missing or other object gives its own identifier. A character asked for its face icon gives what `findFaceIconIdentifier` reports when that is non-empty; a character not asked for it gives its image, or the empty string. |
| ChatMessageService.CharacterImageChoice | src/app/service/chat-message.service.ts:165-169 | A character's image is its usable face icon when face icons are asked for, otherwise its image, or the empty string. |
| ChatMessageService.NotEffectiveUsesFaceIcon | src/app/service/chat-message.service.ts:80-98 | When a usable face icon is requested, the message's image is that face icon, which is never empty. |
| ChatMessageService.EffectiveFlags | src/app/service/chat-message.service.ts:80-98 | Without a usable face icon, the tag ends in `noface`, each icon flag is 1 exactly when requested, and the aura passes through; with one, the tag is the game type alone, all three flags are 0 and the aura is -1. |
| ChatMessageService.UnaddressedMessage | src/app/service/chat-message.service.ts:87-94 | Without an addressee, the addressee's name, image and colour are all empty. |
| ChatMessageService.StampedAppendKeepsIncreasing | src/app/service/chat-message.service.ts:184-188 | Appending a message stamped by `calcTimeStamp` keeps a tab's timestamps strictly increasing. |
| ChatMessageService.OperationLog | src/app/service/chat-message.service.ts:111-121 | An operation-log entry is tagged `opelog` and stamped after the tab's latest message. |
| ChatMessageService.LogToTabAddsOneWhereShown | src/app/service/chat-message.service.ts:108-125 | A tab that shows the level gains exactly one `opelog` entry at the end; any other tab is unchanged; timestamps stay increasing. |
| ChatMessageService.ChatTabList.constructor | src/app/service/chat-message.service.ts:28-30 | The tab list holds the given tabs, each with increasing timestamps. |
| ChatMessageService.ChatTabList.SendMessage | src/app/service/chat-message.service.ts:78-106 | `sendMessage` appends the assembled message to its tab only, and timestamps stay increasing. When building throws, no tab changes. |
| ChatMessageService.ChatTabList.SendOperationLog | src/app/service/chat-message.service.ts:108-125 | Every tab becomes its filtered result, and no tab is added or lost. |
| ChatInputs.WithoutEntry | src/app/component/chat-input/chat-input.component.ts:654 | The filter keeps exactly the other entries, and an absent entry leaves the history as it was. |
| ChatInputs.WithoutEntryKeepsDistinct | src/app/component/chat-input/chat-input.component.ts:654 | Filtering keeps the history free of duplicates, and a present entry is removed exactly once. |
| ChatInputs.RecordedHistory | src/app/component/chat-input/chat-input.component.ts:653-661 | After sending, the text is the first entry and occurs once, there are no duplicates, the length stays below 1000, and the oldest entry goes only when the history was full and the text new. |
| ChatInputs.InputHistory.constructor | src/app/component/chat-input/chat-input.component.ts:89 | The shared history starts empty. |
| ChatInputs.InputHistory.Record | src/app/component/chat-input/chat-input.component.ts:654-658 | Filter, `unshift` and `pop` leave the history in its recorded state, still valid. |
| ChatInputs.NextHistoryIndex | src/app/component/chat-input/chat-input.component.ts:321-333 | The index stays in [-1, n-1], moves exactly one step when it can, and stays put only at either end. |
| ChatInputs.AllowsChat | src/app/component/chat-input/chat-input.component.ts:910-925 | The `switch` and the scan over the open connections compute the location rule. |
| ChatInputs.PaletteColor | src/app/component/chat-input/chat-input.component.ts:153-160 | The `paletteColor` getter never yields an empty colour. |
| ChatInputs.StoredPaletteColor | src/app/component/chat-input/chat-input.component.ts:162-164 | The setter never stores an empty colour. |
| ChatInputs.InputColorFallback | src/app/component/chat-input/chat-input.component.ts:153-180 | The input colour is never empty or transparent. It is the palette colour when that is real, else the cursor's colour when that is real, else the default colour. |
| ChatInputs.ClearedPaletteColorFallsBack | src/app/component/chat-input/chat-input.component.ts:162-180 | Clearing the palette colour hands the choice back to the cursor's colour. |
| ChatInputs.BelowTotal | src/app/component/chat-input/chat-input.component.ts:116 | The string order of `sort` is total. |
| ChatInputs.BelowTransitive | src/app/component/chat-input/chat-input.component.ts:116 | The string order of `sort` is transitive. |
| ChatInputs.Insert | src/app/component/chat-input/chat-input.component.ts:116 | One insertion step adds exactly the new element. |
| ChatInputs.InsertSorted | src/app/component/chat-input/chat-input.component.ts:116 | Inserting into a sorted list keeps it sorted. |
| ChatInputs.Sort | src/app/component/chat-input/chat-input.component.ts:116 | `sort` is a permutation of its input. |
| ChatInputs.SortSorts | src/app/component/chat-input/chat-input.component.ts:116 | The result of `sort` is sorted. |
| ChatInputs.StandNameList | src/app/component/chat-input/chat-input.component.ts:107-117 | The stand names are sorted and free of duplicates, and are exactly the non-empty names of the stands; no stands give an empty list. |
| ChatInputs.SetCount | src/app/component/chat-input/chat-input.component.ts:584 | `counter.set` gives the key its value and changes no other count; a new key goes to the end of the insertion order. |
| ChatInputs.SetCountKeepsValid | src/app/component/chat-input/chat-input.component.ts:580-585 | Setting a count keeps the counter's keys distinct and in step with its map. |
| ChatInputs.TallyCounts | src/app/component/chat-input/chat-input.component.ts:580-585 | The corrected counter holds, for every label, the number of cut-in names with that label, and only labels that occur. |
| ChatInputs.TallyValid | src/app/component/chat-input/chat-input.component.ts:580-585 | Both counter loops, as written and corrected, build valid insertion-ordered maps. |
| ChatInputs.UnnamedCutInsCountedOnce | src/app/component/chat-input/chat-input.component.ts:582-584 | Two unnamed cut-ins are counted once by the loop as written and twice once corrected. |
| ChatInputs.CountCutIns | src/app/component/chat-input/chat-input.component.ts:580-585 | The counter loop computes the corrected tally. |
| ChatInputs.CutInLog | src/app/component/chat-input/chat-input.component.ts:586-587 | The log line lists the tallied labels, in insertion order and joined with `、`, each followed by `×n` when it fired more than once. It is built over the corrected tally (see Findings). |
| ChatInputs.FirstEscapedColon | src/app/component/chat-input/chat-input.component.ts:359 | Finds the first escape character directly before a colon; if none is found, no such pair exists. |
| ChatInputs.UnescapeDropsOneEscape | src/app/component/chat-input/chat-input.component.ts:357-359 | An escaped command loses exactly the last escape character before its colon, and nothing else. |
| ChatInputs.CutTail | src/app/component/chat-input/chat-input.component.ts:592 | The cut never lengthens the text, and removes exactly the matched tail when the tail fits. |
| ChatInputs.GMPhraseFromIff | src/app/component/chat-input/chat-input.component.ts:647 | The regular-expression search succeeds exactly when the GM phrase occurs at some position. |
| ChatInputs.FullWidthGMPhrase | src/app/component/chat-input/chat-input.component.ts:647 | `ＧＭになります`, written in full-width letters, asks for GM mode. |
| ChatInputs.LowerCaseGMModePhrase | src/app/component/chat-input/chat-input.component.ts:647 | `gmモードになる` asks for GM mode: the match ignores case and allows the optional `モード`. |
| ChatInputs.SenderPeerId | src/app/component/chat-input/chat-input.component.ts:230-231 | The sender's peer is the peer id of the first cursor of that user in store order, or `?` when the user has no cursor. |
| ChatInputs.Outgoing | src/app/component/chat-input/chat-input.component.ts:357-663 | The text sent, if not blank, is the text after the escape or command step and the tail cut; GM mode is requested exactly when allowed and the phrase occurs. |
| ChatInputs.ChatInput.constructor | src/app/component/chat-input/chat-input.component.ts:55-92 | A new input box has an empty text, no addressee, index -1 and no one shown as writing. |
| ChatInputs.ChatInput.MoveHistory | src/app/component/chat-input/chat-input.component.ts:317-339 | Leaving the live line saves its text; the index takes its next value; moving past the oldest entry changes no text; returning to the live line restores the saved text or `''`. |
| ChatInputs.ChatInput.OnInput | src/app/component/chat-input/chat-input.component.ts:298-315 | The writing event goes out exactly when no throttle is pending and the text did not shrink, and then starts the throttle; a direct input addresses the addressee's peer. |
| ChatInputs.ChatInput.WritingIntervalElapsed | src/app/component/chat-input/chat-input.component.ts:309-311 | The 200 ms throttle ends. |
| ChatInputs.ChatInput.OnWritingAMessage | src/app/component/chat-input/chat-input.component.ts:257-267 | Events from self or for another tab are ignored; otherwise the peer is shown as writing. |
| ChatInputs.ChatInput.WritingPeerTimedOut | src/app/component/chat-input/chat-input.component.ts:260-262 | A peer whose 2 s timer runs out is no longer shown. |
| ChatInputs.ChatInput.OnMessageAdded | src/app/component/chat-input/chat-input.component.ts:227-237 | A message added in this tab stops showing its sender's peer as writing; other tabs change nothing. |
| ChatInputs.ChatInput.OnDisconnectPeer | src/app/component/chat-input/chat-input.component.ts:251-256 | An addressee whose peer disconnected is cleared; otherwise the addressee is kept. |
| ChatInputs.ChatInput.RememberSent | src/app/component/chat-input/chat-input.component.ts:653-661 | A non-empty input is recorded at the front of the shared history, and navigation restarts from the live line; an empty one changes nothing. |
| ChatInputs.ChatInput.SendChat | src/app/component/chat-input/chat-input.component.ts:345-683 | A key other than Enter changes nothing. Otherwise `sendChat` fills an empty sender. When the sending character has no chat palette, evaluation throws: nothing is emitted and the input and history stay. Otherwise it emits the outgoing text unless it is blank, reports the GM-mode switch, records the history and clears the input. |
| ChatInputs.ChatInput.Settle | src/app/component/chat-input/chat-input.component.ts:349-682 | The state changes around the message: the sender is filled in, the history is updated and the input is cleared. |
| CharacterSheets.IndexAfterDelete | src/app/component/game-character-sheet/game-character-sheet.component.ts:357-360 | After a deletion from n elements, the index lies in [0, max(0, n-2)]; it is lowered when past the deleted one, and kept when before it. |
| CharacterSheets.RemoveAt | src/app/component/game-character-sheet/game-character-sheet.component.ts:358 | `removeChild` drops exactly the element at the index, and a negative index removes nothing. |
| CharacterSheets.DeleteKeepsDesignatedElement | src/app/component/game-character-sheet/game-character-sheet.component.ts:357-360 | Deleting another element keeps the index on the same image; deleting the current one moves it to its successor, or to the new last image. |
| CharacterSheets.TrimAsWritten | src/app/component/game-character-sheet/game-character-sheet.component.ts:290-293 | The trimming loop as written never lengthens the list. |
| CharacterSheets.TrimAsWrittenLeavesNine | src/app/component/game-character-sheet/game-character-sheet.component.ts:290-293 | The loop as written trims ten images to nine, not eight. |
| CharacterSheets.Trim | src/app/component/game-character-sheet/game-character-sheet.component.ts:290-294 | The intended trim keeps exactly the first eight images of a longer list. |
| CharacterSheets.AddCapped | src/app/component/game-character-sheet/game-character-sheet.component.ts:289-297 | Below eight the value is appended; otherwise the list is cut to eight and the eighth holds the value; earlier elements are kept. |
| CharacterSheets.AddCappedBound | src/app/component/game-character-sheet/game-character-sheet.component.ts:289-297 | Adding never raises the count above the larger of eight and the previous count, and leaves exactly eight once eight were reached. |
| CharacterSheets.IsVisible | src/app/component/game-character-sheet/game-character-sheet.component.ts:485-491 | With no object shown the result is false; in GM mode everything shown is visible; a card is visible face up or in hand; other objects are visible. |
| CharacterSheets.CharacterSheet.constructor | src/app/component/game-character-sheet/game-character-sheet.component.ts:82 | A new sheet shows the given object and starts outside edit mode. |
| CharacterSheets.CharacterSheet.ToggleEditMode | src/app/component/game-character-sheet/game-character-sheet.component.ts:150-152 | The edit flag is negated. |
| CharacterSheets.CharacterSheet.SelectImage | src/app/component/game-character-sheet/game-character-sheet.component.ts:340-345 | The current image index becomes the argument, and selecting the current image changes nothing. |
| CharacterSheets.CharacterSheet.SelectIcon | src/app/component/game-character-sheet/game-character-sheet.component.ts:347-350 | The current icon index becomes the argument, and selecting the current icon changes nothing. |
| CharacterSheets.CharacterSheet.DeleteImage | src/app/component/game-character-sheet/game-character-sheet.component.ts:352-363 | Nothing happens for an empty list or an index past its end; otherwise the image goes and the index is adjusted. |
| CharacterSheets.CharacterSheet.DeleteIcon | src/app/component/game-character-sheet/game-character-sheet.component.ts:365-376 | As `deleteImage` on the icons, and only when no identifier is given or the element has it. |
| CharacterSheets.CharacterSheet.AddImage | src/app/component/game-character-sheet/game-character-sheet.component.ts:287-299 | An empty value changes nothing. Otherwise the images become the capped addition. The index is not negative, and a negative index becomes 0. An index that designated an image still does. After a trim of more than eight images, the index is the old one clamped to 0..7. |
| CharacterSheets.CharacterSheet.AddIcon | src/app/component/game-character-sheet/game-character-sheet.component.ts:245-268 | The same on the face icons: an empty value changes nothing; otherwise the capped addition, a negative index becomes 0, and after a trim the index is the old one clamped to 0..7. |
| CharacterSheets.CharacterSheet.ReplaceImage | src/app/component/game-character-sheet/game-character-sheet.component.ts:308-322 | An empty value changes nothing. `'null'` blanks the only image, keeping it, or otherwise deletes the current one; any other value replaces the current image's value. |
| GameCharacters.FirstChild | src/app/class/game-character.ts:46-49 | The first child of a kind: it has the kind and no earlier child does; none found means no child has it. |
| GameCharacters.FindElement | src/app/class/game-character.ts:36 | The first element with the name: none earlier has it; none found means no element has it. |
| GameCharacters.HeightMissing | src/app/class/game-character.ts:35-43 | Without a `height` element the height is 0. |
| GameCharacters.HeightOfElement | src/app/class/game-character.ts:35-43 | The height is 0 for a non-numeric value, and the number otherwise, multiplied by `size` exactly when `currentValue` is set. |
| GameCharacters.HeightOfNumber | src/app/class/game-character.ts:35-43 | A numeric height element yields `n * size` with `currentValue` set and `n` with it empty. |
| GameCharacters.WithAltitudeFinds | src/app/class/game-character.ts:92-95 | After the first step there is an altitude, and whether a height exists is unchanged. |
| GameCharacters.WithHeightFinds | src/app/class/game-character.ts:96-99 | After the second step there is a height, and an altitude that was there still is. |
| GameCharacters.ComplementedHasBoth | src/app/class/game-character.ts:91-100 | After `complement` both `altitude` and `height` exist. |
| GameCharacters.ComplementedComplete | src/app/class/game-character.ts:91-100 | A list that already has both elements is left unchanged. |
| GameCharacters.ComplementIdempotent | src/app/class/game-character.ts:91-100 | Running `complement` twice equals running it once. |
| GameCharacters.ComplementedKeeps | src/app/class/game-character.ts:91-100 | `complement` keeps every element and adds exactly one for each missing name. |
| GameCharacters.GameCharacter.constructor | src/app/class/game-character.ts:14-23 | A new character has no owner, lies on the table, and holds the given children and common elements. |
| GameCharacters.GameCharacter.HiddenVisibleOnlyToOwner | src/app/class/game-character.ts:81-82 | A hidden character is visible exactly to its owner, and one that is not hidden is visible to everybody. |
| GameCharacters.GameCharacter.ChatPalette | src/app/class/game-character.ts:45-50 | The first chat-palette child, or null when there is none. |
| GameCharacters.GameCharacter.StandList | src/app/class/game-character.ts:62-70 | The existing stand list is returned with the children unchanged; otherwise exactly one new stand list is appended and returned. |
| GameCharacters.GameCharacter.Complement | src/app/class/game-character.ts:91-100 | The common elements become their completion. |
| GameCharacters.GameCharacter.OwnerName | src/app/class/game-character.ts:52-55 | Null exactly when no cursor belongs to the owner; otherwise the name of such a cursor. |
| GameCharacters.GameCharacter.OwnerColor | src/app/class/game-character.ts:57-60 | `#444444` when no cursor belongs to the owner; otherwise the colour of such a cursor. |
| GameCharacters.IsStealthMode | src/app/class/game-character.ts:84-89 | True exactly when some character on the table is hidden and visible to the local user. |

## Findings

| source | as written | input that shows it | evidently intended | confidence | as-written member | corrected member |
|---|---|---|---|---|---|---|
| src/app/component/chat-input/chat-input.component.ts:580-586 | The counter reads each count under the cut-in name but stores it under the label, and an unnamed cut-in's label is `(無名のカットイン)`, not `''`. | Two unnamed cut-ins: the log line names the unnamed cut-in once instead of `(無名のカットイン)×2`. | Each label counted as often as it occurs. | not executed | ChatInputs.UnnamedCutInsCountedOnce | ChatInputs.TallyCounts |
| src/app/component/game-character-sheet/game-character-sheet.component.ts:290-293 | `for (i = 8; i < n; i++) deleteImage(i)` deletes from a list that shrinks with each deletion, so every other surplus image survives (the same loop with `deleteIcon` at lines 260-263). | Ten images: the ninth is deleted, `deleteImage(9)` finds no tenth, and nine images remain. | At most eight images, the eighth overwritten with the new one. | not executed | CharacterSheets.TrimAsWrittenLeavesNine | CharacterSheets.AddCapped |

The model uses the corrected behaviour. `CountCutIns` and `CutInLog` compute
the corrected tally. `AddImage` and `AddIcon` delete the surplus from the
last element down, which leaves the first eight.

## Left out

- The status-command block of `sendChat` (chat-input.component.ts:363-518) is not modelled. It depends on the dice bot, the command parser, data-element types, sound effects and randomness. What it leaves of the text is the parameter `commandEnd`.
- Stand and cut-in matching (`matchStandInfo`, `matchCutInInfo`) is not modelled, and neither are stand pop-ups, chat balloons or their events. The length of the longest matched word is the parameter `cut`, and the cut-in names are the input of `CountCutIns`.
- ChatInputs.ChatInput.SendChat: the palette exception at chat-input.component.ts:355 is modelled as a return that emits nothing, after the sender is filled in; the exception itself is not. The key test at line 348 is the parameter `isEnter`, which is true also when there is no event.
- ChatInputs.ChatInput.SendChat: of the emitted chat event only the text is modelled. The other fields (game type, colour, icon flags, stand data) are copies of state the model does not track.
- ChatInputs.ChatInput.OnInput: `PeerContext.parse` of the addressee's peer id is not shown and is taken to succeed, so the target is the cursor's peer id.
- The `UPDATE_GAME_OBJECT` handler of the chat input (chat-input.component.ts:238-250) is not modelled. It depends on the filtered character list and the `onlyCharacters` flag.
- ChatInputs.NextHistoryIndex: modelled for the directions +1 and -1, the only ones the key bindings pass.
- ChatInputs.Below: `sort` compares UTF-16 code units; the model compares characters, which agrees for characters of the Basic Multilingual Plane.
- Strings.ToLower: case folding is modelled for ASCII letters only.
- Strings.ToHalfWidth: `StringUtil.toHalfWidth` is not part of this model; it is taken to shift U+FF01..U+FF5E down to ASCII.
- `StringUtil.cr` is not part of this model; it is taken to be the identity.
- Strings.ToNumber: `Number()` is modelled for optionally signed decimal integers; fractions, exponents, hexadecimal and `Infinity` are left out. Heights and sizes are integers.
- ChatPalettes.Resolve: the `DataElement` lookups of `evaluate` (chat-palette.ts:88-121) are abstracted as one optional function from name to value. The prefix and suffix fallbacks (`最大`, `Max`, `基本`, `修正`, …) are not separated out.
- ChatMessageService.BuildMessage: `chatTab.addMessage` is taken to append, and `latestTimeStamp` is taken to be the last message's timestamp (0 for an empty tab).
- ChatMessageService.ChatTabList.SendOperationLog: one `now` is passed for all tabs. The source reads the clock separately for each tab (chat-message.service.ts:117 and 184-188), so the model does not capture the clock moving between tabs.
- `calibrateTimeOffset` and `getTime` use the network and clocks and are left out. The current time is the parameter `now`.
- The null guards on `tabletopObject` and `imageDataElement` in the character sheet are left out. The sheet always holds an object with image data.
- CharacterSheets.RemoveAt: the guard of `deleteImage` (game-character-sheet.component.ts:356) only bounds the index from above. A negative index passes the guard, so `removeChild(elements[index])` is called with `undefined`. `removeChild` belongs to the data element class, which is not part of this model, so what that call does is not stated here. The model treats a negative index as removing nothing.
- The tabletop object's `imageElement` is taken to be the image at `currntImageIndex`, and `imageFiles.length` the number of image elements; neither getter is part of this model.
- The shadow-image branch of `openModal`, the generic `openModal` branch and `openModalChangeAllCardImages` are left out. They write one element value and keep no index.
- GameCharacters.FindElement: `getElement` searches the common data element's children as a flat list, not the whole subtree.
- `calcImageAreaRect`, `showCaseOffset`, `showIconOffset` and the animations are floating-point layout and are left out.
- `PeerCursor.isPeerAUdon` is a cosmetic regular expression on the peer id and is left out.
- PeerCursors.PeerCursorStore.CreateMyCursor: storage access (localForage, `localStorage`, icon blobs, image decoding) is left out. The stored name and colour are parameters, and the icon is not modelled.
- PeerCursors.AdoptedColorIsColorCode: the legacy `localStorage` migration (peer-cursor.ts:107-116) is left out. It assigns the raw stored colour to the local cursor without any check (line 109). When that colour then fails the check at line 126, it stays on the cursor, and only the localForage item is removed (line 129). So the local cursor's colour is a colour code only on the localForage path the model covers.
- ChatMessageService.FindObjectColor: a character without a chat palette child (game-character.ts:45-50 returns `null`) makes `chatPalette.color` throw. The model returns `NoChatPalette`, and `BuildMessage` then gives `None` instead of an exception.
- Timers are explicit steps: `FireGraceTimer` for the 30 s grace timer, `WritingIntervalElapsed` for the 200 ms throttle and `WritingPeerTimedOut` for the 2 s writing timer. No time passes in the model.
- game-table.component.ts is rendering and mouse or touch handling and is not part of this model.
- Log formatting (`logFragmentText`, `logFragmentHtml`, `logCss`) is left out. It depends on date formatting and autolinking.
- Peer-to-peer synchronisation, the event system and the object store's own code are not part of this model. The store is a sequence or map, and `apply` overwrites the synchronised fields.

=== FILE: chat_input.dfy ===
/**
  The sequential rules of the chat input box (`ChatInputComponent`): the
  input history shared by every input box, navigation through it, the
  writing indicator, the "who may chat" location rule, the colour choice,
  the list of stand names, the cut-in log line, and the steps of sending a
  message that change the input's state.
 */
module ChatInputs {
  import opened Options
  import opened Strings
  import opened PeerCursors

  /** The history is popped once it reaches this many entries. */
  const MAX_HISTORY_NUM: nat := 1000
  /** The label a cut-in without a name is counted under. */
  const UNNAMED_CUT_IN: string := "(無名のカットイン)"
  const CUT_IN_SEPARATOR: string := "、"
  const CUT_IN_SUFFIX: string := " が起動した"

  predicate Distinct(s: seq<string>) {
    forall i, j :: 0 <= i < j < |s| ==> s[i] != s[j]
  }

  // ---------------------------------------------------------------------
  // History

  /** `history.filter(s => s !== t)` */
  function WithoutEntry(h: seq<string>, t: string): (r: seq<string>)
    ensures t !in r
    ensures forall x :: x in r <==> x in h && x != t
    ensures t !in h ==> r == h
  {
    if h == [] then []
    else (if h[0] == t then [] else [h[0]]) + WithoutEntry(h[1..], t)
  }

  lemma {:induction false} WithoutEntryKeepsDistinct(h: seq<string>, t: string)
    requires Distinct(h)
    ensures Distinct(WithoutEntry(h, t))
    ensures t in h ==> |WithoutEntry(h, t)| == |h| - 1
  {
    if h != [] {
      WithoutEntryKeepsDistinct(h[1..], t);
      assert h[0] !in h[1..];
      if h[0] != t {
        DistinctCons(h[0], WithoutEntry(h[1..], t));
      }
    }
  }

  lemma DistinctCons(x: string, w: seq<string>)
    requires x !in w && Distinct(w)
    ensures Distinct([x] + w)
  {
  }

  /** The history after sending `t`: `t` moved to the front, the oldest entry dropped once full. */
  function Recorded(h: seq<string>, t: string): seq<string> {
    var u := [t] + WithoutEntry(h, t);
    if |u| >= MAX_HISTORY_NUM then u[..|u| - 1] else u
  }

  /**
    After sending a text, the history starts with it, holds it once, stays
    free of duplicates and below the bound, and keeps every other entry in
    order; only when the history was full and the text new is the oldest
    entry dropped.
   */
  lemma RecordedHistory(h: seq<string>, t: string)
    requires Distinct(h) && |h| < MAX_HISTORY_NUM
    ensures var r := Recorded(h, t);
      |r| >= 1 && r[0] == t && Distinct(r) && |r| < MAX_HISTORY_NUM
      && (if |h| == MAX_HISTORY_NUM - 1 && t !in h then r == [t] + h[..|h| - 1]
          else r == [t] + WithoutEntry(h, t))
  {
    RecordedShape(h, t);
    RecordedDistinct(h, t);
  }

  lemma RecordedShape(h: seq<string>, t: string)
    requires Distinct(h) && |h| < MAX_HISTORY_NUM
    ensures Recorded(h, t) ==
      if |h| == MAX_HISTORY_NUM - 1 && t !in h then [t] + h[..|h| - 1] else [t] + WithoutEntry(h, t)
  {
    WithoutEntryKeepsDistinct(h, t);
    var u := [t] + WithoutEntry(h, t);
    if t !in h {
      assert u == [t] + h;
      if |h| == MAX_HISTORY_NUM - 1 {
        assert u[..|u| - 1] == [t] + h[..|h| - 1];
      }
    }
  }

  lemma RecordedDistinct(h: seq<string>, t: string)
    requires Distinct(h) && |h| < MAX_HISTORY_NUM
    ensures var r := Recorded(h, t); |r| >= 1 && r[0] == t && Distinct(r) && |r| < MAX_HISTORY_NUM
  {
    var w := WithoutEntry(h, t);
    WithoutEntryKeepsDistinct(h, t);
    DistinctCons(t, w);
    var u := [t] + w;
    if |u| >= MAX_HISTORY_NUM {
      DistinctPrefix(u, |u| - 1);
    }
  }

  lemma DistinctPrefix(s: seq<string>, k: nat)
    requires Distinct(s) && k <= |s|
    ensures Distinct(s[..k])
  {
  }

  /** The input history, a static list shared by every chat input box. */
  class InputHistory {
    var entries: seq<string>

    ghost predicate Valid()
      reads this
    {
      Distinct(entries) && |entries| < MAX_HISTORY_NUM
    }

    constructor ()
      ensures Valid() && entries == []
    {
      entries := [];
    }

    /** Filter out `t`, `unshift` it, and `pop` once the bound is reached. */
    method Record(t: string)
      requires Valid()
      modifies this
      ensures Valid()
      ensures entries == Recorded(old(entries), t)
    {
      RecordedHistory(entries, t);
      var h := WithoutEntry(entries, t);
      h := [t] + h;
      if |h| >= MAX_HISTORY_NUM {
        h := h[..|h| - 1];
      }
      entries := h;
    }
  }

  /**
    The history index after one step in `direction` (+1 older, -1 newer)
    through a history of `n` entries: it stays within [-1, n - 1], moves by
    exactly one step when it can, and stays put only at the ends.
   */
  function NextHistoryIndex(index: int, direction: int, n: nat): (r: int)
    requires direction == 1 || direction == -1
    requires -1 <= index <= n - 1 || (n == 0 && index == -1)
    ensures -1 <= r && r <= if n == 0 then -1 else n - 1
    ensures r == index + direction || (direction < 0 && index == -1 && r == -1) || (direction > 0 && index == n - 1 && r == index) || (n == 0 && r == -1)
  {
    if direction < 0 && index < 0 then -1
    else if direction > 0 && index >= n - 1 then n - 1
    else index + direction
  }

  /** Returning to the live line restores the saved text, or the empty string. */
  function RestoredText(tmpText: Option<string>): string {
    if tmpText.Some? && |tmpText.value| > 0 then tmpText.value else ""
  }

  // ---------------------------------------------------------------------
  // Who may chat, colours

  /** An open or closed connection to a peer, as `Network.peerContexts` lists them. */
  datatype PeerConnection = PeerConnection(peerId: string, isOpen: bool)

  /**
    The location rule: a character on the table or in the local player's
    hand may chat, one in the graveyard may not, nor may one in the hand of
    a peer connected right now; any other location may.
   */
  predicate ChatAllowed(locationName: string, myPeerId: string, conns: seq<PeerConnection>) {
    locationName == "table" || locationName == myPeerId
    || (locationName != "graveyard"
        && !(exists i :: 0 <= i < |conns| && conns[i].isOpen && conns[i].peerId == locationName))
  }

  /** `allowsChat`: the `switch` on the location and the scan over the open connections. */
  method AllowsChat(locationName: string, myPeerId: string, conns: seq<PeerConnection>) returns (r: bool)
    ensures r == ChatAllowed(locationName, myPeerId, conns)
  {
    if locationName == "table" || locationName == myPeerId {
      return true;
    }
    if locationName == "graveyard" {
      return false;
    }
    var i := 0;
    while i < |conns|
      invariant 0 <= i <= |conns|
      invariant forall k :: 0 <= k < i ==> !(conns[k].isOpen && conns[k].peerId == locationName)
    {
      if conns[i].isOpen && locationName == conns[i].peerId {
        return false;
      }
      i := i + 1;
    }
    return true;
  }

  /**
    `paletteColor`: the `paletteColor` of the sending character's chat
    palette when it is set (`None` when there is no character or palette),
    else the transparent colour.
   */
  function PaletteColor(characterPaletteColor: Option<string>): (r: string)
    ensures r != ""
  {
    if characterPaletteColor.Some? && characterPaletteColor.value != "" then characterPaletteColor.value
    else CHAT_TRANSPARENT_COLOR
  }

  /** What the `paletteColor` setter stores: the colour, or transparent for an empty one. */
  function StoredPaletteColor(color: string): (r: string)
    ensures r != ""
  {
    if color != "" then color else CHAT_TRANSPARENT_COLOR
  }

  /** `myColor`: the local cursor's colour when set and not transparent, else the default. */
  function MyColor(myCursorColor: Option<string>): string {
    if myCursorColor.Some? && myCursorColor.value != "" && myCursorColor.value != CHAT_TRANSPARENT_COLOR then
      myCursorColor.value
    else CHAT_DEFAULT_COLOR
  }

  /** `color`: the palette colour unless transparent, else `myColor`. */
  function InputColor(characterPaletteColor: Option<string>, myCursorColor: Option<string>): string {
    var p := PaletteColor(characterPaletteColor);
    if p != "" && p != CHAT_TRANSPARENT_COLOR then p else MyColor(myCursorColor)
  }

  /**
    The colour chain: never empty and never transparent; the palette colour
    wins when it is a real colour; otherwise the cursor's colour when it is
    one; otherwise the default.
   */
  lemma InputColorFallback(characterPaletteColor: Option<string>, myCursorColor: Option<string>)
    ensures var r := InputColor(characterPaletteColor, myCursorColor);
      r != "" && r != CHAT_TRANSPARENT_COLOR
      && (characterPaletteColor.Some? && characterPaletteColor.value !in {"", CHAT_TRANSPARENT_COLOR}
          ==> r == characterPaletteColor.value)
      && (!(characterPaletteColor.Some? && characterPaletteColor.value !in {"", CHAT_TRANSPARENT_COLOR})
          ==> r == MyColor(myCursorColor))
      && (!(characterPaletteColor.Some? && characterPaletteColor.value !in {"", CHAT_TRANSPARENT_COLOR})
          && myCursorColor.Some? && myCursorColor.value !in {"", CHAT_TRANSPARENT_COLOR}
          ==> r == myCursorColor.value)
      && (!(characterPaletteColor.Some? && characterPaletteColor.value !in {"", CHAT_TRANSPARENT_COLOR})
          && !(myCursorColor.Some? && myCursorColor.value !in {"", CHAT_TRANSPARENT_COLOR})
          ==> r == CHAT_DEFAULT_COLOR)
  {
  }

  /** Clearing the palette colour through the setter hands the choice back to the cursor's colour. */
  lemma ClearedPaletteColorFallsBack(myCursorColor: Option<string>)
    ensures InputColor(Some(StoredPaletteColor("")), myCursorColor) == MyColor(myCursorColor)
  {
  }

  // ---------------------------------------------------------------------
  // Stand names

  /** `a <= b` in the code-unit order `Array.prototype.sort` uses for strings. */
  predicate Below(a: string, b: string)
    decreases |a|
  {
    a == [] || (b != [] && (a[0] < b[0] || (a[0] == b[0] && Below(a[1..], b[1..]))))
  }

  lemma {:induction false} BelowTotal(a: string, b: string)
    ensures Below(a, b) || Below(b, a)
    decreases |a|
  {
    if a != [] && b != [] && a[0] == b[0] {
      BelowTotal(a[1..], b[1..]);
    }
  }

  lemma {:induction false} BelowTransitive(a: string, b: string, c: string)
    requires Below(a, b) && Below(b, c)
    ensures Below(a, c)
    decreases |a|
  {
    if a != [] && a[0] == b[0] && b[0] == c[0] {
      BelowTransitive(a[1..], b[1..], c[1..]);
    }
  }

  predicate Sorted(s: seq<string>) {
    forall i, j :: 0 <= i < j < |s| ==> Below(s[i], s[j])
  }

  /** One step of the sort: `x` placed before the first element it is below. */
  function Insert(s: seq<string>, x: string): (r: seq<string>)
    ensures multiset(r) == multiset(s) + multiset{x}
    ensures |r| == |s| + 1
  {
    if s == [] then [x]
    else if Below(x, s[0]) then [x] + s
    else
      assert s == [s[0]] + s[1..];
      [s[0]] + Insert(s[1..], x)
  }

  lemma {:induction false} InsertSorted(s: seq<string>, x: string)
    requires Sorted(s)
    ensures Sorted(Insert(s, x))
  {
    if s == [] {
    } else if Below(x, s[0]) {
      forall k | 0 <= k < |s|
        ensures Below(x, s[k])
      {
        if k > 0 {
          BelowTransitive(x, s[0], s[k]);
        }
      }
      SortedCons(x, s);
    } else {
      InsertSorted(s[1..], x);
      BelowTotal(x, s[0]);
      var r := Insert(s[1..], x);
      forall k | 0 <= k < |r|
        ensures Below(s[0], r[k])
      {
        assert r[k] in multiset(r);
        if r[k] != x {
          assert r[k] in multiset(s[1..]);
          var m :| 0 <= m < |s[1..]| && s[1..][m] == r[k];
          assert s[m + 1] == r[k];
        }
      }
      SortedCons(s[0], r);
    }
  }

  lemma SortedCons(y: string, r: seq<string>)
    requires Sorted(r) && forall k :: 0 <= k < |r| ==> Below(y, r[k])
    ensures Sorted([y] + r)
  {
    var s := [y] + r;
    forall i, j | 0 <= i < j < |s|
      ensures Below(s[i], s[j])
    {
      if i > 0 {
        assert s[i] == r[i - 1] && s[j] == r[j - 1];
      } else {
        assert s[j] == r[j - 1];
      }
    }
  }

  /** `ret.sort()` on strings. */
  function Sort(s: seq<string>): (r: seq<string>)
    ensures multiset(r) == multiset(s)
  {
    if s == [] then []
    else
      assert s == s[..|s| - 1] + [s[|s| - 1]];
      Insert(Sort(s[..|s| - 1]), s[|s| - 1])
  }

  lemma {:induction false} SortSorts(s: seq<string>)
    ensures Sorted(Sort(s))
  {
    if s != [] {
      SortSorts(s[..|s| - 1]);
      InsertSorted(Sort(s[..|s| - 1]), s[|s| - 1]);
    }
    assert s == [] ==> Sort(s) == [];
  }

  /** A named stand contributes its name; `None` is a stand without a name element. */
  predicate Named(n: Option<string>) { n.Some? && n.value != "" }

  /**
    `standNameList`: the distinct non-empty names of the stands, sorted.
    `names` lists each stand's name element in order.
   */
  method StandNameList(names: seq<Option<string>>) returns (r: seq<string>)
    ensures Sorted(r) && Distinct(r)
    ensures forall x :: x in r <==> exists i :: 0 <= i < |names| && names[i] == Some(x) && x != ""
    ensures names == [] ==> r == []
  {
    if |names| == 0 {
      return [];
    }
    var ret: seq<string> := [];
    var i := 0;
    while i < |names|
      invariant 0 <= i <= |names|
      invariant Distinct(ret)
      invariant forall x :: x in ret <==> exists k :: 0 <= k < i && names[k] == Some(x) && x != ""
    {
      if Named(names[i]) && names[i].value !in ret {
        ret := ret + [names[i].value];
      }
      i := i + 1;
    }
    r := Sort(ret);
    SortSorts(ret);
    DistinctPermutation(ret, r);
  }

  /** A permutation of a list without duplicates has none either, and the same elements. */
  lemma DistinctPermutation(a: seq<string>, b: seq<string>)
    requires Distinct(a) && multiset(a) == multiset(b)
    ensures Distinct(b)
    ensures forall x :: x in a <==> x in b
  {
    forall x
      ensures x in a <==> x in b
    {
      assert x in a <==> x in multiset(a);
      assert x in b <==> x in multiset(b);
    }
    forall i, j | 0 <= i < j < |b|
      ensures b[i] != b[j]
    {
      if b[i] == b[j] {
        assert multiset(b)[b[i]] >= 2 by {
          var rest := b[..i] + b[i + 1..j] + b[j + 1..];
          assert b == b[..i] + [b[i]] + b[i + 1..j] + [b[j]] + b[j + 1..];
          assert multiset(b) == multiset(rest) + multiset{b[i], b[j]};
        }
        DistinctCountsOnce(a, b[i]);
      }
    }
  }

  lemma {:induction false} DistinctCountsOnce(a: seq<string>, x: string)
    requires Distinct(a)
    ensures multiset(a)[x] <= 1
  {
    if a != [] {
      DistinctCountsOnce(a[1..], x);
      assert a == [a[0]] + a[1..];
      assert a[0] !in a[1..];
    }
  }

  // ---------------------------------------------------------------------
  // The cut-in log line

  /** The key a cut-in name is counted under. */
  function CutInLabel(name: string): string {
    if name == "" then UNNAMED_CUT_IN else name
  }

  /** How many of the names are counted under `key`. */
  function LabelCount(names: seq<string>, key: string): nat {
    if names == [] then 0
    else LabelCount(names[..|names| - 1], key) + (if CutInLabel(names[|names| - 1]) == key then 1 else 0)
  }

  /** A `Map<string, number>`: its keys in insertion order and their values. */
  datatype Counter = Counter(keys: seq<string>, counts: map<string, nat>)

  ghost predicate CounterValid(c: Counter) {
    Distinct(c.keys) && forall k :: k in c.counts <==> k in c.keys
  }

  /** `counter.set(key, value)`: a new key goes to the end, an existing one keeps its place. */
  function SetCount(c: Counter, key: string, value: nat): (r: Counter)
    ensures GetCount(r, key) == value && key in r.counts
    ensures forall k :: k != key ==> GetCount(r, k) == GetCount(c, k)
    ensures r.keys == if key in c.counts then c.keys else c.keys + [key]
  {
    if key in c.counts then Counter(c.keys, c.counts[key := value])
    else Counter(c.keys + [key], c.counts[key := value])
  }

  /** Setting a count keeps the keys free of duplicates and in step with the map. */
  lemma SetCountKeepsValid(c: Counter, key: string, value: nat)
    requires CounterValid(c)
    ensures CounterValid(SetCount(c, key, value))
  {
    if key !in c.counts {
      DistinctSnoc(c.keys, key);
    }
  }

  lemma DistinctSnoc(w: seq<string>, x: string)
    requires x !in w && Distinct(w)
    ensures Distinct(w + [x])
  {
  }

  function GetCount(c: Counter, key: string): nat {
    if key in c.counts then c.counts[key] else 0
  }

  /**
    The counter loop as written: the count is read under the name but
    stored under its label, so an unnamed cut-in always reads 0.
   */
  function TallyAsWritten(names: seq<string>): Counter {
    if names == [] then Counter([], map[])
    else
      var t := TallyAsWritten(names[..|names| - 1]);
      var name := names[|names| - 1];
      SetCount(t, CutInLabel(name), GetCount(t, name) + 1)
  }

  /** The counter loop with the count read under the same key it is stored under. */
  function Tally(names: seq<string>): Counter {
    if names == [] then Counter([], map[])
    else
      var t := Tally(names[..|names| - 1]);
      var key := CutInLabel(names[|names| - 1]);
      SetCount(t, key, GetCount(t, key) + 1)
  }

  /** The corrected counter holds, for every label, how many names carry it, and only labels that occur. */
  lemma {:induction false} TallyCounts(names: seq<string>)
    ensures forall k :: GetCount(Tally(names), k) == LabelCount(names, k)
    ensures forall k :: k in Tally(names).counts <==> LabelCount(names, k) > 0
  {
    if names != [] {
      TallyCounts(names[..|names| - 1]);
    }
  }

  /** Two unnamed cut-ins are logged as one by the loop as written, as two once corrected. */
  lemma UnnamedCutInsCountedOnce()
    ensures GetCount(TallyAsWritten(["", ""]), UNNAMED_CUT_IN) == 1
    ensures LabelCount(["", ""], UNNAMED_CUT_IN) == 2
    ensures GetCount(Tally(["", ""]), UNNAMED_CUT_IN) == 2
  {
    var one := [""];
    assert ["", ""][..1] == one;
    assert one[..0] == [];
    TallyCounts(["", ""]);
  }

  /** One entry of the log line: the key, followed by `×count` when it fired more than once. */
  function CutInEntry(key: string, count: nat): string {
    if count > 1 then key + "×" + NatToString(count) else key
  }

  function CutInEntries(c: Counter, keys: seq<string>): (r: seq<string>)
    ensures |r| == |keys|
  {
    if keys == [] then [] else [CutInEntry(keys[0], GetCount(c, keys[0]))] + CutInEntries(c, keys[1..])
  }

  /** Some name was counted, so the counter has a key. */
  lemma TallyHasKeys(names: seq<string>)
    requires |names| >= 1
    ensures |Tally(names).keys| >= 1
  {
    var init := names[..|names| - 1];
    TallyValid(init);
    if CutInLabel(names[|names| - 1]) in Tally(init).counts {
      assert CutInLabel(names[|names| - 1]) in Tally(init).keys;
    }
  }

  /** The counters both loops build are valid maps: distinct keys, each with its count. */
  lemma {:induction false} TallyValid(names: seq<string>)
    ensures CounterValid(Tally(names)) && CounterValid(TallyAsWritten(names))
  {
    if names != [] {
      var init := names[..|names| - 1];
      var name := names[|names| - 1];
      TallyValid(init);
      SetCountKeepsValid(Tally(init), CutInLabel(name), GetCount(Tally(init), CutInLabel(name)) + 1);
      SetCountKeepsValid(TallyAsWritten(init), CutInLabel(name), GetCount(TallyAsWritten(init), name) + 1);
    }
  }

  lemma TallyStep(names: seq<string>, i: nat)
    requires i < |names|
    ensures Tally(names[..i + 1])
      == SetCount(Tally(names[..i]), CutInLabel(names[i]), GetCount(Tally(names[..i]), CutInLabel(names[i])) + 1)
  {
    assert names[..i + 1][..i] == names[..i];
  }

  /** The counter loop over the cut-in names. */
  method CountCutIns(names: seq<string>) returns (counter: Counter)
    ensures counter == Tally(names)
  {
    counter := Counter([], map[]);
    assert names[..0] == [];
    var i := 0;
    while i < |names|
      invariant 0 <= i <= |names|
      invariant counter == Tally(names[..i])
    {
      var key := if names[i] == "" then UNNAMED_CUT_IN else names[i];
      var count := if key in counter.counts then counter.counts[key] else 0;
      count := count + 1;
      TallyStep(names, i);
      counter := SetCount(counter, key, count);
      i := i + 1;
    }
    assert names[..|names|] == names;
  }

  /**
    The operation-log line for the cut-ins that fired: each label once, in
    the order first seen, with its count when above one, joined with `、`.
   */
  method CutInLog(names: seq<string>) returns (text: string)
    requires |names| >= 1
    ensures |Tally(names).keys| >= 1
    ensures text == Join(CutInEntries(Tally(names), Tally(names).keys), CUT_IN_SEPARATOR) + CUT_IN_SUFFIX
  {
    var counter := CountCutIns(names);
    TallyHasKeys(names);
    text := Join(CutInEntries(counter, counter.keys), CUT_IN_SEPARATOR) + CUT_IN_SUFFIX;
  }

  // ---------------------------------------------------------------------
  // Sending

  predicate IsEscapeChar(c: char) { c == '\\' || c == '￥' }

  predicate IsColonChar(c: char) { c == ':' || c == '：' }

  /** `/^[\\￥]+[:：]/`: a run of backslashes or yen signs, then a colon. */
  predicate EscapedCommand(s: string) {
    var k := PrefixRun(s, IsEscapeChar);
    1 <= k < |s| && IsColonChar(s[k])
  }

  /** The position of the first escape character directly followed by a colon, from `i` on. */
  function FirstEscapedColon(s: string, i: nat): (r: Option<nat>)
    ensures r.Some? ==> i <= r.value && r.value + 1 < |s| && IsEscapeChar(s[r.value]) && IsColonChar(s[r.value + 1])
    ensures r.Some? ==> forall j :: i <= j < r.value ==> !(IsEscapeChar(s[j]) && IsColonChar(s[j + 1]))
    ensures r.None? ==> forall j :: i <= j && j + 1 < |s| ==> !(IsEscapeChar(s[j]) && IsColonChar(s[j + 1]))
    decreases |s| - i
  {
    if i + 1 >= |s| then None
    else if IsEscapeChar(s[i]) && IsColonChar(s[i + 1]) then Some(i)
    else FirstEscapedColon(s, i + 1)
  }

  /** `s.replace(/[\\￥]([:：])/, '$1')`: the first escape character before a colon is dropped. */
  function Unescape(s: string): string {
    match FirstEscapedColon(s, 0)
    case None => s
    case Some(i) => s[..i] + s[i + 1..]
  }

  /**
    Escaping a status command drops exactly the last escape character of
    the leading run, so a single one leaves a text that starts with the
    colon and is sent as chat instead of executed.
   */
  lemma UnescapeDropsOneEscape(s: string)
    requires EscapedCommand(s)
    ensures var k := PrefixRun(s, IsEscapeChar);
      Unescape(s) == s[..k - 1] + s[k..] && |Unescape(s)| == |s| - 1
      && (k == 1 ==> Unescape(s) == s[1..] && IsColonChar(Unescape(s)[0]))
  {
    var k := PrefixRun(s, IsEscapeChar);
    assert IsEscapeChar(s[k - 1]) && IsColonChar(s[k]);
  }

  /** The text after the escape rule and the status-command step; `commandEnd` is what the command parser leaves. */
  function AfterCommands(evaluated: string, commandEnd: string): string {
    if evaluated != "" && EscapedCommand(evaluated) then Unescape(evaluated)
    else if evaluated != "" && StartsWith(ToHalfWidth(evaluated), ":") then commandEnd
    else evaluated
  }

  /** `text.slice(0, text.length - cut)` */
  function CutTail(s: string, cut: nat): (r: string)
    ensures |r| <= |s|
    ensures cut <= |s| ==> r == s[..|s| - cut]
  {
    var end := |s| - cut;
    if end >= 0 then s[..end]
    else if |s| + end >= 0 then s[..|s| + end]
    else []
  }

  /** The text that is sent: the command steps applied, then the matched stand or cut-in words cut off. */
  function OutgoingText(evaluated: string, commandEnd: string, cut: nat): string {
    CutTail(AfterCommands(evaluated, commandEnd), cut)
  }

  /** `GM(?:モード)?にな(?:ります|る)` case-insensitively, at position `i`. */
  predicate GMPhraseAt(s: string, i: nat) {
    i + 2 <= |s| && LowerChar(s[i]) == 'g' && LowerChar(s[i + 1]) == 'm'
    && (NaruAt(s, i + 2) || (StartsWith(s[i + 2..], "モード") && NaruAt(s, i + 5)))
  }

  predicate NaruAt(s: string, j: nat) {
    j <= |s| && (StartsWith(s[j..], "になります") || StartsWith(s[j..], "になる"))
  }

  /** The scan `test` performs: the phrase at some position from `i` on. */
  predicate GMPhraseFrom(s: string, i: nat)
    decreases |s| - i
  {
    i < |s| && (GMPhraseAt(s, i) || GMPhraseFrom(s, i + 1))
  }

  /** The GM-mode phrase occurs in the half-width form of the text. */
  predicate GMModeRequested(text: string) {
    GMPhraseFrom(ToHalfWidth(text), 0)
  }

  lemma {:induction false} GMPhraseFromIff(s: string, i: nat)
    ensures GMPhraseFrom(s, i) <==> exists j :: i <= j && GMPhraseAt(s, j)
    decreases |s| - i
  {
    if i < |s| {
      GMPhraseFromIff(s, i + 1);
      forall j | i <= j && GMPhraseAt(s, j)
        ensures j == i || i + 1 <= j
      {
      }
    } else {
      forall j | i <= j
        ensures !GMPhraseAt(s, j)
      {
      }
    }
  }

  /** Announcing GM mode in full-width letters counts too: `ＧＭになります` turns GM mode on. */
  lemma FullWidthGMPhrase()
    ensures GMModeRequested("ＧＭになります")
  {
    var s := "ＧＭになります";
    var t := ToHalfWidth(s);
    assert HalfWidthChar(s[0]) == 'G' && HalfWidthChar(s[1]) == 'M';
    assert t == "GMになります";
    assert t[2..] == "になります";
    assert GMPhraseAt(t, 0);
  }

  /** The phrase is matched without regard to case and with the optional `モード`: `gmモードになる` turns GM mode on. */
  lemma LowerCaseGMModePhrase()
    ensures GMModeRequested("gmモードになる")
  {
    var s := "gmモードになる";
    HalfWidthOfPlainText(s);
    ModePhraseAtStart();
  }

  lemma HalfWidthOfPlainText(s: string)
    requires forall i :: 0 <= i < |s| ==> !('\U{FF01}' <= s[i] <= '\U{FF5E}')
    ensures ToHalfWidth(s) == s
  {
  }

  lemma ModePhraseAtStart()
    ensures GMPhraseAt("gmモードになる", 0)
  {
    var u := "gmモードになる";
    assert u[2..] == "モードになる";
    assert u[5..] == "になる";
  }

  /** The first cursor of the user `userId`, as `getObjects(PeerCursor).find` returns it. */
  function SenderPeerId(cursors: seq<Cursor>, userId: string): (r: string)
    ensures r == "?" || exists i :: 0 <= i < |cursors| && cursors[i].userId == userId && cursors[i].peerId == r
    ensures (forall i :: 0 <= i < |cursors| ==> cursors[i].userId != userId) ==> r == "?"
    ensures forall i :: 0 <= i < |cursors| && cursors[i].userId == userId ==>
      (forall j :: 0 <= j < i ==> cursors[j].userId != userId) ==> r == cursors[i].peerId
  {
    if cursors == [] then "?"
    else if cursors[0].userId == userId then cursors[0].peerId
    else
      var r := SenderPeerId(cursors[1..], userId);
      assert r != "?" ==> cursors[1..][0].userId == userId || exists i :: 0 <= i < |cursors[1..]| && cursors[1..][i].userId == userId && cursors[1..][i].peerId == r;
      r
  }

  /** The text is emitted unless it is blank. */
  function SentText(t: string): Option<string> {
    if Trim(t) != [] then Some(t) else None
  }

  /**
    What `sendChat` sends: the text after the command steps and the cut,
    unless it is blank; and whether it asks for GM mode while `mayTurnGM`
    (GM hold on, no addressee, not yet in GM mode).
   */
  method Outgoing(evaluated: string, commandEnd: string, cut: nat, mayTurnGM: bool) returns (sent: Option<string>, becomesGM: bool)
    ensures sent == SentText(OutgoingText(evaluated, commandEnd, cut))
    ensures becomesGM == (mayTurnGM && GMModeRequested(OutgoingText(evaluated, commandEnd, cut)))
  {
    var t := evaluated;
    if t != "" && EscapedCommand(t) {
      t := Unescape(t);
    } else if t != "" && StartsWith(ToHalfWidth(t), ":") {
      t := commandEnd;
    }
    t := CutTail(t, cut);
    becomesGM := mayTurnGM && GMPhraseFrom(ToHalfWidth(t), 0);
    sent := if Trim(t) != [] then Some(t) else None;
  }

  /** The state of one chat input box. */
  class ChatInput {
    /** The history every input box shares. */
    const history: InputHistory
    const chatTabidentifier: string
    var text: string
    /** The text on the live line, saved when the history is entered. */
    var tmpText: Option<string>
    var currentHistoryIndex: int
    var previousWritingLength: int
    /** The 200 ms throttle of the writing event is running. */
    var writingEventPending: bool
    /** The peers shown as writing; each has its own 2 s timer. */
    var writingPeers: set<string>
    var sendFrom: string
    var sendTo: string

    ghost predicate Valid()
      reads this, history
    {
      history.Valid() && -1 <= currentHistoryIndex < |history.entries|
    }

    constructor (history: InputHistory, chatTabidentifier: string, sendFrom: string)
      requires history.Valid()
      ensures Valid() && this.history == history && this.chatTabidentifier == chatTabidentifier
      ensures this.sendFrom == sendFrom && sendTo == "" && text == "" && tmpText == None
      ensures currentHistoryIndex == -1 && previousWritingLength == 0 && !writingEventPending && writingPeers == {}
    {
      this.history := history;
      this.chatTabidentifier := chatTabidentifier;
      this.text := "";
      this.tmpText := None;
      this.currentHistoryIndex := -1;
      this.previousWritingLength := 0;
      this.writingEventPending := false;
      this.writingPeers := {};
      this.sendFrom := sendFrom;
      this.sendTo := "";
    }

    /** The `text` setter. */
    method SetText(t: string)
      modifies this`text
      ensures text == t
    {
      text := t;
    }

    /** `isDirect` */
    function IsDirect(): bool
      reads this
    {
      sendTo != ""
    }

    /**
      `moveHistory` with direction +1 (older) or -1 (newer): leaving the live
      line saves its text; the index moves one step within the history;
      stepping past the oldest entry changes nothing else; returning to the
      live line restores the saved text.
     */
    method MoveHistory(direction: int)
      requires Valid() && (direction == 1 || direction == -1)
      modifies this`tmpText, this`currentHistoryIndex, this`text, this`previousWritingLength
      ensures Valid()
      ensures tmpText == if old(currentHistoryIndex) < 0 then Some(old(text)) else old(tmpText)
      ensures currentHistoryIndex == NextHistoryIndex(old(currentHistoryIndex), direction, |history.entries|)
      ensures if direction > 0 && old(currentHistoryIndex) >= |history.entries| - 1 then
          text == old(text) && previousWritingLength == old(previousWritingLength)
        else
          text == (if currentHistoryIndex == -1 then RestoredText(tmpText) else history.entries[currentHistoryIndex])
          && previousWritingLength == |text|
    {
      var entries := history.entries;
      if currentHistoryIndex < 0 {
        tmpText := Some(text);
      }
      if direction < 0 && currentHistoryIndex < 0 {
        currentHistoryIndex := -1;
      } else if direction > 0 && currentHistoryIndex >= |entries| - 1 {
        currentHistoryIndex := |entries| - 1;
        return;
      } else {
        currentHistoryIndex := currentHistoryIndex + direction;
      }
      var histText: string;
      if currentHistoryIndex < 0 {
        currentHistoryIndex := -1;
        histText := if tmpText.Some? && |tmpText.value| > 0 then tmpText.value else "";
      } else {
        histText := entries[currentHistoryIndex];
      }
      text := histText;
      previousWritingLength := |text|;
    }

    /**
      `onInput`: the writing event goes out only when the throttle is idle
      and the text did not shrink; it is addressed to the peer of the
      addressee's cursor when the input is direct.
     */
    method OnInput(cursors: map<string, Cursor>) returns (emitted: bool, target: Option<string>)
      modifies this`writingEventPending, this`previousWritingLength
      ensures emitted <==> !old(writingEventPending) && old(previousWritingLength) <= |text|
      ensures writingEventPending == (old(writingEventPending) || emitted)
      ensures previousWritingLength == |text|
      ensures target == if emitted && sendTo != "" && sendTo in cursors then Some(cursors[sendTo].peerId) else None
    {
      emitted := false;
      target := None;
      if !writingEventPending && previousWritingLength <= |text| {
        if IsDirect() && sendTo in cursors {
          target := Some(cursors[sendTo].peerId);
        }
        emitted := true;
        writingEventPending := true;
      }
      previousWritingLength := |text|;
    }

    /** The 200 ms throttle timer fires. */
    method WritingIntervalElapsed()
      modifies this`writingEventPending
      ensures !writingEventPending
    {
      writingEventPending := false;
    }

    /** `WRITING_A_MESSAGE`: another peer writing in this tab is shown (its timer restarted). */
    method OnWritingAMessage(isSendFromSelf: bool, tabIdentifier: string, peerId: string)
      modifies this`writingPeers
      ensures writingPeers == if isSendFromSelf || tabIdentifier != chatTabidentifier then old(writingPeers)
        else old(writingPeers) + {peerId}
    {
      if isSendFromSelf || tabIdentifier != chatTabidentifier {
        return;
      }
      if peerId !in writingPeers {
        writingPeers := writingPeers + {peerId};
      }
    }

    /** A peer's 2 s writing timer runs out. */
    method WritingPeerTimedOut(peerId: string)
      modifies this`writingPeers
      ensures writingPeers == old(writingPeers) - {peerId}
    {
      writingPeers := writingPeers - {peerId};
    }

    /** `MESSAGE_ADDED` in this tab: the sender's peer stops being shown as writing. */
    method OnMessageAdded(tabIdentifier: string, messageFrom: string, cursors: seq<Cursor>)
      modifies this`writingPeers
      ensures writingPeers == if tabIdentifier != chatTabidentifier then old(writingPeers)
        else old(writingPeers) - {SenderPeerId(cursors, messageFrom)}
    {
      if tabIdentifier != chatTabidentifier {
        return;
      }
      var peer := SenderPeerId(cursors, messageFrom);
      if peer in writingPeers {
        writingPeers := writingPeers - {peer};
      }
    }

    /** `DISCONNECT_PEER`: an addressee whose peer left is cleared. */
    method OnDisconnectPeer(peerId: string, cursors: map<string, Cursor>)
      modifies this`sendTo
      ensures sendTo == if old(sendTo) in cursors && cursors[old(sendTo)].peerId == peerId then "" else old(sendTo)
    {
      if sendTo in cursors && cursors[sendTo].peerId == peerId {
        sendTo := "";
      }
    }

    /**
      The history step of `sendChat`: a non-empty input goes to the front of
      the shared history and navigation restarts from the live line.
     */
    method RememberSent()
      requires Valid()
      modifies this`currentHistoryIndex, this`tmpText, history
      ensures Valid()
      ensures old(text) != "" ==>
                history.entries == Recorded(old(history.entries), old(text))
                && currentHistoryIndex == -1 && tmpText == None
      ensures old(text) == "" ==>
                history.entries == old(history.entries)
                && currentHistoryIndex == old(currentHistoryIndex) && tmpText == old(tmpText)
    {
      if text != "" {
        history.Record(text);
        currentHistoryIndex := -1;
        tmpText := None;
      }
    }

    /**
      The state changes of `sendChat`. `isEnter` is false for a key event
      other than Enter, on which `sendChat` returns at once. `evaluated` is
      the input text after the sending character's palette evaluation, or
      `None` when that character has no chat palette and the evaluation
      throws, after the sender was already filled in. `commandEnd` is what
      the status-command parser leaves of a command line, and `cut` the
      length of the longest stand or cut-in word matched at the end.
      Returns the text emitted (none when blank or aborted) and whether GM
      mode is switched on.
     */
    method SendChat(isEnter: bool, myPeerIdentifier: string, evaluated: Option<string>, commandEnd: string, cut: nat,
                    isGMHold: bool, myGMMode: bool) returns (sent: Option<string>, becomesGM: bool)
      requires Valid()
      modifies this`sendFrom, this`currentHistoryIndex, this`tmpText, this`text, this`previousWritingLength, history
      ensures Valid()
      ensures !isEnter ==> sendFrom == old(sendFrom)
      ensures isEnter ==> sendFrom == if old(sendFrom) == "" then myPeerIdentifier else old(sendFrom)
      ensures !isEnter || evaluated.None? ==>
                sent.None? && !becomesGM
                && text == old(text) && previousWritingLength == old(previousWritingLength)
                && history.entries == old(history.entries)
                && currentHistoryIndex == old(currentHistoryIndex) && tmpText == old(tmpText)
      ensures isEnter && evaluated.Some? ==>
                sent == SentText(OutgoingText(evaluated.value, commandEnd, cut))
                && becomesGM == (isGMHold && sendTo == "" && !myGMMode
                                 && GMModeRequested(OutgoingText(evaluated.value, commandEnd, cut)))
                && text == "" && previousWritingLength == 0
      ensures isEnter && evaluated.Some? && old(text) != "" ==>
                history.entries == Recorded(old(history.entries), old(text))
                && currentHistoryIndex == -1 && tmpText == None
      ensures isEnter && evaluated.Some? && old(text) == "" ==>
                history.entries == old(history.entries)
                && currentHistoryIndex == old(currentHistoryIndex) && tmpText == old(tmpText)
    {
      if !isEnter {
        return None, false;
      }
      if |sendFrom| == 0 {
        sendFrom := myPeerIdentifier;
      }
      if evaluated.None? {
        return None, false;
      }
      sent, becomesGM := Outgoing(evaluated.value, commandEnd, cut, isGMHold && sendTo == "" && !myGMMode);
      Settle(myPeerIdentifier);
    }

    /**
      The state changes of `sendChat` around the message: the sender filled
      in when empty, the text remembered in the history, the input cleared.
     */
    method Settle(myPeerIdentifier: string)
      requires Valid()
      modifies this`sendFrom, this`currentHistoryIndex, this`tmpText, this`text, this`previousWritingLength, history
      ensures Valid()
      ensures sendFrom == if old(sendFrom) == "" then myPeerIdentifier else old(sendFrom)
      ensures old(text) != "" ==>
                history.entries == Recorded(old(history.entries), old(text))
                && currentHistoryIndex == -1 && tmpText == None
      ensures old(text) == "" ==>
                history.entries == old(history.entries)
                && currentHistoryIndex == old(currentHistoryIndex) && tmpText == old(tmpText)
      ensures text == "" && previousWritingLength == 0
    {
      if |sendFrom| == 0 {
        sendFrom := myPeerIdentifier;
      }
      RememberSent();
      text := "";
      previousWritingLength := 0;
    }
  }
}

=== FILE: chat_message.dfy ===
/**
  A chat message (`ChatMessage`): its addressee and tag lists, tokenised from
  white-space separated strings and memoised; the boolean classification
  getters built on tag membership; the timestamp attribute; and the markup
  of special and dropped dice in a dice-bot result.
 */
module ChatMessages {
  import opened Options
  import opened Strings

  predicate NotSpace(c: char) { !IsSpace(c) }

  predicate NoSpace(w: string) { forall i :: 0 <= i < |w| ==> !IsSpace(w[i]) }

  /**
    `s.trim().split(/\s+/)` for a string with a non-blank character: the
    maximal runs of non-blank characters, in order.
   */
  function Words(s: string): seq<string>
    decreases |s|
  {
    if s == [] then []
    else if IsSpace(s[0]) then Words(s[1..])
    else
      var k := PrefixRun(s, NotSpace);
      assert k >= 1 by {
        assert NotSpace(s[0]);
      }
      [s[..k]] + Words(s[k..])
  }

  /** Every word is non-empty and free of blanks. */
  predicate AreWords(ws: seq<string>) {
    forall i :: 0 <= i < |ws| ==> ws[i] != [] && NoSpace(ws[i])
  }

  /** The first word of a string that does not start with a blank is its leading run of non-blanks. */
  lemma WordsStep(t: string)
    requires t != [] && !IsSpace(t[0])
    ensures PrefixRun(t, NotSpace) >= 1
    ensures Words(t) == [t[..PrefixRun(t, NotSpace)]] + Words(t[PrefixRun(t, NotSpace)..])
    ensures NoSpace(t[..PrefixRun(t, NotSpace)])
  {
    assert NotSpace(t[0]);
  }

  lemma {:induction false} WordsAreNonBlank(s: string)
    ensures AreWords(Words(s))
    decreases |s|
  {
    if s == [] {
    } else if IsSpace(s[0]) {
      WordsAreNonBlank(s[1..]);
    } else {
      WordsStep(s);
      var k := PrefixRun(s, NotSpace);
      WordsAreNonBlank(s[k..]);
      ConsWord(s[..k], Words(s[k..]));
    }
  }

  lemma ConsWord(w: string, ws: seq<string>)
    requires w != [] && NoSpace(w) && AreWords(ws)
    ensures AreWords([w] + ws)
  {
  }

  /**
    `sendTo` and `tags`: the words of the string, or none when it is null or
    blank.
   */
  function Tokens(s: Option<string>): seq<string> {
    match s
    case None => []
    case Some(t) => Words(t)
  }

  /** The getters' own computation: the split of the trimmed string, guarded by its being non-blank. */
  function Tokenised(s: Option<string>): seq<string> {
    if s.Some? && 0 < |Trim(s.value)| then Words(s.value) else []
  }

  /** The guarded split is the plain split: the guard only skips strings that have no words. */
  lemma TokenisedIsTokens(s: Option<string>)
    ensures Tokenised(s) == Tokens(s)
  {
    if s.Some? {
      WordsEmptyIffBlank(s.value);
    }
  }

  /** The guard `0 < s.trim().length` of the source agrees with the split: a blank string has no words. */
  lemma WordsEmptyIffBlank(s: string)
    ensures Words(s) == [] <==> Trim(s) == []
  {
    TrimEmptyIffAllSpace(s);
    WordsEmptyIffAllSpace(s);
  }

  lemma {:induction false} WordsEmptyIffAllSpace(s: string)
    ensures Words(s) == [] <==> forall i :: 0 <= i < |s| ==> IsSpace(s[i])
    decreases |s|
  {
    if s != [] && IsSpace(s[0]) {
      WordsEmptyIffAllSpace(s[1..]);
      assert forall i :: 1 <= i < |s| ==> s[i] == s[1..][i - 1];
    } else if s != [] {
      WordsStep(s);
    }
  }

  lemma WordsSkipsBlank(c: char, s: string)
    requires IsSpace(c)
    ensures Words([c] + s) == Words(s)
  {
    assert ([c] + s)[1..] == s;
  }

  /** A non-blank word followed by a blank and more text splits off as the first word. */
  lemma FirstWord(w: string, tail: string)
    requires w != [] && NoSpace(w)
    requires tail == [] || IsSpace(tail[0])
    ensures Words(w + tail) == [w] + Words(tail)
  {
    var s := w + tail;
    assert s[0] == w[0];
    WordsStep(s);
    assert forall i :: 0 <= i < |w| ==> NotSpace(s[i]);
    PrefixRunExact(s, NotSpace, |w|);
    assert s[..|w|] == w;
    assert s[|w|..] == tail;
  }

  /** Joining blank-free words with single spaces and tokenising again gives the words back. */
  lemma {:induction false} WordsOfJoin(ws: seq<string>)
    requires |ws| >= 1
    requires AreWords(ws)
    ensures Words(Join(ws, " ")) == ws
  {
    var w := ws[0];
    if |ws| == 1 {
      assert w + [] == w;
      FirstWord(w, []);
    } else {
      var rest := Join(ws[1..], " ");
      var tail := [' '] + rest;
      assert Join(ws, " ") == w + tail by {
        assert Join(ws, " ") == w + " " + rest;
        assert " " == [' '];
      }
      FirstWord(w, tail);
      WordsSkipsBlank(' ', rest);
      assert AreWords(ws[1..]);
      WordsOfJoin(ws[1..]);
      assert ws == [w] + ws[1..];
    }
  }

  /** The local viewer: the peer context's user id and, if there is a local cursor, its GM flag. */
  datatype Viewer = Viewer(userId: string, myCursorGMMode: Option<bool>)

  /** The synchronised fields the classification reads. `None` stands for a null or missing value. */
  datatype MessageData = MessageData(
    originFrom: Option<string>,
    from: string,
    to: Option<string>,
    tag: Option<string>,
    text: string,
    characterIdentifier: string,
    lastUpdate: int)

  function SendTo(d: MessageData): seq<string> { Tokens(d.to) }

  function Tags(d: MessageData): seq<string> { Tokens(d.tag) }

  predicate HasTag(d: MessageData, t: string) { t in Tags(d) }

  predicate IsGMMode(v: Viewer) { v.myCursorGMMode.GetOr(false) }

  predicate IsDirect(d: MessageData) { 0 < |SendTo(d)| || HasTag(d, "direct") }

  predicate IsSendFromSelf(d: MessageData, v: Viewer) {
    d.from == v.userId || d.originFrom == Some(v.userId) || HasTag(d, "mine")
  }

  predicate IsRelatedToMe(d: MessageData, v: Viewer) {
    v.userId in SendTo(d) || IsSendFromSelf(d, v) || IsGMMode(v)
  }

  predicate IsDisplayable(d: MessageData, v: Viewer) {
    if IsDirect(d) then IsRelatedToMe(d, v) else true
  }

  predicate IsSystem(d: MessageData) { HasTag(d, "system") }

  predicate IsOperationLog(d: MessageData) { HasTag(d, "opelog") }

  predicate IsSecret(d: MessageData) { HasTag(d, "secret") }

  /**
    `/^C\(.+\) →/i`: the text opens with `C(` in either case, and a `) →`
    follows after at least one character, all on the first line.
   */
  predicate IsCalculationResult(text: string) {
    |text| >= 2 && (text[0] == 'C' || text[0] == 'c') && text[1] == '(' && ArrowAfter(text[2..], 1)
  }

  /** `.+\) →` from position `j` on: `) →` at some position at or after `j`, no line break before it. */
  predicate ArrowAfter(s: string, j: nat)
    requires j >= 1
    decreases |s| - j
  {
    j + 3 <= |s| && !IsLineTerminator(s[j - 1])
    && (s[j..j + 3] == ") →" || ArrowAfter(s, j + 1))
  }

  predicate FromDice(d: MessageData) { Contains(d.from, "Dice") }

  predicate IsDicebot(d: MessageData) { IsSystem(d) && FromDice(d) && !IsCalculationResult(d.text) }

  predicate IsCalculate(d: MessageData) { IsSystem(d) && FromDice(d) && IsCalculationResult(d.text) }

  predicate IsEmptyDice(d: MessageData) { !IsDicebot(d) || HasTag(d, "empty") }

  predicate IsSpecialColor(d: MessageData) {
    IsDirect(d) || IsSecret(d) || IsSystem(d) || IsOperationLog(d) || IsDicebot(d) || IsCalculate(d)
  }

  predicate IsEditable(d: MessageData, v: Viewer) {
    !IsSystem(d) && !IsOperationLog(d) && d.from == v.userId
  }

  predicate IsFaceIcon(d: MessageData) {
    !IsSystem(d) && (d.characterIdentifier == "" || !HasTag(d, "noface"))
  }

  predicate IsSuccess(d: MessageData) { IsDicebot(d) && HasTag(d, "success") }

  predicate IsFailure(d: MessageData) { IsDicebot(d) && HasTag(d, "failure") }

  predicate IsCritical(d: MessageData) { IsDicebot(d) && HasTag(d, "critical") }

  predicate IsFumble(d: MessageData) { IsDicebot(d) && HasTag(d, "fumble") }

  predicate WasEdited(d: MessageData) { d.lastUpdate > 0 }

  /**
    A message that is not direct is shown to everyone; a direct one exactly
    to its addressees, its sender and a viewer in GM mode.
   */
  lemma DisplayableIff(d: MessageData, v: Viewer)
    ensures IsDisplayable(d, v) <==>
      !IsDirect(d) || v.userId in SendTo(d) || d.from == v.userId || d.originFrom == Some(v.userId)
      || HasTag(d, "mine") || v.myCursorGMMode == Some(true)
  {
  }

  /** A message with addressees is direct whatever its tags, and hidden from a viewer who is none of the above. */
  lemma AddressedMessageHiddenFromOthers(d: MessageData, v: Viewer)
    requires SendTo(d) != []
    requires v.userId !in SendTo(d) && d.from != v.userId && d.originFrom != Some(v.userId)
    requires !HasTag(d, "mine") && !IsGMMode(v)
    ensures IsDirect(d) && !IsDisplayable(d, v)
  {
  }

  /** Dice-bot and calculation results exclude each other, and both are system messages. */
  lemma DicebotAndCalculateExclusive(d: MessageData)
    ensures !(IsDicebot(d) && IsCalculate(d))
    ensures IsDicebot(d) ==> IsSystem(d)
    ensures IsCalculate(d) ==> IsSystem(d)
    ensures IsSystem(d) && FromDice(d) ==> IsDicebot(d) || IsCalculate(d)
  {
  }

  /** Each judgement flag implies a dice-bot result. */
  lemma JudgementsImplyDicebot(d: MessageData)
    ensures IsSuccess(d) || IsFailure(d) || IsCritical(d) || IsFumble(d) ==> IsDicebot(d)
    ensures !IsDicebot(d) ==> IsEmptyDice(d)
  {
  }

  /** Only the local user's own, ordinary messages can be edited. */
  lemma EditableOnlyOwnOrdinary(d: MessageData, v: Viewer)
    ensures IsEditable(d, v) ==> !IsSystem(d) && !IsOperationLog(d) && d.from == v.userId
    ensures IsSystem(d) || IsOperationLog(d) ==> !IsEditable(d, v)
  {
  }

  /**
    The `timestamp` getter: a missing or empty attribute is 0, a
    non-numeric one is 1, anything else its numeric value.
   */
  function TimestampOf(attribute: Option<string>): (r: int)
    ensures attribute.None? || attribute == Some("") ==> r == 0
    ensures attribute.Some? && attribute.value != "" && ToNumber(attribute.value).None? ==> r == 1
  {
    match attribute
    case None => 0
    case Some(a) =>
      if a == "" then 0
      else match ToNumber(a)
        case None => 1
        case Some(n) => n
  }

  /** A timestamp stored as its decimal text reads back as itself. */
  lemma TimestampRoundTrip(t: nat)
    ensures TimestampOf(Some(NatToString(t))) == t
  {
    ToNumberOfNatToString(t);
  }

  // ---------------------------------------------------------------------
  // decorationDiceResult

  const SPECIAL_OPEN: string := "<b class=\"special-dice\">"
  const SPECIAL_CLOSE: string := "</b>"
  const DROP_OPEN: string := "<s class=\"drop-dice\"><span class=\"dropped\">"
  const DROP_CLOSE: string := "</span></s>"

  /**
    The lazy `.+?` after an opening delimiter: the first `j >= 1` such that
    the delimiter follows `t[..j]`, provided `t[..j]` holds no line break.
   */
  function FindClose(t: string, delim: string, j: nat): (r: Option<nat>)
    requires j >= 1
    ensures r.Some? ==> j <= r.value && r.value + |delim| <= |t| && t[r.value..r.value + |delim|] == delim
    ensures r.Some? ==> forall i :: 0 <= i < r.value ==> i < j - 1 || !IsLineTerminator(t[i])
    decreases |t| - j
  {
    if j > |t| || IsLineTerminator(t[j - 1]) then None
    else if StartsWith(t[j..], delim) then Some(j)
    else FindClose(t, delim, j + 1)
  }

  /** No line terminator among `t[a..b]`. */
  predicate NoBreak(t: string, a: nat, b: nat) {
    forall i :: a <= i < b && i < |t| ==> !IsLineTerminator(t[i])
  }

  /**
    `FindClose` is lazy: it stops at the first delimiter occurrence, and
    `None` means no occurrence is reachable before a line break.
   */
  lemma {:induction false} FindCloseFirst(t: string, delim: string, j: nat)
    requires j >= 1
    ensures FindClose(t, delim, j).Some? ==>
      forall k :: j <= k < FindClose(t, delim, j).value ==> !StartsWith(t[k..], delim)
    ensures FindClose(t, delim, j).None? ==>
      forall k :: j <= k <= |t| && NoBreak(t, j - 1, k) ==> !StartsWith(t[k..], delim)
    decreases |t| - j
  {
    if j > |t| {
    } else if IsLineTerminator(t[j - 1]) {
      var a := j - 1;
      forall k | j <= k <= |t|
        ensures !NoBreak(t, a, k)
      {
        assert a < k;
      }
    } else if !StartsWith(t[j..], delim) {
      FindCloseFirst(t, delim, j + 1);
      forall k | j + 1 <= k <= |t| && NoBreak(t, j - 1, k)
        ensures NoBreak(t, j, k)
      {
      }
    }
  }

  /** `s.replace(/<delim>(.+?)<delim>/g, open + '$1' + close)` */
  function ReplaceDelimited(s: string, delim: string, open: string, close: string): string
    requires delim != []
    decreases |s|
  {
    if s == [] then []
    else if StartsWith(s, delim) && FindClose(s[|delim|..], delim, 1).Some? then
      var j := FindClose(s[|delim|..], delim, 1).value;
      var inner := s[|delim|..][..j];
      open + inner + close + ReplaceDelimited(s[|delim|..][j + |delim|..], delim, open, close)
    else [s[0]] + ReplaceDelimited(s[1..], delim, open, close)
  }

  /** `decorationDiceResult`: `###x###` marks a special die, then `~~~x~~~` a dropped one. */
  function DecorationDiceResult(message: string): string {
    ReplaceDelimited(ReplaceDelimited(message, "###", SPECIAL_OPEN, SPECIAL_CLOSE), "~~~", DROP_OPEN, DROP_CLOSE)
  }

  /** A text in which the delimiter's character never occurs is left alone. */
  lemma {:induction false} ReplaceDelimitedWithoutDelimiter(s: string, delim: string, open: string, close: string)
    requires delim != [] && delim[0] !in s
    ensures ReplaceDelimited(s, delim, open, close) == s
    decreases |s|
  {
    if s != [] {
      ReplaceDelimitedWithoutDelimiter(s[1..], delim, open, close);
      assert [s[0]] + s[1..] == s;
    }
  }

  /** A single special die `###c###` is wrapped in the special-dice markup. */
  lemma DecorateSpecialDie(c: string)
    requires c != [] && '#' !in c && '~' !in c
    requires forall i :: 0 <= i < |c| ==> !IsLineTerminator(c[i])
    ensures DecorationDiceResult("###" + c + "###") == SPECIAL_OPEN + c + SPECIAL_CLOSE
  {
    var s := "###" + c + "###";
    var t := s[3..];
    assert t == c + "###";
    FindCloseOfContent(c, "###");
    assert t[..|c|] == c;
    assert t[|c| + 3..] == [];
    var out := SPECIAL_OPEN + c + SPECIAL_CLOSE;
    assert ReplaceDelimited(s, "###", SPECIAL_OPEN, SPECIAL_CLOSE) == out;
    ReplaceDelimitedWithoutDelimiter(out, "~~~", DROP_OPEN, DROP_CLOSE);
  }

  /** A single dropped die `~~~c~~~` is wrapped in the dropped-dice markup. */
  lemma DecorateDroppedDie(c: string)
    requires c != [] && '#' !in c && '~' !in c
    requires forall i :: 0 <= i < |c| ==> !IsLineTerminator(c[i])
    ensures DecorationDiceResult("~~~" + c + "~~~") == DROP_OPEN + c + DROP_CLOSE
  {
    var s := "~~~" + c + "~~~";
    ReplaceDelimitedWithoutDelimiter(s, "###", SPECIAL_OPEN, SPECIAL_CLOSE);
    var t := s[3..];
    assert t == c + "~~~";
    FindCloseOfContent(c, "~~~");
    assert t[..|c|] == c;
    assert t[|c| + 3..] == [];
    assert ReplaceDelimited(s, "~~~", DROP_OPEN, DROP_CLOSE) == DROP_OPEN + c + DROP_CLOSE;
  }

  /** After an opening delimiter, content free of the delimiter's character closes at its end. */
  lemma FindCloseOfContent(c: string, delim: string)
    requires c != [] && |delim| == 3 && delim[0] == delim[1] == delim[2] && delim[0] !in c
    requires forall i :: 0 <= i < |c| ==> !IsLineTerminator(c[i])
    ensures FindClose(c + delim, delim, 1) == Some(|c|)
  {
    FindCloseScan(c + delim, delim, 1, |c|);
  }

  lemma {:induction false} FindCloseScan(t: string, delim: string, j: nat, k: nat)
    requires 1 <= j <= k && k + |delim| == |t| && t[k..] == delim && delim != []
    requires forall i :: 0 <= i < k ==> !IsLineTerminator(t[i]) && t[i] != delim[0]
    ensures FindClose(t, delim, j) == Some(k)
    decreases k - j
  {
    if j < k {
      assert t[j..][0] != delim[0];
      FindCloseScan(t, delim, j + 1, k);
    } else {
      assert t[j..] == delim;
    }
  }

  // ---------------------------------------------------------------------
  // The message object and its memoised tokenisers

  class ChatMessage {
    var originFrom: Option<string>
    var from: string
    var to: Option<string>
    var name: string
    var tag: Option<string>
    /** The message body (the node's `value`). */
    var text: string
    var characterIdentifier: string
    var lastUpdate: int
    /** The `timestamp` attribute as stored. */
    var timestampAttribute: Option<string>
    var memoTo: Option<string>
    var memoSendTo: seq<string>
    var memoTag: Option<string>
    var memoTags: seq<string>

    /** The memoised lists are the tokens of the memoised strings. */
    ghost predicate Valid()
      reads this
    {
      memoSendTo == Tokens(memoTo) && memoTags == Tokens(memoTag)
    }

    constructor (from: string, to: Option<string>, tag: Option<string>, text: string)
      ensures Valid()
      ensures this.from == from && this.to == to && this.tag == tag && this.text == text
      ensures lastUpdate == 0 && memoTo == None && memoTag == None
    {
      this.originFrom := None;
      this.from := from;
      this.to := to;
      this.name := "";
      this.tag := tag;
      this.text := text;
      this.characterIdentifier := "";
      this.lastUpdate := 0;
      this.timestampAttribute := None;
      this.memoTo := None;
      this.memoSendTo := [];
      this.memoTag := None;
      this.memoTags := [];
    }

    function Data(): MessageData
      reads this
    {
      MessageData(originFrom, from, to, tag, text, characterIdentifier, lastUpdate)
    }

    /** The `text` setter: null is stored as the empty string. */
    method SetText(t: Option<string>)
      modifies this`text
      ensures text == t.GetOr("")
    {
      text := if t.None? then "" else t.value;
    }

    /** `sendTo`: retokenised only when `to` differs from the memoised string. */
    method SendTo() returns (r: seq<string>)
      requires Valid()
      modifies this`memoTo, this`memoSendTo
      ensures Valid() && memoTo == to
      ensures r == Tokens(to)
      ensures old(memoTo) == to ==> memoSendTo == old(memoSendTo)
    {
      if memoTo != to {
        TokenisedIsTokens(to);
        memoTo := to;
        memoSendTo := Tokenised(to);
      }
      r := memoSendTo;
    }

    /** `tags`: retokenised only when `tag` differs from the memoised string. */
    method Tags() returns (r: seq<string>)
      requires Valid()
      modifies this`memoTag, this`memoTags
      ensures Valid() && memoTag == tag
      ensures r == Tokens(tag)
      ensures old(memoTag) == tag ==> memoTags == old(memoTags)
    {
      if memoTag != tag {
        TokenisedIsTokens(tag);
        memoTag := tag;
        memoTags := Tokenised(tag);
      }
      r := memoTags;
    }

    /** The `timestamp` getter. */
    function Timestamp(): (r: int)
      reads this
      ensures timestampAttribute.None? ==> r == 0
    {
      TimestampOf(timestampAttribute)
    }

    /** `isEdited` */
    function IsEdited(): (r: bool)
      reads this
      ensures r <==> lastUpdate > 0
    {
      WasEdited(Data())
    }
  }
}

=== FILE: chat_message_service.dfy ===
/**
  The message construction rules of `ChatMessageService`: resolving an
  identifier in the object store to an addressee id, a display name, a
  colour and an image; the face-icon "effective" flag that decides the
  `noface` tag and the icon flags; the strictly increasing timestamp rule;
  and the per-tab filtering of operation logs.

  The object store is a map from identifier to the objects these rules
  distinguish (characters, peer cursors, anything else). The clock is the
  parameter `now`.
 */
module ChatMessageService {
  import opened Options
  import opened PeerCursors
  import ChatPalettes

  const NAMELESS_CHARACTER: string := "（無名のキャラクター）"
  const NAMELESS_PLAYER: string := "（無名のプレイヤー）"
  const OPERATION_LOG_TAG: string := "opelog"

  /** An image reference: its identifier and the URL it resolves to. */
  datatype ImageRef = ImageRef(identifier: string, url: string)

  /**
    The object store entries the service tells apart. A character's
    `palette` is the `paletteColor` field of its chat-palette child, or
    `None` when it has no chat-palette child.
   */
  datatype StoreObject =
    | CharacterObject(identifier: string, name: string, palette: Option<string>,
                      faceIcon: Option<ImageRef>, imageFile: Option<ImageRef>)
    | CursorObject(cursor: Cursor)
    | OtherObject

  type Store = map<string, StoreObject>

  /** `findId`: the addressee id of a character (its identifier) or of a peer (its user id). */
  function FindId(store: Store, identifier: string): (r: Option<string>)
    ensures r.Some? <==> identifier in store && !store[identifier].OtherObject?
    ensures r.Some? && store[identifier].CharacterObject? ==> r.value == store[identifier].identifier
    ensures r.Some? && store[identifier].CursorObject? ==> r.value == store[identifier].cursor.userId
  {
    if identifier !in store then None
    else match store[identifier]
      case CharacterObject(id, _, _, _, _) => Some(id)
      case CursorObject(c) => Some(c.userId)
      case OtherObject => None
  }

  /** `findObjectName`: the object's name, a placeholder for a nameless one, or the identifier. */
  function FindObjectName(store: Store, identifier: string): string {
    if identifier !in store then identifier
    else match store[identifier]
      case CharacterObject(_, name, _, _, _) => if name != "" then name else NAMELESS_CHARACTER
      case CursorObject(c) => if c.name != "" then c.name else NAMELESS_PLAYER
      case OtherObject => identifier
  }

  /**
    What `findObjectColor` yields: a colour, null, or the exception raised by
    reading `color` from the null chat palette of a character without one.
   */
  datatype ObjectColor = ColorFound(color: string) | NoColor | NoChatPalette

  /**
    `findObjectColor`: a character's `chatPalette.color` (the palette colour
    chain, given the local cursor's colour if there is a local cursor), a
    peer's colour, or null for anything else.
   */
  function FindObjectColor(store: Store, identifier: string, myCursorColor: Option<string>): (r: ObjectColor)
    ensures r.NoColor? <==> identifier !in store || store[identifier].OtherObject?
    ensures r.NoChatPalette? <==> identifier in store && store[identifier].CharacterObject? && store[identifier].palette.None?
    ensures identifier in store && store[identifier].CursorObject? ==> r == ColorFound(store[identifier].cursor.color)
    ensures identifier in store && store[identifier].CharacterObject? && store[identifier].palette.Some? ==>
      r.ColorFound? && r.color != CHAT_TRANSPARENT_COLOR
  {
    if identifier !in store then NoColor
    else match store[identifier]
      case CharacterObject(_, _, palette, _, _) =>
        if palette.Some? then ColorFound(ChatPalettes.ColorOf(palette.value, myCursorColor)) else NoChatPalette
      case CursorObject(c) => ColorFound(c.color)
      case OtherObject => NoColor
  }

  /** `makeMessageName`: the sender's name, followed by ` ➡ ` and the addressee's name when there is one. */
  function MakeMessageName(store: Store, sendFrom: string, sendTo: Option<string>): string {
    var fromName := FindObjectName(store, sendFrom);
    if sendTo.None? || |sendTo.value| < 1 then fromName
    else fromName + " ➡ " + FindObjectName(store, sendTo.value)
  }

  /** A character's face icon, when it has one whose URL is not empty. */
  predicate HasUsableFaceIcon(o: StoreObject) {
    o.CharacterObject? && o.faceIcon.Some? && 0 < |o.faceIcon.value.url|
  }

  /**
    `findImageIdentifier`: for a character its face icon when asked for and
    usable, else its image (or nothing); for a peer its image; for anything
    else the identifier.
   */
  function FindImageIdentifier(store: Store, identifier: string, isUseFaceIcon: bool): (r: string)
    ensures identifier in store && store[identifier].CursorObject? ==> r == store[identifier].cursor.imageIdentifier
    ensures identifier !in store || store[identifier].OtherObject? ==> r == identifier
    ensures identifier in store && store[identifier].CharacterObject? && isUseFaceIcon ==>
      FindFaceIconIdentifier(store, identifier) != "" ==> r == FindFaceIconIdentifier(store, identifier)
    ensures identifier in store && store[identifier].CharacterObject? && !isUseFaceIcon ==>
      r == if store[identifier].imageFile.Some? then store[identifier].imageFile.value.identifier else ""
  {
    if identifier !in store then identifier
    else match store[identifier]
      case CharacterObject(_, _, _, faceIcon, imageFile) =>
        if isUseFaceIcon && HasUsableFaceIcon(store[identifier]) then faceIcon.value.identifier
        else if imageFile.Some? then imageFile.value.identifier
        else ""
      case CursorObject(c) => c.imageIdentifier
      case OtherObject => identifier
  }

  /** `findFaceIconIdentifier`: a character's usable face icon, else the empty string. */
  function FindFaceIconIdentifier(store: Store, identifier: string): string {
    if identifier in store && HasUsableFaceIcon(store[identifier]) then store[identifier].faceIcon.value.identifier
    else ""
  }

  /** `calcTimeStamp`: the current time, unless the tab already holds a message at or after it. */
  function CalcTimeStamp(now: int, latest: int): (r: int)
    ensures r > latest && r >= now
    ensures r == now || r == latest + 1
  {
    if now <= latest then latest + 1 else now
  }

  /** What the caller of `sendMessage` passes; optional flags that are absent are `false`. */
  datatype SendRequest = SendRequest(
    text: string,
    gameType: string,
    sendFrom: string,
    sendTo: Option<string>,
    color: Option<string>,
    isInverseIcon: bool,
    isHollowIcon: bool,
    isBlackPaint: bool,
    aura: Option<int>,
    isUseFaceIcon: bool,
    characterIdentifier: Option<string>,
    standIdentifier: Option<string>,
    standName: Option<string>,
    isUseStandImage: Option<bool>)

  /** The context a tab's `addMessage` receives: a chat message, or an operation log entry. */
  datatype MessageContext =
    | ChatContext(
        from: string,
        to: Option<string>,
        name: string,
        toName: string,
        imageIdentifier: string,
        toImageIdentifier: string,
        timestamp: int,
        tag: string,
        text: string,
        color: Option<string>,
        toColor: Option<string>,
        isInverseIcon: int,
        isHollowIcon: int,
        isBlackPaint: int,
        aura: Option<int>,
        characterIdentifier: Option<string>,
        standIdentifier: Option<string>,
        standName: Option<string>,
        isUseStandImage: Option<bool>)
    | OperationLogContext(
        from: string,
        name: string,
        imageIdentifier: string,
        timestamp: int,
        tag: string,
        text: string,
        color: Option<string>)

  /** The message has no usable face icon: it is shown with the `noface` styling. */
  predicate Effective(store: Store, req: SendRequest) {
    !(req.isUseFaceIcon && FindFaceIconIdentifier(store, req.sendFrom) != "")
  }

  /** An addressee that is present and not the empty string. */
  predicate Addressed(req: SendRequest) { req.sendTo.Some? && req.sendTo.value != "" }

  function Flag(b: bool): int { if b then 1 else 0 }

  /**
    The context `sendMessage` assembles, for a tab whose latest timestamp is
    `latest`; `None` when building it throws because the addressee is a
    character without a chat palette.
   */
  function BuildMessage(store: Store, userId: string, myCursorColor: Option<string>, now: int, latest: int,
                        req: SendRequest): (r: Option<MessageContext>)
    ensures r.None? <==> Addressed(req) && FindObjectColor(store, req.sendTo.value, myCursorColor).NoChatPalette?
    ensures r.Some? ==> var m := r.value;
      m.ChatContext? && m.from == userId && m.text == req.text && m.color == req.color
      && m.timestamp > latest && m.timestamp >= now
  {
    var effective := Effective(store, req);
    var toColor := if Addressed(req) then FindObjectColor(store, req.sendTo.value, myCursorColor) else ColorFound("");
    if toColor.NoChatPalette? then None
    else Some(ChatContext(
      userId,
      if req.sendTo.Some? then FindId(store, req.sendTo.value) else None,
      FindObjectName(store, req.sendFrom),
      if Addressed(req) then FindObjectName(store, req.sendTo.value) else "",
      FindImageIdentifier(store, req.sendFrom, req.isUseFaceIcon),
      if Addressed(req) then FindImageIdentifier(store, req.sendTo.value, false) else "",
      CalcTimeStamp(now, latest),
      if effective then req.gameType + " noface" else req.gameType,
      req.text,
      req.color,
      if toColor.ColorFound? then Some(toColor.color) else None,
      Flag(effective && req.isInverseIcon),
      Flag(effective && req.isHollowIcon),
      Flag(effective && req.isBlackPaint),
      if effective then req.aura else Some(-1),
      req.characterIdentifier,
      req.standIdentifier,
      req.standName,
      req.isUseStandImage))
  }

  // ---------------------------------------------------------------------
  // Properties of the construction rules

  /** A known character or peer always gets a non-empty name; anything else is named by its identifier. */
  lemma ObjectNameFallbacks(store: Store, identifier: string)
    ensures identifier in store && !store[identifier].OtherObject? ==> FindObjectName(store, identifier) != ""
    ensures identifier in store && store[identifier].CharacterObject? && store[identifier].name == ""
      ==> FindObjectName(store, identifier) == NAMELESS_CHARACTER
    ensures identifier in store && store[identifier].CursorObject? && store[identifier].cursor.name == ""
      ==> FindObjectName(store, identifier) == NAMELESS_PLAYER
    ensures identifier !in store || store[identifier].OtherObject? ==> FindObjectName(store, identifier) == identifier
  {
  }

  /** Without an addressee the message name is the sender's name; with one it starts with it. */
  lemma MessageNameStartsWithSender(store: Store, sendFrom: string, sendTo: Option<string>)
    ensures sendTo.None? || sendTo == Some("") ==> MakeMessageName(store, sendFrom, sendTo) == FindObjectName(store, sendFrom)
    ensures sendTo.Some? && sendTo.value != "" ==>
      MakeMessageName(store, sendFrom, sendTo)
        == FindObjectName(store, sendFrom) + " ➡ " + FindObjectName(store, sendTo.value)
  {
  }

  /**
    The image of a character: its face icon exactly when one is asked for and
    usable, otherwise its image file, otherwise nothing.
   */
  lemma CharacterImageChoice(store: Store, identifier: string, isUseFaceIcon: bool)
    requires identifier in store && store[identifier].CharacterObject?
    ensures var o := store[identifier];
      FindImageIdentifier(store, identifier, isUseFaceIcon)
        == if isUseFaceIcon && HasUsableFaceIcon(o) then o.faceIcon.value.identifier
           else if o.imageFile.Some? then o.imageFile.value.identifier else ""
  {
  }

  /**
    A message that is not effective uses the sender's face icon, whose
    identifier is what `findFaceIconIdentifier` reports.
   */
  lemma NotEffectiveUsesFaceIcon(store: Store, userId: string, myCursorColor: Option<string>, now: int, latest: int,
                                 req: SendRequest)
    requires !Effective(store, req)
    ensures var r := BuildMessage(store, userId, myCursorColor, now, latest, req);
      r.Some? ==> r.value.imageIdentifier == FindFaceIconIdentifier(store, req.sendFrom) && r.value.imageIdentifier != ""
  {
  }

  /**
    The `effective` rule: an effective message is tagged `<gameType> noface`,
    carries each requested icon flag as 1 and passes the aura on; otherwise
    the tag is the game type alone, every flag is 0 and the aura is -1.
   */
  lemma EffectiveFlags(store: Store, userId: string, myCursorColor: Option<string>, now: int, latest: int,
                       req: SendRequest)
    ensures var r := BuildMessage(store, userId, myCursorColor, now, latest, req);
      r.Some? ==> var m := r.value;
      if Effective(store, req) then
        m.tag == req.gameType + " noface"
        && (m.isInverseIcon == 1 <==> req.isInverseIcon)
        && (m.isHollowIcon == 1 <==> req.isHollowIcon)
        && (m.isBlackPaint == 1 <==> req.isBlackPaint)
        && m.aura == req.aura
      else
        m.tag == req.gameType && m.isInverseIcon == 0 && m.isHollowIcon == 0 && m.isBlackPaint == 0
        && m.aura == Some(-1)
  {
  }

  /** Without an addressee the message is always built, and every addressee field is the empty string. */
  lemma UnaddressedMessage(store: Store, userId: string, myCursorColor: Option<string>, now: int, latest: int,
                           req: SendRequest)
    requires !Addressed(req)
    ensures var r := BuildMessage(store, userId, myCursorColor, now, latest, req);
      r.Some? && r.value.toName == "" && r.value.toImageIdentifier == "" && r.value.toColor == Some("")
  {
  }

  /**
    A character's colour is its chat palette's `color` getter: the palette
    colour when it is set and not transparent, else the local cursor's colour
    when that is not transparent, else the default.
   */
  lemma CharacterColorFallsBack(store: Store, identifier: string, myCursorColor: Option<string>)
    requires identifier in store && store[identifier].CharacterObject? && store[identifier].palette.Some?
    ensures var p := store[identifier].palette.value;
      var r := FindObjectColor(store, identifier, myCursorColor);
      r.ColorFound?
      && (p != "" && p != CHAT_TRANSPARENT_COLOR ==> r.color == p)
      && (!(p != "" && p != CHAT_TRANSPARENT_COLOR) && myCursorColor.Some? && myCursorColor.value != CHAT_TRANSPARENT_COLOR
          ==> r.color == myCursorColor.value)
      && (!(p != "" && p != CHAT_TRANSPARENT_COLOR) && !(myCursorColor.Some? && myCursorColor.value != CHAT_TRANSPARENT_COLOR)
          ==> r.color == CHAT_DEFAULT_COLOR)
  {
  }

  /**
    The addressee colour of a built message: a peer's colour, a character's
    palette colour chain, and null for anything else.
   */
  lemma AddresseeColor(store: Store, userId: string, myCursorColor: Option<string>, now: int, latest: int,
                       req: SendRequest)
    requires Addressed(req)
    ensures var r := BuildMessage(store, userId, myCursorColor, now, latest, req);
      var to := req.sendTo.value;
      r.Some? ==>
        && (to in store && store[to].CursorObject? ==> r.value.toColor == Some(store[to].cursor.color))
        && (to in store && store[to].CharacterObject? ==>
              r.value.toColor.Some? && r.value.toColor.value != CHAT_TRANSPARENT_COLOR)
        && (to !in store || store[to].OtherObject? ==> r.value.toColor == None)
  {
  }

  // ---------------------------------------------------------------------
  // Tabs

  /**
    A chat tab: its messages in the order they were added, and the least
    operation-log level it shows.
   */
  datatype ChatTab = ChatTab(messages: seq<MessageContext>, recieveOperationLogLevel: int)

  /** `latestTimeStamp`: the timestamp of the last message, or 0 for an empty tab. */
  function LatestTimeStamp(messages: seq<MessageContext>): int {
    if messages == [] then 0 else messages[|messages| - 1].timestamp
  }

  /** Timestamps rise strictly along the tab. */
  predicate StrictlyIncreasing(messages: seq<MessageContext>) {
    forall i, j :: 0 <= i < j < |messages| ==> messages[i].timestamp < messages[j].timestamp
  }

  /** Appending a message stamped by `calcTimeStamp` keeps the tab's timestamps strictly increasing. */
  lemma StampedAppendKeepsIncreasing(messages: seq<MessageContext>, m: MessageContext, now: int)
    requires StrictlyIncreasing(messages)
    requires m.timestamp == CalcTimeStamp(now, LatestTimeStamp(messages))
    ensures StrictlyIncreasing(messages + [m])
    ensures LatestTimeStamp(messages + [m]) == m.timestamp
  {
    var ms := messages + [m];
    forall i, j | 0 <= i < j < |ms|
      ensures ms[i].timestamp < ms[j].timestamp
    {
      if j == |messages| {
        assert ms[i].timestamp <= LatestTimeStamp(messages);
      }
    }
  }

  /** The operation log entry of the local cursor `me` stamped for a tab. */
  function OperationLog(userId: string, me: Cursor, text: string, now: int, tab: ChatTab): (m: MessageContext)
    ensures m.OperationLogContext? && m.tag == OPERATION_LOG_TAG
    ensures m.timestamp > LatestTimeStamp(tab.messages)
  {
    OperationLogContext(userId, me.name, me.imageIdentifier,
      CalcTimeStamp(now, LatestTimeStamp(tab.messages)), OPERATION_LOG_TAG, text, Some(me.color))
  }

  /** A tab after `sendOperationLog`: one more entry when it shows `logLevel`, unchanged otherwise. */
  function LogToTab(tab: ChatTab, userId: string, me: Cursor, text: string, logLevel: int, now: int): ChatTab {
    if tab.recieveOperationLogLevel < logLevel then tab
    else tab.(messages := tab.messages + [OperationLog(userId, me, text, now, tab)])
  }

  /** The number of operation-log entries in a list of messages. */
  function CountOperationLogs(messages: seq<MessageContext>): nat {
    if messages == [] then 0
    else
      var last := if messages[|messages| - 1].tag == OPERATION_LOG_TAG then 1 else 0;
      CountOperationLogs(messages[..|messages| - 1]) + last
  }

  /**
    A tab that shows the level gains exactly one operation-log entry, at the
    end; any other tab gains none; and the timestamps stay increasing.
   */
  lemma LogToTabAddsOneWhereShown(tab: ChatTab, userId: string, me: Cursor, text: string, logLevel: int, now: int)
    requires StrictlyIncreasing(tab.messages)
    ensures var t := LogToTab(tab, userId, me, text, logLevel, now);
      t.recieveOperationLogLevel == tab.recieveOperationLogLevel
      && StrictlyIncreasing(t.messages)
      && CountOperationLogs(t.messages)
         == CountOperationLogs(tab.messages) + (if tab.recieveOperationLogLevel >= logLevel then 1 else 0)
      && (tab.recieveOperationLogLevel < logLevel ==> t == tab)
      && (tab.recieveOperationLogLevel >= logLevel ==>
            |t.messages| == |tab.messages| + 1 && t.messages[..|tab.messages|] == tab.messages)
  {
    if tab.recieveOperationLogLevel >= logLevel {
      var m := OperationLog(userId, me, text, now, tab);
      var ms := tab.messages + [m];
      StampedAppendKeepsIncreasing(tab.messages, m, now);
      assert ms[..|ms| - 1] == tab.messages;
      assert ms[..|tab.messages|] == tab.messages;
    }
  }

  /** The tab list (`ChatTabList.instance.chatTabs`) that messages are added to. */
  class ChatTabList {
    var tabs: seq<ChatTab>

    /** Every tab's timestamps are strictly increasing. */
    ghost predicate Valid()
      reads this
    {
      forall i :: 0 <= i < |tabs| ==> StrictlyIncreasing(tabs[i].messages)
    }

    constructor (tabs: seq<ChatTab>)
      requires forall i :: 0 <= i < |tabs| ==> StrictlyIncreasing(tabs[i].messages)
      ensures Valid() && this.tabs == tabs
    {
      this.tabs := tabs;
    }

    /**
      `sendMessage`: builds the context for tab `tab` and appends it there;
      when building throws (`None`), no tab changes.
     */
    method SendMessage(tab: nat, store: Store, userId: string, myCursorColor: Option<string>, now: int, req: SendRequest)
      returns (m: Option<MessageContext>)
      requires Valid() && tab < |tabs|
      modifies this
      ensures Valid()
      ensures m == BuildMessage(store, userId, myCursorColor, now, LatestTimeStamp(old(tabs)[tab].messages), req)
      ensures m.None? ==> tabs == old(tabs)
      ensures m.Some? ==> tabs == old(tabs)[tab := old(tabs)[tab].(messages := old(tabs)[tab].messages + [m.value])]
    {
      var t := tabs[tab];
      m := BuildMessage(store, userId, myCursorColor, now, LatestTimeStamp(t.messages), req);
      if m.Some? {
        StampedAppendKeepsIncreasing(t.messages, m.value, now);
        tabs := tabs[tab := t.(messages := t.messages + [m.value])];
      }
    }

    /**
      `sendOperationLog`: every tab whose level is at least `logLevel` gets one
      operation-log entry from the local cursor `me`; the others are skipped.
     */
    method SendOperationLog(userId: string, me: Cursor, text: string, logLevel: int, now: int)
      requires Valid()
      modifies this
      ensures Valid() && |tabs| == |old(tabs)|
      ensures forall i :: 0 <= i < |tabs| ==> tabs[i] == LogToTab(old(tabs)[i], userId, me, text, logLevel, now)
    {
      var i := 0;
      while i < |tabs|
        invariant 0 <= i <= |tabs| == |old(tabs)|
        invariant Valid()
        invariant forall k :: 0 <= k < i ==> tabs[k] == LogToTab(old(tabs)[k], userId, me, text, logLevel, now)
        invariant forall k :: i <= k < |tabs| ==> tabs[k] == old(tabs)[k]
      {
        var t := tabs[i];
        if t.recieveOperationLogLevel >= logLevel {
          LogToTabAddsOneWhereShown(t, userId, me, text, logLevel, now);
          tabs := tabs[i := LogToTab(t, userId, me, text, logLevel, now)];
        }
        i := i + 1;
      }
    }
  }
}

=== FILE: chat_palette.dfy ===
/**
  A character's chat palette (`ChatPalette`): a multi-line source text whose
  lines are either `//name=value` variable definitions or ordinary palette
  lines, a lazily computed parse of that text, the `{name}` substitution of
  `evaluate`, and the palette colour with its fallback chain.
 */
module ChatPalettes {
  import opened Options
  import opened Strings
  import PeerCursors

  /** Passes of `evaluate` after which substitution stops even if placeholders remain. */
  const EVALUATE_LIMIT: nat := 128

  datatype PaletteVariable = PaletteVariable(name: string, value: string)

  // ---------------------------------------------------------------------
  // Parsing one line: `/^\s*[/／]{2}([^=＝{}｛｝\s]+)\s*[=＝]\s*(.+)\s*/`

  predicate IsSlash(c: char) { c == '/' || c == '／' }

  predicate IsEqualsSign(c: char) { c == '=' || c == '＝' }

  predicate IsOpenBrace(c: char) { c == '{' || c == '｛' }

  predicate IsCloseBrace(c: char) { c == '}' || c == '｝' }

  predicate IsBrace(c: char) { IsOpenBrace(c) || IsCloseBrace(c) }

  /** A character a variable name may hold: no equals sign, no brace, no white space. */
  predicate IsNameChar(c: char) { !IsSpace(c) && !IsEqualsSign(c) && !IsBrace(c) }

  predicate NotLineTerminator(c: char) { !IsLineTerminator(c) }

  predicate NotBrace(c: char) { !IsBrace(c) }

  /** The position of the last character of `s` that is not a line terminator. */
  function LastNonTerminator(s: string): (r: Option<nat>)
    ensures r.Some? ==> r.value < |s| && !IsLineTerminator(s[r.value])
    ensures r.Some? ==> forall j :: r.value < j < |s| ==> IsLineTerminator(s[j])
    ensures r.None? ==> forall j :: 0 <= j < |s| ==> IsLineTerminator(s[j])
  {
    if s == [] then None
    else if !IsLineTerminator(s[|s| - 1]) then Some(|s| - 1)
    else LastNonTerminator(s[..|s| - 1])
  }

  /**
    The value group `(.+)` after `\s*` following the equals sign: the greedy
    `\s*` skips the blanks and `.+` takes the rest of the line; when only
    blanks remain, `\s*` gives back the last blank that `.` can match.
   */
  function VariableValue(rest: string): (r: Option<string>)
    ensures r.Some? ==> r.value != [] && forall i :: 0 <= i < |r.value| ==> !IsLineTerminator(r.value[i])
  {
    var w := PrefixRun(rest, IsSpace);
    if w < |rest| then
      var v := rest[w..];
      Some(v[..PrefixRun(v, NotLineTerminator)])
    else
      match LastNonTerminator(rest)
      case Some(j) => Some([rest[j]])
      case None => None
  }

  /** Where the scan of `parseVariable`'s pattern stands. */
  datatype ScanState =
    | Leading       // inside `^\s*`, before the two slashes
    | InName        // inside the name group `([^=＝{}｛｝\s]+)`
    | BeforeEquals  // inside the `\s*` between the name and the equals sign

  /**
    The pattern matched from `state` on the rest `s` of the line, `name`
    holding the name characters read so far. Neither blanks nor the equals
    sign are name characters, so each run is taken greedily and no
    backtracking is needed before the value group.
   */
  function Scan(s: string, state: ScanState, name: string): Option<PaletteVariable>
    decreases |s|, if state.InName? then 1 else 0
  {
    match state
    case Leading =>
      if s != [] && IsSpace(s[0]) then Scan(s[1..], Leading, name)
      else if 2 <= |s| && IsSlash(s[0]) && IsSlash(s[1]) then Scan(s[2..], InName, [])
      else None
    case InName =>
      if s != [] && IsNameChar(s[0]) then Scan(s[1..], InName, name + [s[0]])
      else if name == [] then None
      else Scan(s, BeforeEquals, name)
    case BeforeEquals =>
      if s == [] then None
      else if IsSpace(s[0]) then Scan(s[1..], BeforeEquals, name)
      else if IsEqualsSign(s[0]) then
        match VariableValue(s[1..])
        case None => None
        case Some(v) => Some(PaletteVariable(ToHalfWidth(name), v))
      else None
  }

  /** `parseVariable`: a `//name=value` line gives its variable, with the name in half-width. */
  function ParseVariable(line: string): Option<PaletteVariable> {
    Scan(line, Leading, [])
  }

  /** The half-width form of a name character is again a name character. */
  lemma HalfWidthKeepsNameChar(c: char)
    requires IsNameChar(c)
    ensures IsNameChar(HalfWidthChar(c))
  {
    if '\U{FF01}' <= c <= '\U{FF5E}' {
      var h := HalfWidthChar(c);
      assert h as int == c as int - 0xFEE0;
      assert '!' <= h <= '~';
      assert h != '=' && h != '{' && h != '}';
    }
  }

  /**
    A parsed variable has a non-empty name free of equals signs, braces and
    white space, and a non-empty value without line terminators.
   */
  lemma ParsedVariableIsWellFormed(line: string)
    requires ParseVariable(line).Some?
    ensures var v := ParseVariable(line).value;
      && v.name != [] && v.value != []
      && (forall i :: 0 <= i < |v.name| ==> IsNameChar(v.name[i]))
      && (forall i :: 0 <= i < |v.value| ==> !IsLineTerminator(v.value[i]))
  {
    ScanIsWellFormed(line, Leading, []);
  }

  lemma {:induction false} ScanIsWellFormed(s: string, state: ScanState, name: string)
    requires forall i :: 0 <= i < |name| ==> IsNameChar(name[i])
    requires state.BeforeEquals? ==> name != []
    requires Scan(s, state, name).Some?
    ensures var v := Scan(s, state, name).value;
      && v.name != [] && v.value != []
      && (forall i :: 0 <= i < |v.name| ==> IsNameChar(v.name[i]))
      && (forall i :: 0 <= i < |v.value| ==> !IsLineTerminator(v.value[i]))
    decreases |s|, if state.InName? then 1 else 0
  {
    match state
    case Leading =>
      if s != [] && IsSpace(s[0]) {
        ScanIsWellFormed(s[1..], Leading, name);
      } else {
        ScanIsWellFormed(s[2..], InName, []);
      }
    case InName =>
      if s != [] && IsNameChar(s[0]) {
        ScanIsWellFormed(s[1..], InName, name + [s[0]]);
      } else {
        ScanIsWellFormed(s, BeforeEquals, name);
      }
    case BeforeEquals =>
      if IsSpace(s[0]) {
        ScanIsWellFormed(s[1..], BeforeEquals, name);
      } else {
        var h := ToHalfWidth(name);
        forall i | 0 <= i < |h| ensures IsNameChar(h[i]) {
          HalfWidthKeepsNameChar(name[i]);
        }
      }
  }

  /** Writing a definition as `//name=value` and parsing it gives the variable back. */
  lemma ParseVariableOfDefinition(name: string, value: string)
    requires name != [] && forall i :: 0 <= i < |name| ==> IsNameChar(name[i])
    requires value != [] && !IsSpace(value[0])
    requires forall i :: 0 <= i < |value| ==> !IsLineTerminator(value[i])
    ensures ParseVariable("//" + name + "=" + value) == Some(PaletteVariable(ToHalfWidth(name), value))
  {
    var rest := "=" + value;
    DefinitionLine(name, value);
    ScanAfterSlashes(name + rest);
    ScanNameRun(name, rest, []);
    assert [] + name == name;
    ScanEqualsSign(name, value);
    VariableValueOfPlainText(value);
  }

  lemma DefinitionLine(name: string, value: string)
    ensures "//" + name + "=" + value == "//" + (name + ("=" + value))
  {
  }

  /** Two slashes at the start of the line open the name group. */
  lemma ScanAfterSlashes(t: string)
    ensures Scan("//" + t, Leading, []) == Scan(t, InName, [])
  {
    var line := "//" + t;
    assert line[0] == '/' && line[1] == '/' && line[2..] == t;
  }

  /** An equals sign right after a non-empty name starts the value group. */
  lemma ScanEqualsSign(name: string, value: string)
    requires name != []
    ensures Scan("=" + value, InName, name) ==
      match VariableValue(value)
      case None => None
      case Some(v) => Some(PaletteVariable(ToHalfWidth(name), v))
  {
    var rest := "=" + value;
    assert rest[0] == '=' && rest[1..] == value;
    assert Scan(rest, InName, name) == Scan(rest, BeforeEquals, name);
  }

  /** Scanning a run of name characters appends it to the name read so far. */
  lemma {:induction false} ScanNameRun(run: string, rest: string, name: string)
    requires forall i :: 0 <= i < |run| ==> IsNameChar(run[i])
    ensures Scan(run + rest, InName, name) == Scan(rest, InName, name + run)
    decreases |run|
  {
    if run != [] {
      var s := run + rest;
      assert s[0] == run[0] && s[1..] == run[1..] + rest;
      ScanNameRun(run[1..], rest, name + [run[0]]);
      assert name + [run[0]] + run[1..] == name + run;
    } else {
      assert run + rest == rest && name + run == name;
    }
  }

  lemma VariableValueOfPlainText(value: string)
    requires value != [] && !IsSpace(value[0])
    requires forall i :: 0 <= i < |value| ==> !IsLineTerminator(value[i])
    ensures VariableValue(value) == Some(value)
  {
    PrefixRunExact(value, IsSpace, 0);
    assert value[0..] == value;
    assert forall i :: 0 <= i < |value| ==> NotLineTerminator(value[i]);
    PrefixRunExact(value, NotLineTerminator, |value|);
    assert value[..|value|] == value;
  }

  /** A line that does not start (after blanks) with two slashes is an ordinary line. */
  lemma ParseVariableNeedsTwoSlashes(line: string)
    requires forall i :: 0 <= i < |line| ==> !IsSlash(line[i])
    ensures ParseVariable(line).None?
  {
    LeadingNeedsSlash(line);
  }

  lemma {:induction false} LeadingNeedsSlash(s: string)
    requires forall i :: 0 <= i < |s| ==> !IsSlash(s[i])
    ensures Scan(s, Leading, []).None?
    decreases |s|
  {
    if s != [] && IsSpace(s[0]) {
      LeadingNeedsSlash(s[1..]);
    }
  }

  // ---------------------------------------------------------------------
  // Parsing the palette

  /** The variables of the lines, in order. */
  function VarsOf(palettes: seq<string>): (r: seq<PaletteVariable>)
    ensures |r| <= |palettes|
  {
    if palettes == [] then []
    else match ParseVariable(palettes[0])
      case Some(v) => [v] + VarsOf(palettes[1..])
      case None => VarsOf(palettes[1..])
  }

  /** The ordinary lines, in order. */
  function LinesOf(palettes: seq<string>): (r: seq<string>)
    ensures forall i :: 0 <= i < |r| ==> ParseVariable(r[i]).None?
  {
    if palettes == [] then []
    else if ParseVariable(palettes[0]).Some? then LinesOf(palettes[1..])
    else [palettes[0]] + LinesOf(palettes[1..])
  }

  /** One step of the parse loop: line `i` goes to the variables or to the lines. */
  lemma ParseStep(palettes: seq<string>, i: nat)
    requires i < |palettes|
    ensures VarsOf(palettes[i..]) ==
      (match ParseVariable(palettes[i]) case Some(v) => [v] case None => []) + VarsOf(palettes[i + 1..])
    ensures LinesOf(palettes[i..]) ==
      (if ParseVariable(palettes[i]).Some? then [] else [palettes[i]]) + LinesOf(palettes[i + 1..])
  {
    assert palettes[i..][1..] == palettes[i + 1..];
  }

  /** Every line goes to exactly one side: the two lists together are as long as the palette. */
  lemma {:induction false} ParseSplitsEveryLine(palettes: seq<string>)
    ensures |VarsOf(palettes)| + |LinesOf(palettes)| == |palettes|
  {
    if palettes != [] {
      ParseSplitsEveryLine(palettes[1..]);
    }
  }

  /** A palette made only of ordinary lines keeps all of them, in order, and defines nothing. */
  lemma {:induction false} PlainPaletteKeepsAllLines(palettes: seq<string>)
    requires forall i :: 0 <= i < |palettes| ==> ParseVariable(palettes[i]).None?
    ensures LinesOf(palettes) == palettes && VarsOf(palettes) == []
  {
    if palettes != [] {
      PlainPaletteKeepsAllLines(palettes[1..]);
    }
  }

  // ---------------------------------------------------------------------
  // Substitution: `/[{｛]\s*([^{}｛｝]+)\s*[}｝]/g`

  /**
    A placeholder at the start of `s`: an opening brace whose next brace is a
    closing one, with at least one character between them. The result is
    the length of the text between the braces.
   */
  function PlaceholderAt(s: string): (r: Option<nat>)
    ensures r.Some? ==> 1 <= r.value && r.value + 2 <= |s|
  {
    if s != [] && IsOpenBrace(s[0]) then
      var k := PrefixRun(s[1..], NotBrace);
      if 1 <= k && 1 + k < |s| && IsCloseBrace(s[1 + k]) then Some(k) else None
    else None
  }

  /**
    The captured name: the leading `\s*` is greedy, so blanks are dropped
    from the front, but it gives back the last one when the text is all
    blank; trailing blanks stay in the name.
   */
  function PlaceholderName(inner: string): (r: string)
    requires inner != []
    ensures r != [] && |r| <= |inner| && r == inner[|inner| - |r|..]
  {
    var w := PrefixRun(inner, IsSpace);
    inner[if w < |inner| then w else |inner| - 1..]
  }

  predicate HasPlaceholder(s: string)
    decreases |s|
  {
    s != [] && (PlaceholderAt(s).Some? || HasPlaceholder(s[1..]))
  }

  /** Names compare after dashes become `-`, full-width becomes half-width and case is folded. */
  function NormalizeName(name: string): (r: string)
    ensures |r| == |name|
  {
    ToLower(ToHalfWidth(DashesToHyphen(name)))
  }

  function DashesToHyphen(s: string): (r: string)
    ensures |r| == |s|
    ensures forall i :: 0 <= i < |s| ==> r[i] == (if s[i] in "―ー—‐" then '-' else s[i])
  {
    if s == [] then [] else [if s[0] in "―ー—‐" then '-' else s[0]] + DashesToHyphen(s[1..])
  }

  /** The value of the last palette variable whose name matches, if any. */
  function LastMatch(vars: seq<PaletteVariable>, name: string): (r: Option<string>)
    ensures r.Some? <==> exists i :: 0 <= i < |vars| && NormalizeName(vars[i].name) == NormalizeName(name)
  {
    if vars == [] then None
    else if NormalizeName(vars[|vars| - 1].name) == NormalizeName(name) then Some(vars[|vars| - 1].value)
    else LastMatch(vars[..|vars| - 1], name)
  }

  /** When several variables match, the last one in palette order wins. */
  lemma {:induction false} LastMatchWins(vars: seq<PaletteVariable>, name: string, i: nat)
    requires i < |vars| && NormalizeName(vars[i].name) == NormalizeName(name)
    requires forall j :: i < j < |vars| ==> NormalizeName(vars[j].name) != NormalizeName(name)
    ensures LastMatch(vars, name) == Some(vars[i].value)
  {
    if i < |vars| - 1 {
      LastMatchWins(vars[..|vars| - 1], name, i);
    }
  }

  /**
    What one placeholder becomes: without extra variables always the empty
    string; with them, what the character's data elements give for the name,
    else the last matching palette variable, else the empty string.
   */
  function Resolve(name: string, vars: seq<PaletteVariable>, extend: Option<string -> Option<string>>): string {
    match extend
    case None => ""
    case Some(lookup) =>
      match lookup(name)
      case Some(v) => v
      case None => LastMatch(vars, name).GetOr("")
  }

  datatype PassResult = PassResult(text: string, replaced: bool)

  /** One global `replace`: placeholders found left to right, each replaced, scanning on after it. */
  function Pass(s: string, vars: seq<PaletteVariable>, extend: Option<string -> Option<string>>): PassResult
    decreases |s|
  {
    if s == [] then PassResult([], false)
    else match PlaceholderAt(s)
      case Some(k) =>
        var rest := Pass(s[k + 2..], vars, extend);
        PassResult(Resolve(PlaceholderName(s[1..k + 1]), vars, extend) + rest.text, true)
      case None =>
        var rest := Pass(s[1..], vars, extend);
        PassResult([s[0]] + rest.text, rest.replaced)
  }

  /** A pass replaces something exactly when the text holds a placeholder; otherwise it changes nothing. */
  lemma {:induction false} PassReplacesIffPlaceholder(s: string, vars: seq<PaletteVariable>, extend: Option<string -> Option<string>>)
    ensures Pass(s, vars, extend).replaced <==> HasPlaceholder(s)
    ensures !HasPlaceholder(s) ==> Pass(s, vars, extend).text == s
    decreases |s|
  {
    if s != [] {
      if PlaceholderAt(s).Some? {
        PassReplacesIffPlaceholder(s[PlaceholderAt(s).value + 2..], vars, extend);
      } else {
        PassReplacesIffPlaceholder(s[1..], vars, extend);
        assert [s[0]] + s[1..] == s;
      }
    }
  }

  /** Without extra variables a pass deletes each placeholder: a pass that replaces shortens by at least three. */
  lemma {:induction false} PassWithoutExtendShrinks(s: string, vars: seq<PaletteVariable>)
    ensures |Pass(s, vars, None).text| <= |s|
    ensures Pass(s, vars, None).replaced ==> |Pass(s, vars, None).text| + 3 <= |s|
    decreases |s|
  {
    if s != [] {
      if PlaceholderAt(s).Some? {
        PassWithoutExtendShrinks(s[PlaceholderAt(s).value + 2..], vars);
      } else {
        PassWithoutExtendShrinks(s[1..], vars);
      }
    }
  }

  /**
    The substitution loop of `evaluate` from pass `loop` on: another pass
    follows while the last one replaced something and the pass count has
    not gone over the limit.
   */
  function Evaluated(s: string, vars: seq<PaletteVariable>, extend: Option<string -> Option<string>>, loop: nat): string
    requires loop <= EVALUATE_LIMIT
    decreases EVALUATE_LIMIT - loop
  {
    var p := Pass(s, vars, extend);
    if p.replaced && loop + 1 <= EVALUATE_LIMIT then Evaluated(p.text, vars, extend, loop + 1) else p.text
  }

  /** A text without placeholders evaluates to itself, whatever the variables. */
  lemma EvaluatedWithoutPlaceholder(s: string, vars: seq<PaletteVariable>, extend: Option<string -> Option<string>>, loop: nat)
    requires loop <= EVALUATE_LIMIT && !HasPlaceholder(s)
    ensures Evaluated(s, vars, extend, loop) == s
  {
    PassReplacesIffPlaceholder(s, vars, extend);
  }

  /**
    Without extra variables every placeholder disappears, as long as the text
    is short enough for the pass limit: each replacing pass removes at least
    three characters.
   */
  lemma {:induction false} EvaluatedWithoutExtendHasNoPlaceholder(s: string, vars: seq<PaletteVariable>, loop: nat)
    requires loop <= EVALUATE_LIMIT && |s| < 3 * (EVALUATE_LIMIT + 1 - loop)
    ensures !HasPlaceholder(Evaluated(s, vars, None, loop))
    decreases EVALUATE_LIMIT - loop
  {
    var p := Pass(s, vars, None);
    PassReplacesIffPlaceholder(s, vars, None);
    PassWithoutExtendShrinks(s, vars);
    if p.replaced && loop + 1 <= EVALUATE_LIMIT {
      EvaluatedWithoutExtendHasNoPlaceholder(p.text, vars, loop + 1);
    } else if p.replaced {
      PlaceholderNeedsThree(s);
    } else {
      PassReplacesIffPlaceholder(p.text, vars, None);
    }
  }

  lemma {:induction false} PlaceholderNeedsThree(s: string)
    requires HasPlaceholder(s)
    ensures |s| >= 3
    decreases |s|
  {
    if PlaceholderAt(s).None? {
      PlaceholderNeedsThree(s[1..]);
    }
  }

  // ---------------------------------------------------------------------
  // Colour

  /**
    The palette colour when it is set and not transparent, else the local
    cursor's colour when there is a local cursor whose colour is not
    transparent, else the default.
   */
  function ColorOf(paletteColor: string, myCursorColor: Option<string>): (r: string)
    ensures r != PeerCursors.CHAT_TRANSPARENT_COLOR
    ensures r == paletteColor || (myCursorColor.Some? && r == myCursorColor.value) || r == PeerCursors.CHAT_DEFAULT_COLOR
    ensures paletteColor != "" && paletteColor != PeerCursors.CHAT_TRANSPARENT_COLOR ==> r == paletteColor
    ensures !(paletteColor != "" && paletteColor != PeerCursors.CHAT_TRANSPARENT_COLOR) ==>
      r == if myCursorColor.Some? && myCursorColor.value != PeerCursors.CHAT_TRANSPARENT_COLOR then myCursorColor.value
           else PeerCursors.CHAT_DEFAULT_COLOR
  {
    if paletteColor != "" && paletteColor != PeerCursors.CHAT_TRANSPARENT_COLOR then paletteColor
    else if myCursorColor.Some? && myCursorColor.value != PeerCursors.CHAT_TRANSPARENT_COLOR then myCursorColor.value
    else PeerCursors.CHAT_DEFAULT_COLOR
  }

  /** The synchronised fields an incoming context carries. */
  datatype PaletteContext = PaletteContext(value: string, dicebot: string, paletteColor: string)

  class ChatPalette {
    /** The palette source text. */
    var value: string
    var dicebot: string
    var paletteColor: string
    var palettes: seq<string>
    var paletteLines: seq<string>
    var paletteVariables: seq<PaletteVariable>
    var isAnalized: bool

    /** Once analysed, the cached lists are the parse of the current source text. */
    ghost predicate Valid()
      reads this
    {
      isAnalized ==>
        && palettes == Split(value, '\n')
        && paletteLines == LinesOf(palettes)
        && paletteVariables == VarsOf(palettes)
    }

    constructor (source: string)
      ensures Valid() && value == source && !isAnalized
      ensures dicebot == "" && paletteColor == ""
    {
      value := source;
      dicebot := "";
      paletteColor := "";
      palettes := [];
      paletteLines := [];
      paletteVariables := [];
      isAnalized := false;
    }

    /** `parse`: split the source on line feeds and sort each line into variables or ordinary lines. */
    method Parse()
      modifies this`palettes, this`paletteLines, this`paletteVariables, this`isAnalized
      ensures Valid() && isAnalized
    {
      var ps := Split(value, '\n');
      var lines, vars := SortLines(ps);
      palettes := ps;
      paletteLines := lines;
      paletteVariables := vars;
      isAnalized := true;
    }

    /** `paletteLines`: parses first when the cache is stale. */
    method PaletteLines() returns (r: seq<string>)
      requires Valid()
      modifies this`palettes, this`paletteLines, this`paletteVariables, this`isAnalized
      ensures Valid() && isAnalized
      ensures r == LinesOf(Split(value, '\n'))
    {
      if !isAnalized {
        Parse();
      }
      r := paletteLines;
    }

    /** `paletteVariables`: parses first when the cache is stale. */
    method PaletteVariables() returns (r: seq<PaletteVariable>)
      requires Valid()
      modifies this`palettes, this`paletteLines, this`paletteVariables, this`isAnalized
      ensures Valid() && isAnalized
      ensures r == VarsOf(Split(value, '\n'))
    {
      if !isAnalized {
        Parse();
      }
      r := paletteVariables;
    }

    /** `getPalette`: parses first when the cache is stale. */
    method GetPalette() returns (r: seq<string>)
      requires Valid()
      modifies this`palettes, this`paletteLines, this`paletteVariables, this`isAnalized
      ensures Valid() && isAnalized
      ensures r == Split(value, '\n')
    {
      if !isAnalized {
        Parse();
      }
      r := palettes;
    }

    /** `setPalette`: a new source text, and the parse cache marked stale. */
    method SetPalette(source: string)
      modifies this`value, this`isAnalized
      ensures Valid() && value == source && !isAnalized
    {
      value := source;
      isAnalized := false;
    }

    /** `apply`: the base overwrite of the synchronised fields, then the parse cache marked stale. */
    method Apply(ctx: PaletteContext)
      modifies this`value, this`dicebot, this`paletteColor, this`isAnalized
      ensures Valid() && !isAnalized
      ensures value == ctx.value && dicebot == ctx.dicebot && paletteColor == ctx.paletteColor
    {
      value := ctx.value;
      dicebot := ctx.dicebot;
      paletteColor := ctx.paletteColor;
      isAnalized := false;
    }

    /** The `color` getter, given the local cursor's colour if there is a local cursor. */
    function Color(myCursorColor: Option<string>): (r: string)
      reads this
      ensures r != PeerCursors.CHAT_TRANSPARENT_COLOR
      ensures paletteColor != "" && paletteColor != PeerCursors.CHAT_TRANSPARENT_COLOR ==> r == paletteColor
      ensures !(paletteColor != "" && paletteColor != PeerCursors.CHAT_TRANSPARENT_COLOR) ==>
        r == if myCursorColor.Some? && myCursorColor.value != PeerCursors.CHAT_TRANSPARENT_COLOR then myCursorColor.value
             else PeerCursors.CHAT_DEFAULT_COLOR
    {
      ColorOf(paletteColor, myCursorColor)
    }

    /** The `color` setter writes the palette colour, which a later read returns unless it is empty or transparent. */
    method SetColor(color: string)
      modifies this`paletteColor
      ensures paletteColor == color
      ensures color != "" && color != PeerCursors.CHAT_TRANSPARENT_COLOR ==> forall m :: Color(m) == color
    {
      paletteColor := color;
    }

    /**
      `evaluate`: repeated global substitution of placeholders, stopping after
      a pass that replaced nothing or once the pass count exceeds the limit.
      The palette is parsed on the first replacement if its cache is stale.
     */
    method Evaluate(line: string, extend: Option<string -> Option<string>>) returns (r: string)
      requires Valid()
      modifies this`palettes, this`paletteLines, this`paletteVariables, this`isAnalized
      ensures Valid()
      ensures isAnalized == (old(isAnalized) || HasPlaceholder(line))
      ensures r == Evaluated(line, VarsOf(Split(value, '\n')), extend, 0)
    {
      if HasPlaceholder(line) && !isAnalized {
        Parse();
      }
      var vars := paletteVariables;
      if !HasPlaceholder(line) {
        EvaluatedWithoutPlaceholder(line, VarsOf(Split(value, '\n')), extend, 0);
        EvaluatedWithoutPlaceholder(line, vars, extend, 0);
      }
      r := Substitute(line, vars, extend);
    }
  }

  /** The loop of `parse`: each line goes to the variables or to the ordinary lines, in order. */
  method SortLines(ps: seq<string>) returns (lines: seq<string>, vars: seq<PaletteVariable>)
    ensures lines == LinesOf(ps) && vars == VarsOf(ps)
  {
    lines := [];
    vars := [];
    var i := 0;
    while i < |ps|
      invariant 0 <= i <= |ps|
      invariant lines + LinesOf(ps[i..]) == LinesOf(ps)
      invariant vars + VarsOf(ps[i..]) == VarsOf(ps)
    {
      ParseStep(ps, i);
      var variable := ParseVariable(ps[i]);
      if variable.Some? {
        vars := vars + [variable.value];
      } else {
        lines := lines + [ps[i]];
      }
      i := i + 1;
    }
  }

  /** The loop over the palette variables inside the replacement callback: the last match wins. */
  method MatchingVariable(vars: seq<PaletteVariable>, name: string) returns (r: Option<string>)
    ensures r == LastMatch(vars, name)
  {
    r := None;
    var i := 0;
    while i < |vars|
      invariant 0 <= i <= |vars|
      invariant r == LastMatch(vars[..i], name)
    {
      assert vars[..i + 1][..i] == vars[..i];
      if NormalizeName(vars[i].name) == NormalizeName(name) {
        r := Some(vars[i].value);
      }
      i := i + 1;
    }
    assert vars[..i] == vars;
  }

  /**
    The substitution loop of `evaluate`: passes until one replaces nothing
    or the pass count exceeds the limit.
   */
  method Substitute(line: string, vars: seq<PaletteVariable>, extend: Option<string -> Option<string>>) returns (r: string)
    ensures r == Evaluated(line, vars, extend, 0)
  {
    ghost var target := Evaluated(line, vars, extend, 0);
    r := line;
    var loop := 0;
    var isContinue := true;
    while isContinue
      invariant 0 <= loop <= EVALUATE_LIMIT + 1
      invariant isContinue ==> loop <= EVALUATE_LIMIT && Evaluated(r, vars, extend, loop) == target
      invariant !isContinue ==> r == target
      decreases EVALUATE_LIMIT + 1 - loop
    {
      var p := Pass(r, vars, extend);
      loop := loop + 1;
      r := p.text;
      isContinue := p.replaced;
      if EVALUATE_LIMIT < loop {
        isContinue := false;
      }
    }
  }
}

=== FILE: game_character.dfy ===
/**
  The character object (`GameCharacter`): owner-based hiding and visibility,
  the table-wide stealth flag, the chat-palette and stand-list children, the
  completion of missing `altitude`/`height` elements and the height derived
  from them, and the owner's name and colour looked up through the peer
  cursors.
 */
module GameCharacters {
  import opened Options
  import opened Strings
  import opened PeerCursors

  /** The location name of objects placed on the table. */
  const TABLE_LOCATION: string := "table"

  /** A child of the character's node, as far as the model tells them apart. */
  datatype ChildNode =
    | ChatPaletteChild(identifier: string)
    | StandListChild(identifier: string)
    | OtherChild(identifier: string)

  /** A data element of the common section: its name, value and optional `currentValue`. */
  datatype DataElement = DataElement(name: string, value: string, currentValue: Option<string>)

  /** JavaScript truthiness of an optional attribute string. */
  predicate Truthy(s: Option<string>) {
    s.Some? && s.value != ""
  }

  /** The position of the first child that satisfies `p`. */
  function FirstChild(children: seq<ChildNode>, p: ChildNode -> bool): (r: Option<nat>)
    ensures r.Some? ==> r.value < |children| && p(children[r.value])
    ensures r.Some? ==> forall j :: 0 <= j < r.value ==> !p(children[j])
    ensures r.None? ==> forall j :: 0 <= j < |children| ==> !p(children[j])
  {
    if children == [] then None
    else if p(children[0]) then Some(0)
    else match FirstChild(children[1..], p)
      case None => None
      case Some(k) => Some(k + 1)
  }

  predicate IsChatPalette(c: ChildNode) { c.ChatPaletteChild? }

  predicate IsStandList(c: ChildNode) { c.StandListChild? }

  /** The position of the first element named `name`. */
  function FindElement(elements: seq<DataElement>, name: string): (r: Option<nat>)
    ensures r.Some? ==> r.value < |elements| && elements[r.value].name == name
    ensures r.Some? ==> forall j :: 0 <= j < r.value ==> elements[j].name != name
    ensures r.None? ==> forall j :: 0 <= j < |elements| ==> elements[j].name != name
  {
    if elements == [] then None
    else if elements[0].name == name then Some(0)
    else match FindElement(elements[1..], name)
      case None => None
      case Some(k) => Some(k + 1)
  }

  /**
    `height`: the number the `height` element holds, scaled by `size` when the
    element's `currentValue` is set, and 0 when there is no element or its
    value is not a number.
   */
  function Height(common: seq<DataElement>, size: int): (r: int)
  {
    match FindElement(common, "height")
    case None => 0
    case Some(k) =>
      var num := ToNumber(common[k].value).GetOr(0);
      if Truthy(common[k].currentValue) then num * size else num
  }

  /** Without a `height` element the height is 0. */
  lemma HeightMissing(common: seq<DataElement>, size: int)
    requires forall j :: 0 <= j < |common| ==> common[j].name != "height"
    ensures Height(common, size) == 0
  {
  }

  /**
    With a first `height` element at `k`, the height is 0 when its value is
    not a number, and that number, scaled by `size` exactly when the
    `currentValue` is set, otherwise.
   */
  lemma HeightOfElement(common: seq<DataElement>, size: int, k: nat)
    requires k < |common| && common[k].name == "height"
    requires forall j :: 0 <= j < k ==> common[j].name != "height"
    ensures ToNumber(common[k].value).None? ==> Height(common, size) == 0
    ensures ToNumber(common[k].value).Some? && !Truthy(common[k].currentValue) ==>
      Height(common, size) == ToNumber(common[k].value).value
    ensures ToNumber(common[k].value).Some? && Truthy(common[k].currentValue) ==>
      Height(common, size) == ToNumber(common[k].value).value * size
  {
    FirstElementAt(common, "height", k);
  }

  /** A height element whose value is a plain number and whose `currentValue` is set yields that number times `size`. */
  lemma HeightOfNumber(n: nat, size: int)
    ensures Height([DataElement("height", NatToString(n), Some("x"))], size) == n * size
    ensures Height([DataElement("height", NatToString(n), Some(""))], size) == n
  {
    ToNumberOfNatToString(n);
  }

  /** An element named `name` with none of that name before it is the one `FindElement` finds. */
  lemma FirstElementAt(elements: seq<DataElement>, name: string, k: nat)
    requires k < |elements| && elements[k].name == name
    requires forall j :: 0 <= j < k ==> elements[j].name != name
    ensures FindElement(elements, name) == Some(k)
  {
    var f := FindElement(elements, name);
    if f != Some(k) {
      assert false;
    }
  }

  /** Elements added after a named element leave the search for that name where it was. */
  lemma FindElementInPrefix(elements: seq<DataElement>, more: seq<DataElement>, name: string)
    requires FindElement(elements, name).Some?
    ensures FindElement(elements + more, name) == FindElement(elements, name)
  {
    var k := FindElement(elements, name).value;
    FirstElementAt(elements + more, name, k);
  }

  /** The altitude element `complement` adds. */
  function AltitudeElement(): DataElement {
    DataElement("altitude", "0", None)
  }

  /** The height element `complement` adds, with an empty `currentValue`. */
  function HeightElement(): DataElement {
    DataElement("height", "0", Some(""))
  }

  /** The first step of `complement`: a missing altitude is appended. */
  function WithAltitude(common: seq<DataElement>): seq<DataElement> {
    if FindElement(common, "altitude").None? then common + [AltitudeElement()] else common
  }

  /**
    The second step: a missing height is inserted before the first altitude,
    or appended when there is none (`insertBefore` with a null reference).
   */
  function WithHeight(common: seq<DataElement>): seq<DataElement> {
    match FindElement(common, "height")
    case Some(_) => common
    case None =>
      match FindElement(common, "altitude")
      case None => common + [HeightElement()]
      case Some(k) => common[..k] + [HeightElement()] + common[k..]
  }

  /** `complement`: append a missing altitude, then put a missing height before the altitude. */
  function Complemented(common: seq<DataElement>): seq<DataElement> {
    WithHeight(WithAltitude(common))
  }

  /** After the first step there is an altitude, and the height search is unaffected. */
  lemma WithAltitudeFinds(common: seq<DataElement>)
    ensures FindElement(WithAltitude(common), "altitude").Some?
    ensures FindElement(WithAltitude(common), "height").Some? <==> FindElement(common, "height").Some?
  {
    var w := WithAltitude(common);
    if FindElement(common, "altitude").None? {
      FirstElementAt(w, "altitude", |common|);
      if FindElement(common, "height").Some? {
        FindElementInPrefix(common, [AltitudeElement()], "height");
      } else {
        assert forall j :: 0 <= j < |w| ==> w[j].name != "height";
      }
    }
  }

  /** After the second step there is a height, and an altitude that was there still is. */
  lemma WithHeightFinds(common: seq<DataElement>)
    ensures FindElement(WithHeight(common), "height").Some?
    ensures FindElement(common, "altitude").Some? ==> FindElement(WithHeight(common), "altitude").Some?
  {
    if FindElement(common, "height").None? {
      var w := WithHeight(common);
      match FindElement(common, "altitude")
      case None =>
        FirstElementAt(w, "height", |common|);
      case Some(k) =>
        FirstElementAt(w, "height", k);
        assert w[k + 1] == common[k];
    }
  }

  /** A completed list has both an altitude and a height. */
  lemma ComplementedHasBoth(common: seq<DataElement>)
    ensures FindElement(Complemented(common), "altitude").Some?
    ensures FindElement(Complemented(common), "height").Some?
  {
    WithAltitudeFinds(common);
    WithHeightFinds(WithAltitude(common));
  }

  /** A list that already has both elements is left alone. */
  lemma ComplementedComplete(common: seq<DataElement>)
    requires FindElement(common, "altitude").Some? && FindElement(common, "height").Some?
    ensures Complemented(common) == common
  {
  }

  /** Completing twice is completing once. */
  lemma ComplementIdempotent(common: seq<DataElement>)
    ensures Complemented(Complemented(common)) == Complemented(common)
  {
    ComplementedHasBoth(common);
    ComplementedComplete(Complemented(common));
  }

  /** Completion keeps every element, in order, and adds one element for each name that was missing. */
  lemma ComplementedKeeps(common: seq<DataElement>)
    ensures multiset(common) <= multiset(Complemented(common))
    ensures |Complemented(common)| == |common| + Missing(common, "altitude") + Missing(common, "height")
  {
    WithAltitudeFinds(common);
    var w := WithAltitude(common);
    match FindElement(w, "height")
    case Some(_) =>
    case None =>
      match FindElement(w, "altitude")
      case None =>
      case Some(k) =>
        assert w == w[..k] + w[k..];
  }

  /** 1 when no element has the name, else 0. */
  function Missing(elements: seq<DataElement>, name: string): nat {
    if FindElement(elements, name).None? then 1 else 0
  }

  /** The character: its owner, where it lies, its children and its common data elements. */
  class GameCharacter {
    const identifier: string
    var owner: string
    var locationName: string
    var children: seq<ChildNode>
    var common: seq<DataElement>

    constructor (identifier: string, children: seq<ChildNode>, common: seq<DataElement>)
      ensures this.identifier == identifier && owner == "" && locationName == TABLE_LOCATION
      ensures this.children == children && this.common == common
    {
      this.identifier := identifier;
      owner := "";
      locationName := TABLE_LOCATION;
      this.children := children;
      this.common := common;
    }

    /** `isHideIn`: the character has an owner. */
    predicate IsHideIn()
      reads this
    {
      owner != ""
    }

    /** `isVisible`: the character has no owner, or the local user owns it. */
    predicate IsVisible(myUserId: string)
      reads this
    {
      owner == "" || myUserId == owner
    }

    /** A hidden character is visible to exactly its owner. */
    lemma HiddenVisibleOnlyToOwner(myUserId: string)
      ensures IsHideIn() && IsVisible(myUserId) <==> owner != "" && myUserId == owner
      ensures !IsHideIn() ==> IsVisible(myUserId)
    {
    }

    /** The stand list the getter would return, or the one it would create. */
    function NewStandList(): ChildNode {
      StandListChild("StandList_" + identifier)
    }

    /** `chatPalette`: the first chat-palette child, if any. */
    method ChatPalette() returns (r: Option<ChildNode>)
      ensures r == if FirstChild(children, IsChatPalette).Some? then Some(children[FirstChild(children, IsChatPalette).value]) else None
    {
      var i := 0;
      while i < |children|
        invariant 0 <= i <= |children|
        invariant forall j :: 0 <= j < i ==> !IsChatPalette(children[j])
      {
        if children[i].ChatPaletteChild? {
          assert FirstChild(children, IsChatPalette) == Some(i);
          return Some(children[i]);
        }
        i := i + 1;
      }
      return None;
    }

    /**
      `standList`: the first stand-list child; when there is none, a new one
      is appended and returned.
     */
    method StandList() returns (r: ChildNode)
      modifies this`children
      ensures r.StandListChild? && r in children
      ensures FirstChild(old(children), IsStandList).Some? ==>
        children == old(children) && r == children[FirstChild(children, IsStandList).value]
      ensures FirstChild(old(children), IsStandList).None? ==>
        children == old(children) + [NewStandList()] && r == NewStandList()
    {
      var i := 0;
      while i < |children|
        invariant 0 <= i <= |children|
        invariant forall j :: 0 <= j < i ==> !IsStandList(children[j])
      {
        if children[i].StandListChild? {
          assert FirstChild(children, IsStandList) == Some(i);
          return children[i];
        }
        i := i + 1;
      }
      r := NewStandList();
      children := children + [r];
    }

    /** `complement` on the common data elements. */
    method Complement()
      modifies this`common
      ensures common == Complemented(old(common))
    {
      if FindElement(common, "altitude").None? {
        common := common + [AltitudeElement()];
      }
      if FindElement(common, "height").None? {
        match FindElement(common, "altitude")
        case None =>
          common := common + [HeightElement()];
        case Some(k) =>
          common := common[..k] + [HeightElement()] + common[k..];
      }
    }

    /** `ownerName`: the name of the cursor whose user owns the character, if one is found. */
    method OwnerName(cursors: PeerCursorStore) returns (r: Option<string>)
      requires cursors.Valid()
      modifies cursors`userIdMap, cursors`peerIdMap
      ensures cursors.Valid()
      ensures r.None? <==> forall c :: c in cursors.cursors ==> c.userId != owner
      ensures r.Some? ==> exists c :: c in cursors.cursors && c.userId == owner && c.name == r.value
    {
      var found := cursors.FindByUserId(owner);
      LookupFindsStoredCursorWithKey(cursors.cursors, old(cursors.userIdMap), owner, true);
      LookupNoneIffNoCursorHasKey(cursors.cursors, old(cursors.userIdMap), owner, true);
      r := if found.Some? then Some(found.value.name) else None;
    }

    /** `ownerColor`: the owning cursor's colour, or the default colour when none is found. */
    method OwnerColor(cursors: PeerCursorStore) returns (r: string)
      requires cursors.Valid()
      modifies cursors`userIdMap, cursors`peerIdMap
      ensures cursors.Valid()
      ensures (forall c :: c in cursors.cursors ==> c.userId != owner) ==> r == CHAT_DEFAULT_COLOR
      ensures (exists c :: c in cursors.cursors && c.userId == owner) ==>
        exists c :: c in cursors.cursors && c.userId == owner && c.color == r
    {
      var found := cursors.FindByUserId(owner);
      LookupFindsStoredCursorWithKey(cursors.cursors, old(cursors.userIdMap), owner, true);
      LookupNoneIffNoCursorHasKey(cursors.cursors, old(cursors.userIdMap), owner, true);
      r := if found.Some? then found.value.color else CHAT_DEFAULT_COLOR;
    }
  }

  /** A character that puts the table in stealth mode for the local user. */
  predicate Stealthy(c: GameCharacter, myUserId: string)
    reads c
  {
    c.IsHideIn() && c.IsVisible(myUserId) && c.locationName == TABLE_LOCATION
  }

  /** `isStealthMode`: some character on the table is hidden and visible to the local user. */
  method IsStealthMode(characters: seq<GameCharacter>, myUserId: string) returns (r: bool)
    ensures r <==> exists i :: 0 <= i < |characters| && Stealthy(characters[i], myUserId)
  {
    for i := 0 to |characters|
      invariant forall j :: 0 <= j < i ==> !Stealthy(characters[j], myUserId)
    {
      var c := characters[i];
      if c.IsHideIn() && c.IsVisible(myUserId) && c.locationName == TABLE_LOCATION {
        return true;
      }
    }
    return false;
  }
}

=== FILE: game_character_sheet.dfy ===
/**
  The character sheet's maintenance of a tabletop object's images
  (`GameCharacterSheetComponent`): the `imageIdentifier` and `faceIcon`
  elements of the object's image data, the indexes of the current image and
  icon, deletion that keeps those indexes pointing into the lists, selection,
  adding with a cap of eight, replacing, the edit toggle and the visibility
  rule.
 */
module CharacterSheets {
  import opened Options

  const MAX_IMAGE_ICON_COUNT: nat := 8
  /** The value that marks an image slot as empty. */
  const NULL_IMAGE: string := "null"

  /** An image data element: its `value` (the image identifier) and its `currentValue`. */
  datatype ImageElement = ImageElement(value: string, currentValue: string)

  /** The largest index a list of `n - 1` elements allows, or 0 when it has none. */
  function LastIndexAfterDelete(n: nat): nat {
    if n >= 2 then n - 2 else 0
  }

  /**
    The current index after deleting element `index` of `n`: lowered when it
    was past the deleted one, then clamped into the shorter list and to 0.
   */
  function IndexAfterDelete(cur: int, index: int, n: nat): (r: int)
    requires 0 < n && index < n
    ensures 0 <= r <= LastIndexAfterDelete(n)
    ensures 0 <= index < cur <= n - 1 ==> r == cur - 1
    ensures 0 <= cur < index ==> r == cur
    ensures 0 <= index && cur == index ==> r == if index == n - 1 then LastIndexAfterDelete(n) else index
  {
    var c := if cur > index then cur - 1 else cur;
    var c' := if c >= n - 1 then n - 2 else c;
    if c' < 0 then 0 else c'
  }

  /** `x` brought into the range [lo, hi]. */
  function Clamp(x: int, lo: int, hi: int): (r: int)
    requires lo <= hi
    ensures lo <= r <= hi
    ensures lo <= x <= hi ==> r == x
    ensures x < lo ==> r == lo
    ensures x > hi ==> r == hi
  {
    if x < lo then lo else if x > hi then hi else x
  }

  /** `removeChild(elements[index])` on the list; a negative index names no element. */
  function RemoveAt<T>(s: seq<T>, index: int): (r: seq<T>)
    requires index < |s|
    ensures index < 0 ==> r == s
    ensures 0 <= index ==> |r| == |s| - 1
    ensures forall k :: 0 <= k < index ==> r[k] == s[k]
    ensures 0 <= index ==> forall k :: index <= k < |r| ==> r[k] == s[k + 1]
  {
    if index < 0 then s else s[..index] + s[index + 1..]
  }

  /**
    Deleting an element other than the current one keeps the current index
    on the same element; deleting the current one moves it to the element
    that took its place, or to the new last one.
   */
  lemma DeleteKeepsDesignatedElement<T>(s: seq<T>, cur: int, index: int)
    requires 0 <= index < |s| && 0 <= cur < |s|
    ensures var r := RemoveAt(s, index);
      var c := IndexAfterDelete(cur, index, |s|);
      (cur != index ==> c < |r| && r[c] == s[cur])
      && (cur == index && |r| > 0 ==> c < |r| && r[c] == (if index < |r| then s[index + 1] else s[index - 1]))
  {
  }

  /** `elements[index].value === imageIdentifier`, or no identifier to compare with. */
  predicate IconMatches(icons: seq<ImageElement>, index: int, imageIdentifier: string)
    requires index < |icons|
  {
    imageIdentifier == "" || (0 <= index && icons[index].value == imageIdentifier)
  }

  /**
    The trimming loop as written: `for (i = 8; i < n; i++) delete(i)`, with
    `n` the length before the loop and each deletion reading the current,
    already shortened list, so that an index past its end deletes nothing.
   */
  function TrimAsWritten<T>(s: seq<T>, i: nat, n: nat): (r: seq<T>)
    ensures |r| <= |s|
    decreases n - i
  {
    if i >= n then s
    else if i < |s| then TrimAsWritten(RemoveAt(s, i), i + 1, n)
    else TrimAsWritten(s, i + 1, n)
  }

  /** Ten images are trimmed to nine, not eight, by the loop as written. */
  lemma TrimAsWrittenLeavesNine<T>(s: seq<T>)
    requires |s| == 10
    ensures |TrimAsWritten(s, MAX_IMAGE_ICON_COUNT, |s|)| == 9
  {
    var s1 := RemoveAt(s, 8);
    assert |s1| == 9;
    assert TrimAsWritten(s, 8, 10) == TrimAsWritten(s1, 9, 10);
    assert TrimAsWritten(s1, 9, 10) == TrimAsWritten(s1, 10, 10);
  }

  /** The trim that deletes from the end keeps exactly the first eight elements. */
  function Trim<T>(s: seq<T>): (r: seq<T>)
    ensures |s| >= MAX_IMAGE_ICON_COUNT ==> r == s[..MAX_IMAGE_ICON_COUNT]
    ensures |s| < MAX_IMAGE_ICON_COUNT ==> r == s
  {
    if |s| > MAX_IMAGE_ICON_COUNT then s[..MAX_IMAGE_ICON_COUNT] else s
  }

  /** The list after adding `value` with the cap: appended below eight, else written into the eighth slot. */
  function AddCapped(s: seq<ImageElement>, value: string): (r: seq<ImageElement>)
    ensures |r| == if |s| < MAX_IMAGE_ICON_COUNT then |s| + 1 else MAX_IMAGE_ICON_COUNT
    ensures r[|r| - 1].value == value
    ensures forall k :: 0 <= k < |r| - 1 ==> r[k] == s[k]
  {
    if |s| >= MAX_IMAGE_ICON_COUNT then
      var t := Trim(s);
      t[MAX_IMAGE_ICON_COUNT - 1 := t[MAX_IMAGE_ICON_COUNT - 1].(value := value)]
    else s + [ImageElement(value, "")]
  }

  /** Adding never grows a list past the larger of eight and its previous length. */
  lemma AddCappedBound(s: seq<ImageElement>, value: string)
    ensures |AddCapped(s, value)| <= if |s| > MAX_IMAGE_ICON_COUNT then |s| else MAX_IMAGE_ICON_COUNT
    ensures |s| >= MAX_IMAGE_ICON_COUNT ==> |AddCapped(s, value)| == MAX_IMAGE_ICON_COUNT
  {
  }

  /** The shown object, as far as its visibility on the sheet goes. */
  datatype SheetObject =
    | CardObject(isFront: bool, isHand: bool)
    | DiceObject(isVisible: bool)
    | OtherObject

  /** `isVisible`: nothing shown is invisible; a GM sees all; a card shows its face up or in hand. */
  function IsVisible(shown: Option<SheetObject>, myCursorGMMode: Option<bool>): (r: bool)
    ensures shown.None? ==> !r
    ensures shown.Some? && myCursorGMMode == Some(true) ==> r
    ensures shown.Some? && shown.value.OtherObject? ==> r
    ensures shown.Some? && myCursorGMMode != Some(true) && shown.value.CardObject? ==>
      (r <==> shown.value.isFront || shown.value.isHand)
  {
    match shown
    case None => false
    case Some(o) =>
      if myCursorGMMode == Some(true) then true
      else match o
        case CardObject(isFront, isHand) => isFront || isHand
        case DiceObject(isVisible) => isVisible
        case OtherObject => true
  }

  /** The image data of the shown tabletop object. */
  class TabletopImages {
    /** The `imageIdentifier` elements, in order. */
    var images: seq<ImageElement>
    /** The `faceIcon` elements, in order. */
    var icons: seq<ImageElement>
    var currntImageIndex: int
    var currntIconIndex: int

    constructor (images: seq<ImageElement>, icons: seq<ImageElement>)
      ensures this.images == images && this.icons == icons
      ensures currntImageIndex == 0 && currntIconIndex == 0
    {
      this.images := images;
      this.icons := icons;
      currntImageIndex := 0;
      currntIconIndex := 0;
    }

    /** `imageElement`: the image the current index designates, if it designates one. */
    function ImageElementIndex(): Option<nat>
      reads this
    {
      if 0 <= currntImageIndex < |images| then Some(currntImageIndex) else None
    }
  }

  /** The sheet component: its edit flag and the object it shows. */
  class CharacterSheet {
    const tabletopObject: TabletopImages
    var isEdit: bool

    constructor (tabletopObject: TabletopImages)
      ensures this.tabletopObject == tabletopObject && !isEdit
    {
      this.tabletopObject := tabletopObject;
      isEdit := false;
    }

    /** `toggleEditMode` */
    method ToggleEditMode()
      modifies this`isEdit
      ensures isEdit == !old(isEdit)
    {
      isEdit := if isEdit then false else true;
    }

    /** `selectImage`: the index becomes the argument; selecting the current one changes nothing. */
    method SelectImage(index: int)
      modifies tabletopObject`currntImageIndex
      ensures tabletopObject.currntImageIndex == index
    {
      if tabletopObject.currntImageIndex == index {
        return;
      }
      tabletopObject.currntImageIndex := index;
    }

    /** `selectIcon` */
    method SelectIcon(index: int)
      modifies tabletopObject`currntIconIndex
      ensures tabletopObject.currntIconIndex == index
    {
      if tabletopObject.currntIconIndex == index {
        return;
      }
      tabletopObject.currntIconIndex := index;
    }

    /**
      `deleteImage`: nothing happens for an empty list or an index past its
      end; otherwise the element goes and the current index is adjusted.
     */
    method DeleteImage(index: int)
      modifies tabletopObject`images, tabletopObject`currntImageIndex
      ensures var n := |old(tabletopObject.images)|;
        if 0 < n && index < n then
          tabletopObject.images == RemoveAt(old(tabletopObject.images), index)
          && tabletopObject.currntImageIndex == IndexAfterDelete(old(tabletopObject.currntImageIndex), index, n)
        else
          tabletopObject.images == old(tabletopObject.images)
          && tabletopObject.currntImageIndex == old(tabletopObject.currntImageIndex)
    {
      var o := tabletopObject;
      var n := |o.images|;
      if 0 < n && index < n {
        if o.currntImageIndex > index {
          o.currntImageIndex := o.currntImageIndex - 1;
        }
        o.images := RemoveAt(o.images, index);
        if o.currntImageIndex >= n - 1 {
          o.currntImageIndex := n - 2;
        }
        if o.currntImageIndex < 0 {
          o.currntImageIndex := 0;
        }
      }
    }

    /**
      `deleteIcon`: as `deleteImage` on the face icons, and only when no
      identifier is given or the element at `index` has it.
     */
    method DeleteIcon(index: int, imageIdentifier: string)
      modifies tabletopObject`icons, tabletopObject`currntIconIndex
      ensures var n := |old(tabletopObject.icons)|;
        if 0 < n && index < n && IconMatches(old(tabletopObject.icons), index, imageIdentifier) then
          tabletopObject.icons == RemoveAt(old(tabletopObject.icons), index)
          && tabletopObject.currntIconIndex == IndexAfterDelete(old(tabletopObject.currntIconIndex), index, n)
        else
          tabletopObject.icons == old(tabletopObject.icons)
          && tabletopObject.currntIconIndex == old(tabletopObject.currntIconIndex)
    {
      var o := tabletopObject;
      var n := |o.icons|;
      if 0 < n && index < n && IconMatches(o.icons, index, imageIdentifier) {
        if o.currntIconIndex > index {
          o.currntIconIndex := o.currntIconIndex - 1;
        }
        o.icons := RemoveAt(o.icons, index);
        if o.currntIconIndex >= n - 1 {
          o.currntIconIndex := n - 2;
        }
        if o.currntIconIndex < 0 {
          o.currntIconIndex := 0;
        }
      }
    }

    /**
      `openModalAddImage` once a `value` is chosen: an empty value changes
      nothing; below eight images it is appended; otherwise the surplus
      images are deleted, from the last one down, and the eighth takes the
      value. A negative current index becomes 0.
     */
    method AddImage(value: string)
      modifies tabletopObject`images, tabletopObject`currntImageIndex
      ensures value == "" ==>
        tabletopObject.images == old(tabletopObject.images) && tabletopObject.currntImageIndex == old(tabletopObject.currntImageIndex)
      ensures value != "" ==> tabletopObject.images == AddCapped(old(tabletopObject.images), value)
      ensures value != "" ==> tabletopObject.currntImageIndex >= 0
      ensures value != "" ==> old(tabletopObject.currntImageIndex) >= 0 && |old(tabletopObject.images)| <= MAX_IMAGE_ICON_COUNT ==>
          tabletopObject.currntImageIndex == old(tabletopObject.currntImageIndex)
      ensures value != "" ==> 0 <= old(tabletopObject.currntImageIndex) < |old(tabletopObject.images)| ==>
          tabletopObject.currntImageIndex < |tabletopObject.images|
      ensures value != "" ==> old(tabletopObject.currntImageIndex) < 0 ==> tabletopObject.currntImageIndex == 0
      ensures value != "" ==> |old(tabletopObject.images)| > MAX_IMAGE_ICON_COUNT ==>
          tabletopObject.currntImageIndex == Clamp(old(tabletopObject.currntImageIndex), 0, MAX_IMAGE_ICON_COUNT - 1)
    {
      if value == "" {
        return;
      }
      var o := tabletopObject;
      var n := |o.images|;
      if n >= MAX_IMAGE_ICON_COUNT {
        var i := n - 1;
        while i >= MAX_IMAGE_ICON_COUNT
          invariant MAX_IMAGE_ICON_COUNT - 1 <= i < n
          invariant o.images == old(o.images)[..i + 1]
          invariant i < n - 1 ==> o.currntImageIndex >= 0
          invariant i == n - 1 ==> o.currntImageIndex == old(o.currntImageIndex)
          invariant 0 <= old(o.currntImageIndex) < n ==> o.currntImageIndex < i + 1
          invariant old(o.currntImageIndex) < 0 ==> o.currntImageIndex <= 0
          invariant i < n - 1 ==> o.currntImageIndex == Clamp(old(o.currntImageIndex), 0, i)
        {
          DeleteImage(i);
          assert old(o.images)[..i + 1][..i] == old(o.images)[..i];
          i := i - 1;
        }
        o.images := o.images[MAX_IMAGE_ICON_COUNT - 1 := o.images[MAX_IMAGE_ICON_COUNT - 1].(value := value)];
      } else {
        o.images := o.images + [ImageElement(value, "")];
      }
      if o.currntImageIndex < 0 {
        o.currntImageIndex := 0;
      }
    }

    /**
      The face-icon branch of `openModal`: an empty value changes nothing,
      otherwise the same capped add on the icons.
     */
    method AddIcon(value: string)
      modifies tabletopObject`icons, tabletopObject`currntIconIndex
      ensures value == "" ==>
        tabletopObject.icons == old(tabletopObject.icons) && tabletopObject.currntIconIndex == old(tabletopObject.currntIconIndex)
      ensures value != "" ==> tabletopObject.icons == AddCapped(old(tabletopObject.icons), value)
      ensures value != "" ==> tabletopObject.currntIconIndex >= 0
      ensures value != "" ==> old(tabletopObject.currntIconIndex) >= 0 && |old(tabletopObject.icons)| <= MAX_IMAGE_ICON_COUNT ==>
          tabletopObject.currntIconIndex == old(tabletopObject.currntIconIndex)
      ensures value != "" ==> 0 <= old(tabletopObject.currntIconIndex) < |old(tabletopObject.icons)| ==>
          tabletopObject.currntIconIndex < |tabletopObject.icons|
      ensures value != "" ==> old(tabletopObject.currntIconIndex) < 0 ==> tabletopObject.currntIconIndex == 0
      ensures value != "" ==> |old(tabletopObject.icons)| > MAX_IMAGE_ICON_COUNT ==>
          tabletopObject.currntIconIndex == Clamp(old(tabletopObject.currntIconIndex), 0, MAX_IMAGE_ICON_COUNT - 1)
    {
      if value == "" {
        return;
      }
      var o := tabletopObject;
      var n := |o.icons|;
      if n >= MAX_IMAGE_ICON_COUNT {
        var i := n - 1;
        while i >= MAX_IMAGE_ICON_COUNT
          invariant MAX_IMAGE_ICON_COUNT - 1 <= i < n
          invariant o.icons == old(o.icons)[..i + 1]
          invariant i < n - 1 ==> o.currntIconIndex >= 0
          invariant i == n - 1 ==> o.currntIconIndex == old(o.currntIconIndex)
          invariant 0 <= old(o.currntIconIndex) < n ==> o.currntIconIndex < i + 1
          invariant old(o.currntIconIndex) < 0 ==> o.currntIconIndex <= 0
          invariant i < n - 1 ==> o.currntIconIndex == Clamp(old(o.currntIconIndex), 0, i)
        {
          DeleteIcon(i, "");
          assert old(o.icons)[..i + 1][..i] == old(o.icons)[..i];
          i := i - 1;
        }
        o.icons := o.icons[MAX_IMAGE_ICON_COUNT - 1 := o.icons[MAX_IMAGE_ICON_COUNT - 1].(value := value)];
      } else {
        o.icons := o.icons + [ImageElement(value, "")];
      }
      if o.currntIconIndex < 0 {
        o.currntIconIndex := 0;
      }
    }

    /**
      `openModalReplaceImage` once a `value` is chosen: an empty value changes
      nothing; `'null'` blanks the only image (kept for compatibility) or
      deletes the current one; any other value replaces the current image's
      value.
     */
    method ReplaceImage(value: string)
      modifies tabletopObject`images, tabletopObject`currntImageIndex
      ensures var imgs := old(tabletopObject.images);
        var cur := old(tabletopObject.currntImageIndex);
        if value == "" then
          tabletopObject.images == imgs && tabletopObject.currntImageIndex == cur
        else if value == NULL_IMAGE then
          if 0 <= cur < |imgs| && |imgs| == 1 then
            tabletopObject.images == [ImageElement(NULL_IMAGE, NULL_IMAGE)]
            && tabletopObject.currntImageIndex == cur
          else if 0 < |imgs| && cur < |imgs| then
            tabletopObject.images == RemoveAt(imgs, cur)
            && tabletopObject.currntImageIndex == IndexAfterDelete(cur, cur, |imgs|)
          else
            tabletopObject.images == imgs && tabletopObject.currntImageIndex == cur
        else
          tabletopObject.currntImageIndex == cur
          && tabletopObject.images == if 0 <= cur < |imgs| then imgs[cur := imgs[cur].(value := value)] else imgs
    {
      if value == "" {
        return;
      }
      var o := tabletopObject;
      var at := o.ImageElementIndex();
      if value == NULL_IMAGE {
        if at.Some? && |o.images| == 1 {
          o.images := o.images[at.value := ImageElement(value, value)];
        } else {
          DeleteImage(o.currntImageIndex);
        }
      } else if at.Some? {
        o.images := o.images[at.value := o.images[at.value].(value := value)];
      }
    }
  }
}

=== FILE: options.dfy ===
/** The optional value used wherever the source returns or stores `null`. */
module Options {

  datatype Option<+T> = None | Some(value: T) {

    /** The wrapped value, or `default` when there is none. */
    function GetOr(default: T): T {
      match this
      case Some(v) => v
      case None => default
    }
  }
}

=== FILE: peer_cursor.dfy ===
/**
  The presence cursor of each connected player (`PeerCursor`) and the two
  advisory indexes kept beside the object store: `userId -> identifier` and
  `peerId -> identifier`.

  The object store is modelled as the sequence of cursors it holds, in the
  order its `getObjects` returns them. A cursor removed from the store while a
  grace timer still refers to it lives on in `detached`, with its last field
  values, because the timer's closure keeps the object alive. Pending 30 s
  grace timers are a first-in first-out queue: they all have the same delay,
  so they fire in the order they were started.
 */
module PeerCursors {
  import opened Options
  import opened Strings

  type Id = string

  const CHAT_DEFAULT_COLOR: string := "#444444"
  const CHAT_DEFAULT_NAME: string := "プレイヤー"
  const CHAT_TRANSPARENT_COLOR: string := "#ffffff"
  /** Milliseconds a disconnected peer has to reconnect before its cursor goes. */
  const DISCONNECT_GRACE_MS: nat := 30000

  datatype Cursor = Cursor(
    identifier: Id,
    userId: string,
    peerId: string,
    name: string,
    imageIdentifier: string,
    color: string,
    isGMMode: bool)

  /** The synchronised fields an incoming `ObjectContext` carries. */
  datatype CursorContext = CursorContext(
    userId: string,
    peerId: string,
    name: string,
    imageIdentifier: string,
    color: string,
    isGMMode: bool)

  /** The base `apply`: every synchronised field is overwritten, the identifier kept. */
  function WithContext(c: Cursor, ctx: CursorContext): (r: Cursor)
    ensures r.identifier == c.identifier
    ensures r.userId == ctx.userId && r.peerId == ctx.peerId
  {
    Cursor(c.identifier, ctx.userId, ctx.peerId, ctx.name, ctx.imageIdentifier, ctx.color, ctx.isGMMode)
  }

  /** The key a cache is indexed by: the user id, or the peer id. */
  function KeyOf(c: Cursor, byUser: bool): string {
    if byUser then c.userId else c.peerId
  }

  predicate DistinctIds(cs: seq<Cursor>) {
    forall i, j :: 0 <= i < j < |cs| ==> cs[i].identifier != cs[j].identifier
  }

  function Ids(cs: seq<Cursor>): set<Id> {
    set c | c in cs :: c.identifier
  }

  /** `ObjectStore.get(identifier)`: where the cursor with that identifier sits. */
  function IndexOfId(cs: seq<Cursor>, id: Id): (r: Option<nat>)
    ensures r.Some? ==> r.value < |cs| && cs[r.value].identifier == id
    ensures r.None? <==> id !in Ids(cs)
  {
    if cs == [] then None
    else if cs[0].identifier == id then Some(0)
    else match IndexOfId(cs[1..], id)
      case Some(k) => Some(k + 1)
      case None => None
  }

  /** The scan of `find`: the first cursor in store order whose key is `key`. */
  function FirstWithKey(cs: seq<Cursor>, key: string, byUser: bool): (r: Option<nat>)
    ensures r.Some? ==> r.value < |cs| && KeyOf(cs[r.value], byUser) == key
    ensures r.Some? ==> forall j :: 0 <= j < r.value ==> KeyOf(cs[j], byUser) != key
    ensures r.None? ==> forall j :: 0 <= j < |cs| ==> KeyOf(cs[j], byUser) != key
  {
    if cs == [] then None
    else if KeyOf(cs[0], byUser) == key then Some(0)
    else match FirstWithKey(cs[1..], key, byUser)
      case Some(k) => Some(k + 1)
      case None => None
  }

  /**
    A cache entry that points at a cursor still in the store names that
    cursor's key. Entries pointing at removed cursors are allowed: `find`
    checks every hit against the store.
   */
  predicate CacheSound(cs: seq<Cursor>, cache: map<string, Id>, byUser: bool) {
    forall k, i :: k in cache && 0 <= i < |cs| && cs[i].identifier == cache[k] ==> KeyOf(cs[i], byUser) == k
  }

  /** What `find(map, key, isUserId)` returns for a store and a cache. */
  function Lookup(cs: seq<Cursor>, cache: map<string, Id>, key: string, byUser: bool): Option<Cursor> {
    if key in cache && IndexOfId(cs, cache[key]).Some? then Some(cs[IndexOfId(cs, cache[key]).value])
    else match FirstWithKey(cs, key, byUser)
      case Some(i) => Some(cs[i])
      case None => None
  }

  /** The cache after `find`: a scan hit records the key. */
  function CacheAfter(cs: seq<Cursor>, cache: map<string, Id>, key: string, byUser: bool): map<string, Id> {
    if key in cache && IndexOfId(cs, cache[key]).Some? then cache
    else match FirstWithKey(cs, key, byUser)
      case Some(i) => cache[key := cs[i].identifier]
      case None => cache
  }

  /** A cursor `find` returns is in the store and carries the key looked up. */
  lemma LookupFindsStoredCursorWithKey(cs: seq<Cursor>, cache: map<string, Id>, key: string, byUser: bool)
    requires CacheSound(cs, cache, byUser)
    ensures Lookup(cs, cache, key, byUser).Some? ==>
      Lookup(cs, cache, key, byUser).value in cs && KeyOf(Lookup(cs, cache, key, byUser).value, byUser) == key
  {
    if key in cache && IndexOfId(cs, cache[key]).Some? {
      var i := IndexOfId(cs, cache[key]).value;
      assert cs[i].identifier == cache[key];
    }
  }

  /** `find` returns null exactly when no cursor in the store has the key. */
  lemma LookupNoneIffNoCursorHasKey(cs: seq<Cursor>, cache: map<string, Id>, key: string, byUser: bool)
    requires CacheSound(cs, cache, byUser)
    ensures Lookup(cs, cache, key, byUser).None? <==> forall c :: c in cs ==> KeyOf(c, byUser) != key
  {
    if Lookup(cs, cache, key, byUser).None? {
      forall c | c in cs ensures KeyOf(c, byUser) != key {
        var j :| 0 <= j < |cs| && cs[j] == c;
      }
    } else {
      LookupFindsStoredCursorWithKey(cs, cache, key, byUser);
    }
  }

  /** A cursor no longer in the store is never returned, whatever the cache still says. */
  lemma LookupNeverReturnsRemoved(cs: seq<Cursor>, cache: map<string, Id>, key: string, byUser: bool, gone: Id)
    requires gone !in Ids(cs)
    ensures Lookup(cs, cache, key, byUser).Some? ==> Lookup(cs, cache, key, byUser).value.identifier != gone
  {
    var r := Lookup(cs, cache, key, byUser);
    if r.Some? {
      assert r.value in cs;
    }
  }

  /** Filling the cache on a scan hit keeps it sound. */
  lemma CacheAfterSound(cs: seq<Cursor>, cache: map<string, Id>, key: string, byUser: bool)
    requires CacheSound(cs, cache, byUser) && DistinctIds(cs)
    ensures CacheSound(cs, CacheAfter(cs, cache, key, byUser), byUser)
  {
  }

  /** The cache is transparent: asking again after `find` filled it gives the same cursor. */
  lemma {:induction false} LookupStableAfterRefill(cs: seq<Cursor>, cache: map<string, Id>, key: string, byUser: bool)
    requires DistinctIds(cs)
    ensures Lookup(cs, CacheAfter(cs, cache, key, byUser), key, byUser) == Lookup(cs, cache, key, byUser)
  {
    if !(key in cache && IndexOfId(cs, cache[key]).Some?) {
      var f := FirstWithKey(cs, key, byUser);
      if f.Some? {
        var c := CacheAfter(cs, cache, key, byUser);
        assert c[key] == cs[f.value].identifier;
        assert cs[f.value] in cs;
        var k := IndexOfId(cs, c[key]);
        assert k.Some?;
        assert k.value == f.value;
      }
    }
  }

  /** `seq` with the cursor whose identifier is `id` replaced by `c`. */
  function Replace(cs: seq<Cursor>, id: Id, c: Cursor): (r: seq<Cursor>)
    ensures |r| == |cs|
    ensures forall i :: 0 <= i < |cs| ==> r[i] == (if cs[i].identifier == id then c else cs[i])
  {
    seq(|cs|, i requires 0 <= i < |cs| => if cs[i].identifier == id then c else cs[i])
  }

  /** `ObjectStore.remove`: the store without the cursor whose identifier is `id`. */
  function Without(cs: seq<Cursor>, id: Id): (r: seq<Cursor>)
    ensures forall c :: c in r <==> c in cs && c.identifier != id
    ensures Ids(r) == Ids(cs) - {id}
  {
    if cs == [] then []
    else if cs[0].identifier == id then Without(cs[1..], id)
    else [cs[0]] + Without(cs[1..], id)
  }

  /** Removing an identifier the store does not hold changes nothing. */
  lemma {:induction false} WithoutAbsent(cs: seq<Cursor>, id: Id)
    requires id !in Ids(cs)
    ensures Without(cs, id) == cs
  {
    if cs != [] {
      assert cs[0] in cs;
      assert Ids(cs[1..]) <= Ids(cs);
      WithoutAbsent(cs[1..], id);
      assert cs == [cs[0]] + cs[1..];
    }
  }

  /** The re-keying of `apply`: a changed key is set to the cursor and the old key deleted. */
  function Rekey(cache: map<string, Id>, oldKey: string, newKey: string, id: Id): (r: map<string, Id>)
    ensures newKey != oldKey ==> r.Keys == cache.Keys + {newKey} - {oldKey} && r[newKey] == id
    ensures newKey == oldKey ==> r == cache
    ensures forall k :: k in r && k != newKey ==> k in cache && r[k] == cache[k]
    ensures r.Values <= cache.Values + {id}
  {
    if newKey != oldKey then cache[newKey := id] - {oldKey} else cache
  }

  /** Replacing a cursor by one with the same identifier keeps the identifiers. */
  lemma ReplaceKeepsIds(cs: seq<Cursor>, id: Id, c: Cursor)
    requires c.identifier == id && DistinctIds(cs)
    ensures Ids(Replace(cs, id, c)) == Ids(cs) && DistinctIds(Replace(cs, id, c))
  {
    var r := Replace(cs, id, c);
    forall x | x in Ids(cs) ensures x in Ids(r) {
      var i :| 0 <= i < |cs| && cs[i].identifier == x;
      assert r[i].identifier == x;
    }
  }

  /** Re-keying before the base `apply` keeps a cache sound. */
  lemma RekeyKeepsCacheSound(cs: seq<Cursor>, cache: map<string, Id>, byUser: bool, i: nat, c: Cursor)
    requires DistinctIds(cs) && CacheSound(cs, cache, byUser)
    requires i < |cs| && c.identifier == cs[i].identifier
    ensures CacheSound(Replace(cs, c.identifier, c), Rekey(cache, KeyOf(cs[i], byUser), KeyOf(c, byUser), c.identifier), byUser)
  {
    var r := Replace(cs, c.identifier, c);
    var m := Rekey(cache, KeyOf(cs[i], byUser), KeyOf(c, byUser), c.identifier);
    forall k, j | k in m && 0 <= j < |r| && r[j].identifier == m[k] ensures KeyOf(r[j], byUser) == k {
      if j != i {
        assert r[j] == cs[j];
      }
    }
  }

  /** The ids the grace timers of a `DISCONNECT_PEER` event start, in store order. */
  function DisconnectTimers(cs: seq<Cursor>, listening: set<Id>, peerId: string): (r: seq<Id>)
    ensures forall t :: t in r ==> t in listening && exists c :: c in cs && c.identifier == t && c.peerId == peerId
    ensures forall c :: c in cs && c.identifier in listening && c.peerId == peerId ==> c.identifier in r
  {
    if cs == [] then []
    else
      var rest := DisconnectTimers(cs[1..], listening, peerId);
      if cs[0].identifier in listening && cs[0].peerId == peerId then [cs[0].identifier] + rest else rest
  }

  /** `#` followed by six lower-case hexadecimal digits. */
  predicate IsColorCode(s: string) {
    |s| == 7 && s[0] == '#' && forall i :: 1 <= i < 7 ==> ('0' <= s[i] <= '9' || 'a' <= s[i] <= 'f')
  }

  /** A colour read back from storage: adopted trimmed and lower-cased, if it is a colour code. */
  function NormalizedColor(stored: string): Option<string> {
    var c := ToLower(Trim(stored));
    if IsColorCode(c) then Some(c) else None
  }

  /** The colour of a new local cursor: the stored one if it normalises to a colour code, else the default. */
  function AdoptedColor(stored: Option<string>): string {
    if stored.Some? && NormalizedColor(stored.value).Some? then NormalizedColor(stored.value).value else CHAT_DEFAULT_COLOR
  }

  /** A well-formed colour code is adopted as it is. */
  lemma ColorCodeIsNormal(c: string)
    requires IsColorCode(c)
    ensures NormalizedColor(c) == Some(c)
  {
    assert !IsSpace(c[0]);
    assert !IsSpace(c[6]);
    TrimOfTrimmed(c);
    assert ToLower(c) == c by {
      forall i | 0 <= i < 7 ensures LowerChar(c[i]) == c[i] {
      }
    }
  }

  /** Whatever is stored, the local cursor's colour is a colour code; a well-formed one is kept. */
  lemma AdoptedColorIsColorCode(stored: Option<string>)
    ensures IsColorCode(AdoptedColor(stored))
    ensures stored.Some? && IsColorCode(stored.value) ==> AdoptedColor(stored) == stored.value
  {
    if stored.Some? && IsColorCode(stored.value) {
      ColorCodeIsNormal(stored.value);
    }
  }

  /** An adopted colour is adopted unchanged when it is read back again. */
  lemma NormalizedColorIdempotent(stored: string)
    requires NormalizedColor(stored).Some?
    ensures NormalizedColor(NormalizedColor(stored).value) == NormalizedColor(stored)
  {
    ColorCodeIsNormal(NormalizedColor(stored).value);
  }

  /** The default colours are colour codes themselves. */
  lemma DefaultColorsAreColorCodes()
    ensures IsColorCode(CHAT_DEFAULT_COLOR) && IsColorCode(CHAT_TRANSPARENT_COLOR)
  {
  }

  /**
    The cursors of the object store, the static caches and the static
    `myCursor`, and the per-cursor `DISCONNECT_PEER` handlers and pending
    grace timers.
   */
  class PeerCursorStore {
    /** The cursors in the object store, in `getObjects` order. */
    var cursors: seq<Cursor>
    /** Cursors removed from the store that a pending timer still holds. */
    var detached: map<Id, Cursor>
    var userIdMap: map<string, Id>
    var peerIdMap: map<string, Id>
    var myCursor: Option<Id>
    /** Cursors with a registered `DISCONNECT_PEER` handler. */
    var listening: set<Id>
    /** Pending grace timers, oldest first, each holding its cursor's identifier. */
    var timers: seq<Id>
    /** Every identifier ever given out; identifiers are never reused. */
    ghost var used: set<Id>

    ghost predicate Valid()
      reads this
    {
      && DistinctIds(cursors)
      && (forall id :: id in detached ==> id !in Ids(cursors) && detached[id].identifier == id)
      && listening <= Ids(cursors)
      && (myCursor.Some? ==> myCursor.value !in listening && (myCursor.value in Ids(cursors) || myCursor.value in detached))
      && (forall t :: t in timers ==> t in Ids(cursors) || t in detached)
      && CacheSound(cursors, userIdMap, true)
      && CacheSound(cursors, peerIdMap, false)
      && Ids(cursors) <= used
      && detached.Keys <= used
      && userIdMap.Values <= used
      && peerIdMap.Values <= used
    }

    constructor ()
      ensures Valid()
      ensures cursors == [] && detached == map[] && userIdMap == map[] && peerIdMap == map[]
      ensures myCursor == None && listening == {} && timers == []
    {
      cursors := [];
      detached := map[];
      userIdMap := map[];
      peerIdMap := map[];
      myCursor := None;
      listening := {};
      timers := [];
      used := {};
    }

    function Cache(byUser: bool): map<string, Id>
      reads this
    {
      if byUser then userIdMap else peerIdMap
    }

    /** The cursor object a timer refers to, in the store or detached from it. */
    function ObjectOf(id: Id): (c: Cursor)
      reads this
      requires Valid() && (id in Ids(cursors) || id in detached)
      ensures c.identifier == id
    {
      match IndexOfId(cursors, id)
      case Some(i) => cursors[i]
      case None => detached[id]
    }

    /**
      A remote cursor enters the store (`ObjectStore.add` then
      `onStoreAdded`): it is not the local cursor, so it registers its
      `DISCONNECT_PEER` handler.
     */
    method Add(c: Cursor)
      requires Valid() && c.identifier !in used
      modifies this`cursors, this`listening, this`used
      ensures Valid()
      ensures cursors == old(cursors) + [c]
      ensures listening == old(listening) + {c.identifier}
    {
      cursors := cursors + [c];
      listening := listening + {c.identifier};
      used := used + {c.identifier};
      assert Ids(cursors) == Ids(old(cursors)) + {c.identifier};
    }

    /**
      `ObjectStore.remove` then `onStoreRemoved`: the cursor leaves the store,
      its handler is unregistered and both of its cache entries are deleted.
     */
    method Remove(id: Id)
      requires Valid() && id in Ids(cursors)
      modifies this`cursors, this`detached, this`listening, this`userIdMap, this`peerIdMap
      ensures Valid()
      ensures var c := old(ObjectOf(id));
        && cursors == Without(old(cursors), id)
        && detached == old(detached)[id := c]
        && listening == old(listening) - {id}
        && userIdMap == old(userIdMap) - {c.userId}
        && peerIdMap == old(peerIdMap) - {c.peerId}
    {
      var c := ObjectOf(id);
      ForgetKeys(c);
      WithoutKeepsDistinctIds(cursors, id);
      cursors := Without(cursors, id);
      detached := detached[id := c];
      listening := listening - {id};
    }

    /** Both cache entries of a cursor are deleted. */
    method ForgetKeys(c: Cursor)
      requires Valid()
      modifies this`userIdMap, this`peerIdMap
      ensures Valid()
      ensures userIdMap == old(userIdMap) - {c.userId} && peerIdMap == old(peerIdMap) - {c.peerId}
    {
      userIdMap := userIdMap - {c.userId};
      peerIdMap := peerIdMap - {c.peerId};
    }

    /**
      `find`: a cache hit that still resolves in the store is returned;
      otherwise the store is scanned in order, and the first cursor with the
      key is recorded in the cache and returned.
     */
    method Find(key: string, byUser: bool) returns (r: Option<Cursor>)
      requires Valid()
      modifies this`userIdMap, this`peerIdMap
      ensures Valid()
      ensures r == Lookup(cursors, old(Cache(byUser)), key, byUser)
      ensures Cache(byUser) == CacheAfter(cursors, old(Cache(byUser)), key, byUser)
      ensures Cache(!byUser) == old(Cache(!byUser))
    {
      var cache := Cache(byUser);
      if key in cache {
        var hit := IndexOfId(cursors, cache[key]);
        if hit.Some? {
          return Some(cursors[hit.value]);
        }
      }
      var found := Scan(key, byUser);
      if found.None? {
        return None;
      }
      var c := cursors[found.value];
      CacheAfterSound(cursors, cache, key, byUser);
      if byUser {
        userIdMap := userIdMap[key := c.identifier];
      } else {
        peerIdMap := peerIdMap[key := c.identifier];
      }
      return Some(c);
    }

    /** The loop of `find`: the position of the first cursor, in store order, whose key is `key`. */
    method Scan(key: string, byUser: bool) returns (r: Option<nat>)
      ensures r == FirstWithKey(cursors, key, byUser)
    {
      var i := 0;
      while i < |cursors|
        invariant 0 <= i <= |cursors|
        invariant forall j :: 0 <= j < i ==> KeyOf(cursors[j], byUser) != key
      {
        if KeyOf(cursors[i], byUser) == key {
          return Some(i);
        }
        i := i + 1;
      }
      return None;
    }

    /** `findByUserId` */
    method FindByUserId(userId: string) returns (r: Option<Cursor>)
      requires Valid()
      modifies this`userIdMap, this`peerIdMap
      ensures Valid()
      ensures peerIdMap == old(peerIdMap)
      ensures r == Lookup(cursors, old(userIdMap), userId, true)
      ensures userIdMap == CacheAfter(cursors, old(userIdMap), userId, true)
    {
      r := Find(userId, true);
    }

    /** `findByPeerId` */
    method FindByPeerId(peerId: string) returns (r: Option<Cursor>)
      requires Valid()
      modifies this`userIdMap, this`peerIdMap
      ensures Valid()
      ensures userIdMap == old(userIdMap)
      ensures r == Lookup(cursors, old(peerIdMap), peerId, false)
      ensures peerIdMap == CacheAfter(cursors, old(peerIdMap), peerId, false)
    {
      r := Find(peerId, false);
    }

    /**
      `apply`: a changed user id is re-keyed (the new key set to this
      cursor, the old one deleted), likewise the peer id; then the base
      `apply` overwrites the synchronised fields.
     */
    method Apply(id: Id, ctx: CursorContext)
      requires Valid() && id in Ids(cursors)
      modifies this`cursors, this`userIdMap, this`peerIdMap
      ensures Valid()
      ensures var c := old(ObjectOf(id));
        && userIdMap == Rekey(old(userIdMap), c.userId, ctx.userId, id)
        && peerIdMap == Rekey(old(peerIdMap), c.peerId, ctx.peerId, id)
        && cursors == Replace(old(cursors), id, WithContext(c, ctx))
    {
      var i := IndexOfId(cursors, id).value;
      var c := cursors[i];
      var next := WithContext(c, ctx);
      RekeyKeepsCacheSound(cursors, userIdMap, true, i, next);
      RekeyKeepsCacheSound(cursors, peerIdMap, false, i, next);
      ReplaceKeepsIds(cursors, id, next);
      userIdMap := Rekey(userIdMap, c.userId, ctx.userId, id);
      peerIdMap := Rekey(peerIdMap, c.peerId, ctx.peerId, id);
      cursors := Replace(cursors, id, next);
    }

    /**
      A `DISCONNECT_PEER` event: every cursor whose handler is registered
      and whose peer id is the disconnected one starts its grace timer.
     */
    method OnDisconnectPeer(peerId: string)
      requires Valid()
      modifies this`timers
      ensures Valid()
      ensures timers == old(timers) + DisconnectTimers(cursors, listening, peerId)
    {
      var i := 0;
      var started: seq<Id> := [];
      while i < |cursors|
        invariant 0 <= i <= |cursors|
        invariant started + DisconnectTimers(cursors[i..], listening, peerId) == DisconnectTimers(cursors, listening, peerId)
      {
        assert cursors[i..][1..] == cursors[i + 1..];
        if cursors[i].identifier in listening && cursors[i].peerId == peerId {
          started := started + [cursors[i].identifier];
        }
        i := i + 1;
      }
      timers := timers + started;
    }

    /**
      The oldest grace timer fires: if its cursor's peer id is among the
      connected peers nothing happens; otherwise both cache entries of the
      cursor are deleted and it leaves the store (a cursor already removed
      stays removed).
     */
    method FireGraceTimer(connectedPeerIds: seq<string>)
      requires Valid() && timers != []
      modifies this`timers, this`cursors, this`detached, this`listening, this`userIdMap, this`peerIdMap
      ensures Valid()
      ensures timers == old(timers[1..])
      ensures var c := old(ObjectOf(timers[0]));
        if c.peerId in connectedPeerIds then
          cursors == old(cursors) && userIdMap == old(userIdMap) && peerIdMap == old(peerIdMap)
          && listening == old(listening) && detached == old(detached)
        else
          && cursors == Without(old(cursors), c.identifier)
          && c.identifier !in Ids(cursors)
          && userIdMap == old(userIdMap) - {c.userId}
          && peerIdMap == old(peerIdMap) - {c.peerId}
          && listening == old(listening) - {c.identifier}
          && detached == old(detached)[c.identifier := c]
    {
      var id := timers[0];
      var c := ObjectOf(id);
      PopTimer();
      if c.peerId !in connectedPeerIds {
        Expire(c);
      }
    }

    /** The oldest pending timer is dropped. */
    method PopTimer()
      requires Valid() && timers != []
      modifies this`timers
      ensures Valid() && timers == old(timers[1..])
    {
      timers := timers[1..];
    }

    /**
      The body of an expired grace timer: both cache entries of the cursor
      are deleted and it leaves the store, unless it has left already.
     */
    method Expire(c: Cursor)
      requires Valid() && (c.identifier in Ids(cursors) || c.identifier in detached)
      requires c == ObjectOf(c.identifier)
      modifies this`cursors, this`detached, this`listening, this`userIdMap, this`peerIdMap
      ensures Valid()
      ensures cursors == Without(old(cursors), c.identifier) && c.identifier !in Ids(cursors)
      ensures userIdMap == old(userIdMap) - {c.userId} && peerIdMap == old(peerIdMap) - {c.peerId}
      ensures listening == old(listening) - {c.identifier}
      ensures detached == old(detached)[c.identifier := c]
    {
      var id := c.identifier;
      ForgetKeys(c);
      if id in Ids(cursors) {
        Remove(id);
      } else {
        assert detached == detached[id := c];
        assert listening == listening - {id};
        WithoutAbsent(cursors, id);
      }
    }

    /**
      `createMyCursor`: an existing local cursor is returned unchanged.
      Otherwise a fresh cursor with the network's peer id enters the store
      without a disconnect handler, and takes the stored name and the stored
      colour when the latter normalises to a colour code.
     */
    method CreateMyCursor(freshId: Id, networkPeerId: string, storedName: Option<string>, storedColor: Option<string>)
      returns (mine: Cursor)
      requires Valid() && freshId !in used
      modifies this`cursors, this`myCursor, this`used
      ensures Valid()
      ensures old(myCursor).Some? ==> cursors == old(cursors) && myCursor == old(myCursor)
      ensures old(myCursor).Some? ==> mine == ObjectOf(old(myCursor.value))
      ensures old(myCursor).None? ==>
        && myCursor == Some(freshId)
        && mine == Cursor(freshId, "", networkPeerId, storedName.GetOr(""), "", AdoptedColor(storedColor), false)
        && cursors == old(cursors) + [mine]
    {
      if myCursor.Some? {
        return ObjectOf(myCursor.value);
      }
      mine := Cursor(freshId, "", networkPeerId, storedName.GetOr(""), "", AdoptedColor(storedColor), false);
      AddMine(mine);
    }

    /** The local cursor enters the store; being mine, it registers no disconnect handler. */
    method AddMine(c: Cursor)
      requires Valid() && c.identifier !in used && myCursor.None?
      modifies this`cursors, this`myCursor, this`used
      ensures Valid()
      ensures cursors == old(cursors) + [c] && myCursor == Some(c.identifier)
    {
      cursors := cursors + [c];
      myCursor := Some(c.identifier);
      used := used + {c.identifier};
      assert Ids(cursors) == Ids(old(cursors)) + {c.identifier};
    }
  }

  /** `Without` keeps distinct identifiers distinct. */
  lemma {:induction false} WithoutKeepsDistinctIds(cs: seq<Cursor>, id: Id)
    requires DistinctIds(cs)
    ensures DistinctIds(Without(cs, id))
  {
    if cs != [] {
      WithoutKeepsDistinctIds(cs[1..], id);
      if cs[0].identifier != id {
        var r := Without(cs[1..], id);
        assert forall c :: c in r ==> c.identifier != cs[0].identifier by {
          forall c | c in r ensures c.identifier != cs[0].identifier {
            var k :| 0 <= k < |cs[1..]| && cs[1..][k] == c;
          }
        }
      }
    }
  }
}

=== FILE: strings.dfy ===
/**
  String helpers shared by the model: JavaScript's whitespace class (`\s`,
  `String.prototype.trim`), the line terminators that `.` does not match,
  the full-width to half-width shift, ASCII lower-casing, and `Number(s)`
  restricted to decimal integers.
 */
module Strings {
  import opened Options

  /** The characters JavaScript's `\s` and `trim` treat as white space. */
  predicate IsSpace(c: char) {
    c == '\t' || c == '\n' || c == '\U{B}' || c == '\U{C}' || c == '\r' || c == ' '
    || c == '\U{A0}' || c == '\U{1680}' || ('\U{2000}' <= c <= '\U{200A}')
    || c == '\U{2028}' || c == '\U{2029}' || c == '\U{202F}' || c == '\U{205F}'
    || c == '\U{3000}' || c == '\U{FEFF}'
  }

  /** The characters a regular-expression `.` does not match. */
  predicate IsLineTerminator(c: char) {
    c == '\n' || c == '\r' || c == '\U{2028}' || c == '\U{2029}'
  }

  /** `s.trimStart()` */
  function TrimStart(s: string): (r: string)
    ensures |r| <= |s| && r == s[|s| - |r|..]
    ensures r == [] || !IsSpace(r[0])
    ensures forall i :: 0 <= i < |s| - |r| ==> IsSpace(s[i])
  {
    if s == [] || !IsSpace(s[0]) then s else TrimStart(s[1..])
  }

  /** `s.trimEnd()` */
  function TrimEnd(s: string): (r: string)
    ensures |r| <= |s| && r == s[..|r|]
    ensures r == [] || !IsSpace(r[|r| - 1])
    ensures forall i :: |r| <= i < |s| ==> IsSpace(s[i])
  {
    if s == [] || !IsSpace(s[|s| - 1]) then s else TrimEnd(s[..|s| - 1])
  }

  /** `s.trim()`: the longest infix that neither starts nor ends with white space. */
  function Trim(s: string): (r: string)
    ensures r == [] || (!IsSpace(r[0]) && !IsSpace(r[|r| - 1]))
    ensures |r| <= |s|
  {
    TrimEnd(TrimStart(s))
  }

  /** A string that neither starts nor ends with white space is its own trim. */
  lemma TrimOfTrimmed(s: string)
    requires s == [] || (!IsSpace(s[0]) && !IsSpace(s[|s| - 1]))
    ensures Trim(s) == s
  {
  }

  /** Trim yields the empty string exactly when the string is all white space. */
  lemma {:induction false} TrimEmptyIffAllSpace(s: string)
    ensures Trim(s) == [] <==> forall i :: 0 <= i < |s| ==> IsSpace(s[i])
  {
    var t := TrimStart(s);
    if t == [] {
      assert forall i :: 0 <= i < |s| ==> IsSpace(s[i]);
    } else {
      assert !IsSpace(t[0]);
      assert !IsSpace(s[|s| - |t|]);
      assert TrimEnd(t) != [] by {
        assert t[..1] == [t[0]];
      }
    }
  }

  /** The length of the longest prefix of `s` whose characters all satisfy `p`. */
  function PrefixRun(s: string, p: char -> bool): (n: nat)
    ensures n <= |s|
    ensures forall i :: 0 <= i < n ==> p(s[i])
    ensures n < |s| ==> !p(s[n])
  {
    if s == [] || !p(s[0]) then 0 else 1 + PrefixRun(s[1..], p)
  }

  /** A prefix of length `k` that satisfies `p` and cannot be extended is the run. */
  lemma {:induction false} PrefixRunExact(s: string, p: char -> bool, k: nat)
    requires k <= |s| && (forall i :: 0 <= i < k ==> p(s[i])) && (k < |s| ==> !p(s[k]))
    ensures PrefixRun(s, p) == k
  {
    if k > 0 {
      PrefixRunExact(s[1..], p, k - 1);
    }
  }

  /** `StringUtil.toHalfWidth`: the full-width forms U+FF01..U+FF5E shifted to ASCII. */
  function HalfWidthChar(c: char): (r: char)
    ensures '\U{FF01}' <= c <= '\U{FF5E}' ==> '!' <= r <= '~'
    ensures !('\U{FF01}' <= c <= '\U{FF5E}') ==> r == c
  {
    if '\U{FF01}' <= c <= '\U{FF5E}' then (c as int - 0xFEE0) as char else c
  }

  function ToHalfWidth(s: string): (r: string)
    ensures |r| == |s|
    ensures forall i :: 0 <= i < |s| ==> r[i] == HalfWidthChar(s[i])
  {
    if s == [] then [] else [HalfWidthChar(s[0])] + ToHalfWidth(s[1..])
  }

  /** `toLowerCase`, for the ASCII letters. */
  function LowerChar(c: char): (r: char)
    ensures 'A' <= c <= 'Z' ==> r as int == c as int + 32
    ensures !('A' <= c <= 'Z') ==> r == c
  {
    if 'A' <= c <= 'Z' then (c as int + 32) as char else c
  }

  function ToLower(s: string): (r: string)
    ensures |r| == |s|
    ensures forall i :: 0 <= i < |s| ==> r[i] == LowerChar(s[i])
  {
    if s == [] then [] else [LowerChar(s[0])] + ToLower(s[1..])
  }

  predicate StartsWith(s: string, prefix: string) {
    |prefix| <= |s| && s[..|prefix|] == prefix
  }

  /** `s.indexOf(sub) >= 0` */
  predicate Contains(s: string, sub: string)
    decreases |s|
  {
    StartsWith(s, sub) || (s != [] && Contains(s[1..], sub))
  }

  lemma {:induction false} ContainsAt(s: string, sub: string, i: nat)
    requires i + |sub| <= |s| && s[i..i + |sub|] == sub
    ensures Contains(s, sub)
    decreases i
  {
    if i > 0 {
      assert s[1..][i - 1..i - 1 + |sub|] == sub;
      ContainsAt(s[1..], sub, i - 1);
    }
  }

  predicate IsDigit(c: char) { '0' <= c <= '9' }

  predicate AllDigits(s: string) { forall i :: 0 <= i < |s| ==> IsDigit(s[i]) }

  /** The value of a string of decimal digits. */
  function DigitsValue(s: string): (n: nat)
    requires AllDigits(s)
  {
    if s == [] then 0 else DigitsValue(s[..|s| - 1]) * 10 + (s[|s| - 1] as int - '0' as int)
  }

  /**
    `Number(s)` for the forms the model reads: an empty or all-blank string is
    0, an optionally signed decimal integer (surrounded by blanks) is its
    value, and anything else is `NaN` (`None`).
   */
  function ToNumber(s: string): (r: Option<int>)
    ensures Trim(s) == [] ==> r == Some(0)
  {
    var t := Trim(s);
    if t == [] then Some(0)
    else if (t[0] == '+' || t[0] == '-') && |t| > 1 && AllDigits(t[1..]) then
      Some(if t[0] == '-' then 0 - DigitsValue(t[1..]) as int else DigitsValue(t[1..]))
    else if AllDigits(t) then Some(DigitsValue(t))
    else None
  }

  /** `String(n)` for a non-negative integer: its decimal digits, without leading zeros. */
  function NatToString(n: nat): (r: string)
    ensures r != [] && AllDigits(r)
  {
    if n < 10 then [('0' as int + n) as char] else NatToString(n / 10) + [('0' as int + n % 10) as char]
  }

  /** The digits of a number read back as that number. */
  lemma {:induction false} DigitsValueOfNatToString(n: nat)
    ensures DigitsValue(NatToString(n)) == n
  {
    if n >= 10 {
      DigitsValueOfNatToString(n / 10);
      var s := NatToString(n);
      assert s[..|s| - 1] == NatToString(n / 10);
    }
  }

  /** `Number(String(n)) == n` for a non-negative integer. */
  lemma ToNumberOfNatToString(n: nat)
    ensures ToNumber(NatToString(n)) == Some(n)
  {
    var s := NatToString(n);
    assert !IsSpace(s[0]) && !IsSpace(s[|s| - 1]);
    TrimOfTrimmed(s);
    DigitsValueOfNatToString(n);
  }

  /** `s.split(sep)` for a one-character separator: the pieces between separators. */
  function Split(s: string, sep: char): (r: seq<string>)
    ensures |r| >= 1
    ensures forall i :: 0 <= i < |r| ==> sep !in r[i]
    decreases |s|
  {
    if sep !in s then [s]
    else
      var k := FirstIndex(s, sep);
      [s[..k]] + Split(s[k + 1..], sep)
  }

  /** The position of the first `c` in `s`. */
  function FirstIndex(s: string, c: char): (k: nat)
    requires c in s
    ensures k < |s| && s[k] == c && c !in s[..k]
  {
    if s[0] == c then 0 else 1 + FirstIndex(s[1..], c)
  }

  /** `parts.join(sep)` */
  function Join(parts: seq<string>, sep: string): (r: string)
    requires |parts| >= 1
  {
    if |parts| == 1 then parts[0] else parts[0] + sep + Join(parts[1..], sep)
  }

  /** Splitting on a character and joining the pieces with it gives the string back. */
  lemma {:induction false} JoinSplit(s: string, sep: char)
    ensures Join(Split(s, sep), [sep]) == s
    decreases |s|
  {
    if sep in s {
      var k := FirstIndex(s, sep);
      var rest := Split(s[k + 1..], sep);
      JoinSplit(s[k + 1..], sep);
      var parts := Split(s, sep);
      assert parts == [s[..k]] + rest;
      assert parts[1..] == rest;
      calc {
        Join(parts, [sep]);
        parts[0] + [sep] + Join(rest, [sep]);
        s[..k] + [sep] + s[k + 1..];
        { assert s == s[..k] + [sep] + s[k + 1..]; }
        s;
      }
    }
  }

  /** Joining separator-free pieces and splitting again gives the pieces back. */
  lemma {:induction false} SplitJoin(parts: seq<string>, sep: char)
    requires |parts| >= 1
    requires forall i :: 0 <= i < |parts| ==> sep !in parts[i]
    ensures Split(Join(parts, [sep]), sep) == parts
    decreases |parts|
  {
    if |parts| > 1 {
      var rest := Join(parts[1..], [sep]);
      assert Join(parts, [sep]) == parts[0] + [sep] + rest;
      SplitAfterFirst(parts[0], sep, rest);
      SplitJoin(parts[1..], sep);
      assert parts == [parts[0]] + parts[1..];
    }
  }

  /** Splitting a string whose first separator follows `a` gives `a` and the pieces of the rest. */
  lemma SplitAfterFirst(a: string, sep: char, b: string)
    requires sep !in a
    ensures Split(a + [sep] + b, sep) == [a] + Split(b, sep)
  {
    var s := a + [sep] + b;
    assert s[|a|] == sep;
    var k := FirstIndex(s, sep);
    assert s[..k] == a;
    assert s[k + 1..] == b;
  }
}
